=== FILE: README.md ===
# CinemAI recommendation core in Dafny

This project models the pure logic of the CinemAI movie recommender backend:

- **Weighting.** A watch-history item weighs its rating factor times a recency factor.
- **Clustering.** The clustering service groups the embeddings of a user's highly rated movies into weighted taste clusters. It uses one centroid, the best KMeans partition, or HDBSCAN with a noise fallback.
- **Filtering and scoring.** Candidate movies are filtered by genre, year, duration, country and watched id. They are then scored by their best similarity to a cluster centroid, sorted stably and cut to the top 10.
- **Upload.** Uploaded watch-history records go through a field-detection table of priority-ordered keys and typed parsers. The records that validate become history items.
- **Embedding requests.** The embedding service deduplicates texts, sends the uncached ones in batches and maps the results back to the original order.
- **Catalogue.** The TMDB catalogue is paged and shaped into movie records.
- **Taste summary.** The LLM prompt includes a taste summary: one line per cluster, with the two most frequent genres and countries.
- **Visualization.** The visualization service lists the unique movies of a profile. It stacks centroids and movie embeddings, reduces them, and assembles plot points.

Everything is modelled as immutable datatypes over `seq`, `map` and `real`, with pure functions. Two loops are methods with loop invariants: loading a history and deduplicating texts.

These are all parameters of the model:

- library algorithms: KMeans labels, silhouette scores, HDBSCAN labels, `x ** 1.5`, `datetime.fromisoformat`, `float()`, the country lookup, the t-SNE/UMAP/PCA reducers and cosine similarity;
- collaborators: the embedder, the clusterer, the validator, pydantic construction, the profile store, the embedding cache and the embeddings API.

Each one is either characterised by a predicate (for example `Weighting.IsPow15` for the power function) or left uninterpreted.

## Model

| member | source | states |
|---|---|---|
| Seqs.SelectsUnique | backend/services/filtering_service.py:21 | A list comprehension with a condition is pinned down by order and multiplicity: the only subsequence keeping each satisfying element as often as it occurs, and nothing else, is the filter's result. |
| Seqs.FilterCounts | backend/services/filtering_service.py:21 | A comprehension with a condition keeps each satisfying element as often as it occurs and drops the others. |
| Strings.StripStripsTo | backend/services/field_detection_service.py:114-118 | `str.strip()` returns a slice of its input with only whitespace around it and no whitespace at either end. |
| Strings.StripsToUnique | backend/services/field_detection_service.py:114-118 | That description fits no other text, so it characterises `strip()` completely. |
| Strings.StripEmpty | backend/services/field_detection_service.py:114 | `value.strip()` is empty exactly when every character is whitespace. |
| Strings.SplitHead | backend/services/tmdb_service.py:103 | `split("-")[0]` is the text before the first '-', or the whole text when there is none. |
| Strings.SplitJoin | backend/services/field_detection_service.py:151 | Splitting a separator-join of separator-free parts gives the parts back. |
| Strings.IntToStringRoundTrip | backend/services/field_detection_service.py:140 | `int(str(i)) == i` for every integer, negative ones included. |
| Weighting.RatingWeight | backend/utils/weighting.py:4-17 | The rating factor is defined exactly for ratings of at least 1. Below 1 Python's power gives a complex number, modelled as no weight. |
| Weighting.RatingWeightAnchors | backend/utils/weighting.py:5-17 | A rating of 1 weighs 0.15 and a rating of 10 weighs 1.0. |
| Weighting.RatingWeightMonotone | backend/utils/weighting.py:17 | For ratings from 1 up, the factor is non-decreasing and at least 0.15, and it is at most 1.0 up to rating 10. This assumes only that x^1.5 is non-negative and squares to x^3. |
| Weighting.RecencyWeight | backend/utils/weighting.py:20-32 | The recency factor always lies in [0.3, 1.0]. |
| Weighting.RecencyAnchors | backend/utils/weighting.py:23-32 | It is 1.0 from 2020 on and 0.3 before 1975. The pieces meet at 0.85 in 1990 and at 0.3 in 1975, and the 1990 piece reaches 1.0 at 2020. |
| Weighting.RecencyMonotone | backend/utils/weighting.py:22-32 | A later watch year never weighs less. |
| Weighting.RecencyOnlyYear | backend/utils/weighting.py:20-22 | Only the watch year matters: not the month, the day or `now`. |
| Weighting.ItemWeightBounds | backend/services/clustering_service.py:79 | The per-item weight (rating factor times recency factor) exists for ratings from 1 up and is at least 0.045. For ratings up to 10 it is at most 1.0, so it is always positive. |
| Clustering.Weights | backend/services/clustering_service.py:79 | In the model, weighting fails exactly when some date does not parse or some rating is below 1; the second case is where Python's power leaves the reals (see Left out). Otherwise item i's weight is the product of item i's rating factor and recency factor. |
| Clustering.WeightsPositive | backend/services/clustering_service.py:79 | Every weight of a successful weighting is positive. |
| Clustering.SameRatingSameYearSameWeight | backend/services/clustering_service.py:79 | Items with equal rating and equal watch year weigh the same. |
| Clustering.MakeCluster | backend/services/clustering_service.py:28-35 | The cluster of the selected rows counts exactly those rows, has no movies yet and has the input dimension. Its centroid is the weight-weighted mean of the selected vectors and its average rating the weight-weighted mean of the selected ratings (`np.average` with `weights`), so each lies within the range of the selected values. |
| Clustering.ClustersFor | backend/services/clustering_service.py:25-35 | There are at most as many clusters as ids, and exactly as many when every id has members. Every cluster is non-empty. The counts add up to the members of the listed ids. Which rows form each cluster is stated by ClustersForGroups. |
| Clustering.ClustersForGroups | backend/services/clustering_service.py:25-35 | Let present be the ids that occur in the labels, in the order of ids. Then cluster j is the cluster of exactly the rows labelled present[j]. Its count is the number of such rows. Its centroid and average rating are the weight-weighted means of exactly those rows' vectors and ratings. |
| Clustering.RowsPartitioned | backend/services/clustering_service.py:25-26 | For distinct ids, a row whose label is among the ids belongs to the rows of exactly one cluster. A row with any other label belongs to none. |
| Clustering.KMeansCountsCoverAll | backend/services/clustering_service.py:21-38 | When KMeans labels every row within 0..k-1, there are at most k clusters, none is empty, and their counts add up to n. |
| Clustering.BestKFrom | backend/services/clustering_service.py:44-50 | The sweep returns the first k with the greatest score above the running best, or keeps the old best when no score beats it. |
| Clustering.SelectBestK | backend/services/clustering_service.py:40-51 | k ranges over [2, min(10, n)). The chosen k has a maximal score, and every smaller k scores strictly less, so the smallest k wins ties. When no score beats -1, or the range is empty, the result is 2. |
| Clustering.DensityIds | backend/services/clustering_service.py:62-64 | The density clusters are keyed by the distinct labels other than -1, each listed once. |
| Clustering.DensityClusters | backend/services/clustering_service.py:53-75 | The density path gives up exactly when the noise count exceeds threshold × n. |
| Clustering.DensityCounts | backend/services/clustering_service.py:56-75 | An accepted density clustering has one non-empty cluster per non-noise label. Its counts add up to n minus the noise count. |
| Clustering.ClusterWeighted | backend/services/clustering_service.py:81-94 | Whatever the strategy, every cluster is non-empty, has the input dimension, and has a rating within the input rating range. |
| Clustering.CountsAccountForItems | backend/services/clustering_service.py:81-94 | On every strategy the cluster counts add up to the number of items, except for the noise points of an accepted density clustering. That each row falls in exactly one cluster is RowsPartitioned. |
| Clustering.ClusterEmbeddings | backend/services/clustering_service.py:77-94 | The model's clustering succeeds exactly on well-formed input: equal lengths, a rectangular matrix, parseable dates and ratings of at least 1, and at least one item. The source is more lenient in two cases (see Left out). Empty input is an error, not an empty result. Every cluster is non-empty, has the input dimension and lies within the input rating range. |
| Clustering.SmallInputSingleCluster | backend/services/clustering_service.py:81-87 | Below 100 items there is exactly one cluster, of count n. Its centroid is the weight-weighted mean of the vectors and its rating the weight-weighted mean of the ratings. |
| Clustering.SingleItem | backend/services/clustering_service.py:81-87 | A single item forms one cluster of count 1, with its own vector as centroid and its own rating. |
| Clustering.SmallEqualWeights | backend/services/clustering_service.py:82-84 | With equal weights, the single centroid is the plain mean of the vectors and the rating the plain mean of the ratings. |
| Clustering.ClusterEmbeddingsUnfold | backend/services/clustering_service.py:77-94 | On well-formed input, `cluster` is the strategy table applied to positive recency-and-rating weights. |
| Averages.WeightedMeanWithin | backend/services/clustering_service.py:34 | A weighted mean with positive weights lies between the smallest and the largest value. |
| Averages.CentroidWithin | backend/services/clustering_service.py:29 | Each centroid coordinate lies between the smallest and the largest member coordinate. |
| Filtering.FilterMovies | backend/services/filtering_service.py:5-21 | The result is an order-preserving subsequence holding exactly the matching movies, each as often as in the input. No survivor has a watched id. Each survivor shares a genre, has a listed year, is no longer than some listed duration, and shares a country, for each of these lists that is non-empty. |
| Filtering.MatchesExactly | backend/services/filtering_service.py:5-16 | `_matches` holds iff the id is not watched and each non-empty list is met; empty lists impose nothing. |
| Filtering.FilterMoviesIdempotent | backend/services/filtering_service.py:18-21 | Filtering twice gives the same as filtering once. |
| Filtering.NoFiltersIdentity | backend/services/filtering_service.py:8-16 | An empty filter dictionary returns the candidates unchanged. |
| Recommendation.MaxSim | backend/services/recommendation_service.py:12-15 | The score is at least every cluster's similarity and equal to one of them. |
| Recommendation.Embedded | backend/services/recommendation_service.py:10-11 | Exactly the candidates that have an embedding are scored, in input order and each as often as it is listed. |
| Recommendation.Recommend | backend/services/recommendation_service.py:7-18 | It fails exactly when there are no clusters and some candidate is embedded. Otherwise it returns min(10, embedded count) embedded input candidates. |
| Recommendation.RecommendOrdered | backend/services/recommendation_service.py:17-18 | The output is in non-increasing score order, with no candidate twice, and equal scores keep their input order. |
| Recommendation.RecommendTopN | backend/services/recommendation_service.py:17-18 | Every embedded candidate that is not returned scores no higher than every returned one. When it ties with a returned one, the returned one came earlier in the candidate list (the sort is stable). |
| Recommendation.ScoreIsBestSimilarity | backend/services/recommendation_service.py:12-15 | Each returned movie's score is its maximum similarity over all cluster centroids. |
| Recommendation.NoCandidatesNoRecommendations | backend/services/recommendation_service.py:9-18 | No candidates give an empty result, whatever the profile. |
| FieldDetection.NormalizeTitle | backend/services/field_detection_service.py:67-69 | A normalized title has no surrounding whitespace. It is the whitespace-free core of the title, or of the part before a trailing language code. |
| FieldDetection.NormalizeTitleDropsCode | backend/services/field_detection_service.py:67-69 | A trailing "(xx)" two-letter code, with surrounding whitespace, is removed and the rest is stripped. |
| FieldDetection.NormalizeTitleOnlyStrips | backend/services/field_detection_service.py:67-69 | A title without such a code is only stripped. |
| FieldDetection.DetectStr | backend/services/field_detection_service.py:113-118 | Only a string that is not all whitespace is accepted. The result is the slice of the input with only whitespace around it and none at its ends, and it is non-empty. For a title ending in a language code it is that slice of the part before the code, possibly empty. |
| FieldDetection.NoBreakSpaceRejected | backend/services/field_detection_service.py:113-118 | A title of one no-break space is rejected, because Python's `strip()` empties it. |
| FieldDetection.DetectFloat | backend/services/field_detection_service.py:120-128 | Numbers and booleans always convert and strings convert when `float()` accepts them; nothing else does. An integer stays whole and equal, a boolean becomes 0 or 1, and a number is non-zero exactly when it was truthy. |
| FieldDetection.DetectFloatStable | backend/services/field_detection_service.py:120-122 | Detecting an already detected float gives it back. |
| FieldDetection.FirstWindow | backend/services/field_detection_service.py:134-137 | This is the leftmost position where four digits start, or none when there is none. |
| FieldDetection.DetectInt | backend/services/field_detection_service.py:130-143 | An int or bool passes through unchanged. A year string yields its first four-digit run or nothing, another int string is parsed whole, and other values are rejected. |
| FieldDetection.CommaItems | backend/services/field_detection_service.py:151 | Comma items are non-empty, stripped and comma-free. They are the non-empty stripped pieces of the comma split, in order and with their multiplicity. |
| FieldDetection.CommaItemsJoin | backend/services/field_detection_service.py:151 | Splitting a comma-join of clean items gives the items back. |
| FieldDetection.DetectList | backend/services/field_detection_service.py:145-155 | Only lists and strings are accepted. A list gives one entry per truthy item, in order and with multiplicity, stringified. A string gives one entry per non-empty stripped comma piece, and those entries are clean. For countries, each entry is mapped. |
| FieldDetection.DetectListJoin | backend/services/field_detection_service.py:150-155 | A comma-joined list of clean names detects as exactly those names. |
| FieldDetection.Parse | backend/services/field_detection_service.py:103-110 | A parsed value always has the type its field declares. |
| FieldDetection.FirstPresent | backend/services/field_detection_service.py:100-102 | This is the first pattern that is a key of the record, or none. |
| FieldDetection.DetectField | backend/services/field_detection_service.py:93-111 | The value under the first present key is parsed, with no fall-through to later keys when it fails. With no key present, the default is returned. |
| FieldDetection.Convert | backend/services/field_detection_service.py:19-39 | It fails exactly when some required field's detected value is none. Otherwise it has a key exactly for each field whose detected value exists, holding that value. |
| FieldDetection.ConvertFromFields | backend/services/field_detection_service.py:27-36 | With distinct field names, the loop that fills the record leaves a field's name as a key exactly when it was detected or already present, and a detected field holds its detected value. |
| FieldDetection.ConvertFromOnly | backend/services/field_detection_service.py:27-36 | The loop adds no key other than the names of the fields it visits. |
| FieldDetection.ConvertFromKeeps | backend/services/field_detection_service.py:27-36 | Entries whose key names no visited field pass through the loop unchanged. |
| FieldDetection.ValidateExactly | backend/services/field_detection_service.py:41-65 | Validation fails exactly when some required field is missing or has the wrong type tag. |
| FieldDetection.ConvertedValidates | backend/services/field_detection_service.py:19-65 | Every converted record passes validation. |
| FieldDetection.MissingCountriesDefault | backend/services/field_detection_service.py:111 | A record with no country key gets the empty country list and is not rejected. |
| FieldDetection.MissingWatchedAtOmitted | backend/services/field_detection_service.py:33-34 | A record with no watch-date key converts without a `watched_at` entry. |
| Embeddings.DeduplicateTexts | backend/services/embedding_service.py:38-43 | The unique texts are the first occurrences in order. The index table has exactly the input texts as keys, each with its ascending positions. |
| Embeddings.IndexTableExact | backend/services/embedding_service.py:40-41 | Every position appears under its own text, and only there. |
| Embeddings.UncachedBatches | backend/services/embedding_service.py:51-65 | Concatenated, the batches are exactly the uncached unique texts with their positions, in order. A negative size gives no batches, and a zero size is an error. |
| Embeddings.BatchesWellFormed | backend/services/embedding_service.py:51-65 | Every batch is non-empty and has at most `batch_size` texts, each sent with its own uncached position. |
| Embeddings.BatchIndicesDistinct | backend/services/embedding_service.py:51-65 | No batch sends a position twice. |
| Embeddings.ApplyBatch | backend/services/embedding_service.py:23-36 | A failing batch sets each of its positions to none and changes nothing else. A successful one writes each returned vector at its position and changes nothing else. |
| Embeddings.MapBackCorrect | backend/services/embedding_service.py:67-79 | Mapping back gives `total` items, and item i is the unique result for texts[i]. |
| Embeddings.MapBackRoundTrip | backend/services/embedding_service.py:67-88 | If every unique result is g of its text, the mapped result is g of each input text. |
| Embeddings.ApplyAllAgrees | backend/services/embedding_service.py:23-36 | When cache and API both embed as f, every sent position receives f of its text. |
| Embeddings.ApplyAllApiDown | backend/services/embedding_service.py:33-36 | When the API always fails, the uncached positions stay none. |
| Embeddings.Embed | backend/services/embedding_service.py:81-88 | There is one result per text, and equal texts get equal results. A text found in the cache gets its cached embedding, whatever the API does. Agreeing services give f of every text. With the API down, each text gets its cached embedding or none. |
| Embeddings.CacheHitsKept | backend/services/embedding_service.py:56-60 | Batches carry only the uncached positions, so a cached text's result is its cache lookup. |
| Embeddings.AgreeingResults | backend/services/embedding_service.py:23-36 | When cache and API agree with f, every unique text ends with f of itself, whether it was cached or sent. |
| Embeddings.SpreadRoundTrip | backend/services/embedding_service.py:67-88 | When every unique text ends with g of itself, spreading back gives every input text g of itself. |
| Embeddings.ApiDownSpread | backend/services/embedding_service.py:81-88 | When every API call raises, every text is mapped back to its own cache lookup. |
| Tmdb.MatchesExactly | backend/services/tmdb_service.py:43-56 | A match shares a genre and a country when those lists are non-empty, and equals the year and duration when those are set. Absent values impose nothing. |
| Tmdb.FetchMovies | backend/services/tmdb_service.py:33-41 | The result holds exactly the matching cached records as movies, without embeddings: the matching records in cache order, each as often as cached. |
| Tmdb.FetchMoviesKeepsMatches | backend/services/tmdb_service.py:40 | The matching records are kept in cache order. |
| Tmdb.NoFiltersKeepAll | backend/services/tmdb_service.py:40-56 | No filter keeps the whole catalogue. |
| Tmdb.TotalPagesCeiling | backend/services/tmdb_service.py:59-60 | The page count is the ceiling of total/20. |
| Tmdb.PageRounds | backend/services/tmdb_service.py:64-66 | The rounds request pages 1..total_pages exactly once, in order, in rounds of at most `batch_size`. A zero size is an error. |
| Tmdb.PyPrefix | backend/services/tmdb_service.py:72 | This is a Python prefix slice, including negative lengths. |
| Tmdb.FetchPages | backend/services/tmdb_service.py:64-86 | The page requests fail exactly when some page's request fails, with an error naming such a page. Otherwise the results are every page's results concatenated in page order. |
| Tmdb.RawMovies | backend/services/tmdb_service.py:63-72 | A failing page request aborts the download, with an error naming a failing page, and it fails only then. Otherwise the raw list is the page results in page order, truncated to `total_movies`. |
| Tmdb.ReleaseYear | backend/services/tmdb_service.py:103 | The year is the integer written before the date's first '-' (the whole date when it has none), or 0 without a date. A date whose text there is not an integer is an error naming the date. |
| Tmdb.ReleaseYearOfIsoDate | backend/services/tmdb_service.py:103 | "YYYY-MM-DD" yields YYYY. |
| Tmdb.ShapeRecord | backend/services/tmdb_service.py:88-116 | A 404 skips the movie, and another failure raises. Otherwise the fields are shaped: unmapped genre ids become their string, and a missing runtime and a missing overview become 0 and "". |
| Tmdb.RoundsAreOnePass | backend/services/tmdb_service.py:74-77 | Cutting the raw list into detail rounds does not change the outcome. |
| Tmdb.BuildCatalogue | backend/services/tmdb_service.py:72-77 | The catalogue is the shaped truncated raw list. |
| UserProfiles.KeptExactly | backend/services/user_profile_service.py:77-87 | A history item is kept iff some converted record validates and constructs to it. |
| UserProfiles.KeptAll | backend/services/user_profile_service.py:77-87 | When every record is good, all are kept, in order. |
| UserProfiles.LoadWatchHistory | backend/services/user_profile_service.py:63-89 | Loading fails exactly when batch conversion fails, and keeps at most the converted records. |
| UserProfiles.HighRated | backend/services/user_profile_service.py:94 | This is the order-preserving subsequence of items rated strictly above 4, each kept as often as it occurs. |
| UserProfiles.EmbeddingText | backend/services/user_profile_service.py:102 | The text is title, description (or ''), genres and countries, all separated by single spaces. |
| UserProfiles.EmbeddingTextSplits | backend/services/user_profile_service.py:102 | When no field contains a space, splitting the text on spaces gives the fields back. |
| UserProfiles.WatchDate | backend/services/user_profile_service.py:109 | A missing or empty watch date becomes "2023-01-01", and another date is kept. |
| UserProfiles.ToMovieRoundTrip | backend/services/user_profile_service.py:110-122 | The movie built from a history item gives the item back. |
| UserProfiles.Prepare | backend/services/user_profile_service.py:105-122 | The clusterer receives aligned ratings, defaulted dates and movies. High-rated movie i has no id and gets embeddings[i] if present. |
| UserProfiles.ClusterInputIsHighRated | backend/services/user_profile_service.py:94-122 | Only items rated above 4 reach the clusterer. An embedding beyond the returned list is none. |
| UserProfiles.BuildProfile | backend/services/user_profile_service.py:91-133 | An embedding failure fails the build with that error. A clustering failure after a successful embedding fails it with the clusterer's error. When both succeed the result is the profile of the user id, the clusterer's clusters for the prepared high-rated input, and the full history. |
| UserProfiles.ClustersIgnoreLowRated | backend/services/user_profile_service.py:94-124 | Histories with the same high-rated items get the same clusters. |
| UserProfiles.NothingHighRated | backend/services/user_profile_service.py:94-110 | With no item above 4, nothing is embedded and the clusterer gets empty lists. |
| UserProfiles.CreateAndSaveProfile | backend/services/user_profile_service.py:34-61 | Some raw rating may be present but be neither a number nor a bool. Then the opening log call's `sum()` raises, before anything is loaded or saved. Otherwise it saves exactly the built profile and returns it, and any load, build or save failure propagates. |
| UserProfiles.StringRatingStops | backend/services/user_profile_service.py:36-41 | A record rated with the string "8.5" stops profile creation at the log call. |
| TasteSummary.ByFrequency | backend/services/llm_service.py:81-85 | The names ordered by count, each once, with ties in first-appearance order. |
| TasteSummary.TopNames | backend/services/llm_service.py:84-85 | At most the two most frequent names, with ties by first appearance; two whenever there are two distinct names. |
| TasteSummary.SummarizeTop | backend/services/llm_service.py:81-85 | An empty tally renders as "no genres found" / "no countries found", and otherwise as the top names joined by ", ". |
| TasteSummary.TalliesDrawOnClusterMovies | backend/services/llm_service.py:88-91 | Every listed genre or country comes from a movie of that cluster. |
| TasteSummary.SummarizeCluster | backend/services/llm_service.py:87-97 | Line i begins with "Taste group {i+1}: {count} movies". |
| TasteSummary.BuildTasteSummary | backend/services/llm_service.py:99 | An empty profile gives "". |
| TasteSummary.SummaryLines | backend/services/llm_service.py:87-99 | Splitting the summary at newlines gives one line per cluster, each beginning with its own header. |
| Visualization.UniqueMovies | backend/services/visualization_service.py:50-58 | Titles are pairwise distinct, first occurrences in order, and every title of every cluster appears. |
| Visualization.NoneListIsEmpty | backend/services/visualization_service.py:54 | A None movie list counts as empty. |
| Visualization.MovieEmbeddings | backend/services/visualization_service.py:60-83 | Empty texts give ([], []). When texts and movies have equal length, embeddings and titles have equal length. An embedding is in the result exactly when some text's lookup returned it. |
| Visualization.EmbeddingsPaired | backend/services/visualization_service.py:65-83 | When texts and movies have equal length, there is an increasing list ks of exactly the positions whose lookup succeeded. The j-th embedding is the lookup of texts[ks[j]], and the j-th title is movies[ks[j]].title, so each title sits beside its own movie's embedding. |
| Visualization.MovieEmbeddingsExtremes | backend/services/visualization_service.py:81-83 | When every lookup succeeds, all titles are kept, and when none does, the result is empty. |
| Visualization.ClusterLabels | backend/services/visualization_service.py:41 | The labels are "Cluster 1".."Cluster k". |
| Visualization.ClusterLabelsDistinct | backend/services/visualization_service.py:41 | The cluster labels are pairwise distinct. |
| Visualization.PointTypes | backend/services/visualization_service.py:42 | There are k cluster types followed by m movie types. |
| Visualization.Stack | backend/services/visualization_service.py:85-91 | With no embeddings the centroids are returned unchanged. Otherwise the rows are the centroids followed by the embeddings, and a ragged matrix is an error. |
| Visualization.Reduce | backend/services/visualization_service.py:93-106 | Fewer than 3 rows are returned as-is, even for an unknown technique. Otherwise an unknown technique is an error. |
| Visualization.PyIndex | backend/services/visualization_service.py:122 | This is Python list indexing: j counts from the front when 0 <= j < n and from the end when -n <= j < 0, and otherwise raises. |
| Visualization.PointAt | backend/services/visualization_service.py:116-127 | A point has x = coord[0], y = coord[1], its label and its type. A cluster point has no metadata, and a movie point has the metadata of `movies[i - k]`. It fails exactly on a short coordinate or a bad movie index. |
| Visualization.PointsFrom | backend/services/visualization_service.py:116-128 | There is one point per zipped index, and building fails iff some point fails. |
| Visualization.BuildPoints | backend/services/visualization_service.py:108-128 | One point per index shared by coordinates, labels and types, with that label and type. Cluster points have no metadata, and movie point i shows `movies[i - k]`. |
| Visualization.VisualizeAsWritten | backend/services/visualization_service.py:22-48 | As written: at most one point per cluster and per unique movie. The cluster points come first, labelled "Cluster 1".. with no metadata, and every later point is a movie point. |
| Visualization.Visualize | backend/services/visualization_service.py:22-48 | Corrected: the same shape, with details drawn from the movies whose embedding was found. |
| Visualization.AsWrittenAgreesWhenAllFound | backend/services/visualization_service.py:22-48 | When every unique movie has an embedding, the as-written and the corrected pictures are identical. |
| Visualization.MisalignedMetadata | backend/services/visualization_service.py:116-127 | As written: the point labelled "B" gets the year and duration of movie "A". |
| Visualization.PointsAligned | backend/services/visualization_service.py:22-48 | Corrected: every movie point's caption and metadata come from the same unique movie. |
| Visualization.AlignedMetadata | backend/services/visualization_service.py:22-48 | Corrected: on the same input, point "B" carries B's own metadata. |

## Left out

- Network and storage: Redis, httpx and TMDB requests, the OpenAI embedding and chat calls, the SQL repositories and migrations. The embedding cache, profile store and TMDB responses are parameters.
- Web routes, dependency injection, settings and logging; the recommendation manager; the plotting script.
- Library algorithms: KMeans, the silhouette score, HDBSCAN, t-SNE/UMAP/PCA, pycountry, sha256 cache keys, `datetime.fromisoformat` and cosine similarity. They are uninterpreted parameters.
- IEEE floating point: `real` is used throughout. `x ** 1.5` is characterised only by non-negativity and its square. Float overflow, NaN and `:.2f` rounding are not modelled; the formatter is a parameter.
- `asyncio.gather` concurrency: batches, page requests and detail requests are applied one after the other. Successful results do not depend on this order. When several requests of a round fail, `gather` raises whichever failure happens first in time. `Tmdb.FetchPages` only promises an error naming some failing page. `Tmdb.ShapeAll` reports the first failure in list order, which is one of the failures the source may raise.
- `int()` accepting underscores and non-ASCII digits: only ASCII digit strings with an optional sign, surrounded by whitespace, are parsed.
- FieldDetection.FirstWindow: the regex `\d` of Python's `re` matches every Unicode decimal digit, and `int()` reads them. The model's digits are ASCII 0-9 only, so a four-digit run in another script is not found.
- FieldDetection.DetectInt: the year search inherits this. For "٢٠٢٠" the source gives 2020 and the model nothing. For "٢٠٢٠/1999" the source gives 2020 and the model 1999.
- The title normalization's `[a-z]{2}` with IGNORECASE is modelled for ASCII letters only.
- Clustering.DensityIds: HDBSCAN clusters come in first-appearance order of their labels. Python's `set` iteration order is not modelled.
- Clustering.ClusterEmbeddings: the model demands exactly as many ratings and dates as vectors, and rejects every other length with one error. The source is more lenient. `zip` cuts the weights to the shorter of ratings and dates, so surplus dates are never parsed. Below 100 items it needs only as many ratings as vectors and at least as many dates, so longer dates are accepted at any size. From 100 items on it reads ratings and weights only at member rows, so longer ratings and dates are accepted. An accepted HDBSCAN clustering even accepts shorter ones, as long as every missing row is noise.
- Clustering.Weights: a rating below 1 is an error in the model. In the source, `x ** 1.5` of a negative float gives a complex weight, and the clusters come out with complex centroids and ratings instead of an exception.
- Embeddings.MapResults: the dictionary is iterated in the order of its keys as given. The model assumes that this is the order of the unique texts, which is insertion order.
- UserProfiles.Services: the clusterer is an abstract collaborator taking the prepared input. The source calls it with four arguments, but the concrete clustering service takes three.
- UserProfiles.LoadWatchHistory: rejected records are only logged, and the log is not modelled.
- Visualization.Stack: zero centroids with a non-empty embedding list is an error. numpy only raises when the dimensions disagree.
- Visualization.MetaOf: movies have no rating field, so a movie point's rating is always none.
- Tmdb.ShapeRecord: a `runtime` or `overview` that is present but null is shaped to None in the source. The model's responses do not tell a null apart from a missing key, so both become 0 and "".
- Tmdb.FetchMovies: the refresh when the cache is empty (a network download) is left out; the cached list is a parameter.
- The program's backend/domain/entities.py `UserProfile` has no `movies` field, although profile building passes one. The model's `UserProfile` has it.
- The taste summary "varied" branch of `summarize_top` is unreachable: `most_common(2)` of a non-empty tally is never empty. It is not modelled.

## Findings

| source | as written | input that shows it | evidently intended | confidence | as-written member | corrected member |
|---|---|---|---|---|---|---|
| backend/services/visualization_service.py:116-127 | A movie point's metadata is read from `movies[i - n_centroids]`, where `movies` is the unfiltered unique-movie list. The point's label comes from the titles that survived the embedding filter. | One cluster with movies A (year 2000, 90 min, no embedding) and B (year 2010, 100 min, embedded): point "B" gets year 2000 and duration 90. | Each point's metadata belongs to the movie whose title labels it. | not executed | Visualization.MisalignedMetadata | Visualization.PointsAligned |

=== FILE: averages.dfy ===
/** `numpy.average(..., weights=w)`: weighted means of numbers and, column by
    column, of equal-length vectors. */
module Averages {
  import opened Seqs

  function WeightedSum(xs: seq<real>, ws: seq<real>): real
    requires |xs| == |ws|
  {
    if |xs| == 0 then 0.0 else xs[0] * ws[0] + WeightedSum(xs[1..], ws[1..])
  }

  predicate AllPositive(ws: seq<real>)
  {
    forall i :: 0 <= i < |ws| ==> ws[i] > 0.0
  }

  lemma {:induction false} SumPositive(ws: seq<real>)
    requires |ws| > 0 && AllPositive(ws)
    ensures Sum(ws) > 0.0
  {
    if |ws| > 1 {
      SumPositive(ws[1..]);
    }
  }

  /** `np.average(xs, weights=ws)`; numpy raises when the weights sum to 0. */
  function WeightedMean(xs: seq<real>, ws: seq<real>): real
    requires |xs| == |ws| && Sum(ws) != 0.0
  {
    WeightedSum(xs, ws) / Sum(ws)
  }

  function SeqMin(xs: seq<real>): (m: real)
    requires |xs| > 0
    ensures forall i :: 0 <= i < |xs| ==> m <= xs[i]
    ensures m in xs
  {
    if |xs| == 1 then xs[0]
    else
      var rest := SeqMin(xs[1..]);
      if xs[0] <= rest then xs[0] else rest
  }

  function SeqMax(xs: seq<real>): (m: real)
    requires |xs| > 0
    ensures forall i :: 0 <= i < |xs| ==> xs[i] <= m
    ensures m in xs
  {
    if |xs| == 1 then xs[0]
    else
      var rest := SeqMax(xs[1..]);
      if xs[0] >= rest then xs[0] else rest
  }

  lemma MulMonotone(a: real, b: real, w: real)
    requires a <= b && 0.0 <= w
    ensures a * w <= b * w
  {
    var d := b - a;
    assert 0.0 <= d * w;
    assert d * w == b * w - a * w;
  }

  lemma Distributes(a: real, b: real, c: real)
    ensures a * (b + c) == a * b + a * c
  {
  }

  /** With non-negative weights, `lo * Σw <= Σ x·w <= hi * Σw` whenever every
      value lies in [lo, hi]. */
  lemma {:induction false} WeightedSumBounds(xs: seq<real>, ws: seq<real>, lo: real, hi: real)
    requires |xs| == |ws|
    requires forall i :: 0 <= i < |ws| ==> ws[i] >= 0.0
    requires forall i :: 0 <= i < |xs| ==> lo <= xs[i] <= hi
    ensures lo * Sum(ws) <= WeightedSum(xs, ws) <= hi * Sum(ws)
  {
    if |xs| > 0 {
      WeightedSumBounds(xs[1..], ws[1..], lo, hi);
      MulMonotone(lo, xs[0], ws[0]);
      MulMonotone(xs[0], hi, ws[0]);
      var s := Sum(ws[1..]);
      var t := WeightedSum(xs[1..], ws[1..]);
      assert Sum(ws) == ws[0] + s;
      assert WeightedSum(xs, ws) == xs[0] * ws[0] + t;
      Distributes(lo, ws[0], s);
      Distributes(hi, ws[0], s);
    }
  }

  lemma MulStrict(a: real, b: real, w: real)
    requires a < b && 0.0 < w
    ensures a * w < b * w
  {
    var d := b - a;
    assert 0.0 < d * w;
    assert d * w == b * w - a * w;
  }

  lemma DivBounds(a: real, s: real, lo: real, hi: real)
    requires s > 0.0
    requires lo * s <= a <= hi * s
    ensures lo <= a / s <= hi
  {
    var q := a / s;
    assert q * s == a;
    if q < lo {
      MulStrict(q, lo, s);
    }
    if q > hi {
      MulStrict(hi, q, s);
    }
  }

  /** A weighted mean with positive weights lies between the smallest and the
      largest value. */
  lemma WeightedMeanWithin(xs: seq<real>, ws: seq<real>)
    requires |xs| == |ws| && |xs| > 0 && AllPositive(ws)
    ensures Sum(ws) > 0.0
    ensures SeqMin(xs) <= WeightedMean(xs, ws) <= SeqMax(xs)
  {
    WeightedMeanBetween(xs, ws, SeqMin(xs), SeqMax(xs));
  }

  lemma WeightedMeanBetween(xs: seq<real>, ws: seq<real>, lo: real, hi: real)
    requires |xs| == |ws| && |xs| > 0 && AllPositive(ws)
    requires forall i :: 0 <= i < |xs| ==> lo <= xs[i] <= hi
    ensures Sum(ws) > 0.0
    ensures lo <= WeightedMean(xs, ws) <= hi
  {
    SumPositive(ws);
    WeightedSumBounds(xs, ws, lo, hi);
    DivBounds(WeightedSum(xs, ws), Sum(ws), lo, hi);
  }

  /** `n` copies of `c`. */
  function Const(c: real, n: nat): (r: seq<real>)
    ensures |r| == n && forall i :: 0 <= i < n ==> r[i] == c
  {
    seq(n, _ => c)
  }

  lemma {:induction false} ConstSums(xs: seq<real>, c: real)
    ensures Sum(Const(c, |xs|)) == c * (|xs| as real)
    ensures WeightedSum(xs, Const(c, |xs|)) == c * Sum(xs)
  {
    if |xs| > 0 {
      ConstSums(xs[1..], c);
      assert Const(c, |xs|)[1..] == Const(c, |xs| - 1);
    }
  }

  /** Equal positive weights give the plain arithmetic mean. */
  lemma EqualWeightsMean(xs: seq<real>, c: real)
    requires |xs| > 0 && c > 0.0
    ensures Sum(Const(c, |xs|)) != 0.0
    ensures WeightedMean(xs, Const(c, |xs|)) == Sum(xs) / (|xs| as real)
  {
    var w := Const(c, |xs|);
    ConstSums(xs, c);
    CancelFactor(WeightedSum(xs, w), Sum(w), Sum(xs), c, |xs| as real);
    assert WeightedMean(xs, w) == WeightedSum(xs, w) / Sum(w);
  }

  /** `(c·a) / (c·n) == a / n` for positive `c` and `n`. */
  lemma CancelFactor(t: real, s: real, a: real, c: real, n: real)
    requires c > 0.0 && n > 0.0 && s == c * n && t == c * a
    ensures s > 0.0
    ensures t / s == a / n
  {
    MulStrict(0.0, c, n);
    var q := a / n;
    assert q * n == a;
    assert c * a == q * (c * n);
  }

  /** `[row[d] for row in rows]` */
  function Column(rows: seq<seq<real>>, d: nat): (r: seq<real>)
    requires forall i :: 0 <= i < |rows| ==> d < |rows[i]|
    ensures |r| == |rows| && forall i :: 0 <= i < |rows| ==> r[i] == rows[i][d]
  {
    seq(|rows|, i requires 0 <= i < |rows| => rows[i][d])
  }

  /** Every row has `dim` entries (a well-formed numpy matrix). */
  predicate Rectangular(rows: seq<seq<real>>, dim: nat)
  {
    forall i :: 0 <= i < |rows| ==> |rows[i]| == dim
  }

  /** `np.average(rows, axis=0, weights=ws)`: the weighted mean of each column. */
  function WeightedCentroid(rows: seq<seq<real>>, ws: seq<real>, dim: nat): (c: seq<real>)
    requires Rectangular(rows, dim) && |rows| == |ws| && Sum(ws) != 0.0
    ensures |c| == dim
  {
    seq(dim, d requires 0 <= d < dim => WeightedMean(Column(rows, d), ws))
  }

  /** Each coordinate of a positively weighted centroid lies between the
      smallest and largest member coordinate. */
  lemma CentroidWithin(rows: seq<seq<real>>, ws: seq<real>, dim: nat)
    requires Rectangular(rows, dim) && |rows| == |ws| && |rows| > 0 && AllPositive(ws)
    ensures Sum(ws) > 0.0
    ensures forall d :: 0 <= d < dim ==>
      SeqMin(Column(rows, d)) <= WeightedCentroid(rows, ws, dim)[d] <= SeqMax(Column(rows, d))
  {
    SumPositive(ws);
    forall d | 0 <= d < dim
      ensures SeqMin(Column(rows, d)) <= WeightedCentroid(rows, ws, dim)[d] <= SeqMax(Column(rows, d))
    {
      WeightedMeanWithin(Column(rows, d), ws);
    }
  }

  /** The centroid of a single row is that row. */
  lemma SingleRowCentroid(row: seq<real>, w: real)
    requires w > 0.0
    ensures Sum([w]) == w
    ensures WeightedCentroid([row], [w], |row|) == row
  {
    assert Sum([w]) == w + Sum([]);
    forall d | 0 <= d < |row| ensures WeightedCentroid([row], [w], |row|)[d] == row[d] {
      var col := Column([row], d);
      assert WeightedSum(col, [w]) == row[d] * w + WeightedSum([], []);
      assert (row[d] * w) / w == row[d];
    }
  }

  /** The weighted mean of a single value is that value. */
  lemma SingleValueMean(x: real, w: real)
    requires w > 0.0
    ensures Sum([w]) == w && WeightedMean([x], [w]) == x
  {
    assert Sum([w]) == w + Sum([]);
    assert WeightedSum([x], [w]) == x * w + WeightedSum([], []);
    assert (x * w) / w == x;
  }
}

=== FILE: clustering.dfy ===
/** Size-adaptive taste clustering (backend/services/clustering_service.py).
    KMeans, its silhouette score, HDBSCAN, `datetime.fromisoformat` and the
    power `x ** 1.5` are library calls; the model receives their answers
    through `Library`. */
module Clustering {
  import opened Results
  import opened Seqs
  import opened Dedup
  import opened Averages
  import opened Entities
  import opened Weighting

  datatype ClusterError =
    | RaggedEmbeddings   // numpy cannot build a matrix from vectors of different lengths
    | LengthMismatch     // ratings or dates not aligned with the embeddings
    | InvalidDate        // `datetime.fromisoformat` raised
    | NonRealWeight      // a rating below 1 gives a complex rating weight
    | ZeroTotalWeight    // `np.average` over no items: the weights sum to zero

  /** What the libraries answer for the matrix at hand. `kmeansLabels(k)` is
      the labelling of a fresh `KMeans(n_clusters=k)` run, `silhouette(k)` the
      score of the sweep's own run for `k`, `hdbscanLabels` the density
      labelling (-1 marks noise). */
  datatype Library = Library(
    parseDate: string -> Option<Date>,
    pow: real -> real,
    kmeansLabels: nat -> seq<int>,
    silhouette: nat -> real,
    hdbscanLabels: seq<int>)

  const SmallLimit: nat := 100
  const MediumLimit: nat := 500
  const MinK: nat := 2
  const MaxK: nat := 10
  const NoiseThreshold: real := 0.5

  /** The number of members of each cluster, added up. */
  function TotalCount(cs: seq<Cluster>): int
  {
    if |cs| == 0 then 0 else cs[0].count + TotalCount(cs[1..])
  }

  /** Matrix, weights and ratings agree in length, rows have `dim` entries and
      every weight is positive. */
  predicate Aligned(X: seq<Vector>, ws: seq<real>, ratings: seq<real>, dim: nat)
  {
    |ws| == |X| && |ratings| == |X| && Rectangular(X, dim) && AllPositive(ws)
  }

  predicate ValidIndices(idx: seq<nat>, n: nat)
  {
    forall j :: 0 <= j < |idx| ==> idx[j] < n
  }

  /** `c` is a cluster of exactly the rows `idx`: it counts them, has no
      movies attached yet, its centroid is the weighted mean of those rows'
      vectors and its rating the weighted mean of their ratings (so each
      lies within the range of those rows' values). */
  predicate ClusterOf(c: Cluster, X: seq<Vector>, ws: seq<real>, ratings: seq<real>, idx: seq<nat>, dim: nat)
    requires Aligned(X, ws, ratings, dim) && ValidIndices(idx, |X|)
  {
    && c.count == |idx| && |idx| > 0 && c.movies == [] && |c.centroid.vector| == dim
    && Sum(Select(ws, idx)) > 0.0
    && c.centroid.vector == WeightedCentroid(Select(X, idx), Select(ws, idx), dim)
    && c.averageRating == WeightedMean(Select(ratings, idx), Select(ws, idx))
    && SeqMin(Select(ratings, idx)) <= c.averageRating <= SeqMax(Select(ratings, idx))
    && forall d :: 0 <= d < dim ==>
         SeqMin(Column(Select(X, idx), d)) <= c.centroid.vector[d] <= SeqMax(Column(Select(X, idx), d))
  }

  /** The cluster formed by the rows `idx`: weighted centroid, weighted mean
      rating, member count. */
  function MakeCluster(X: seq<Vector>, ws: seq<real>, ratings: seq<real>, idx: seq<nat>, dim: nat): (c: Cluster)
    requires Aligned(X, ws, ratings, dim)
    requires |idx| > 0 && ValidIndices(idx, |X|)
    ensures ClusterOf(c, X, ws, ratings, idx, dim)
  {
    var rows := Select(X, idx);
    var mw := Select(ws, idx);
    var mr := Select(ratings, idx);
    assert Rectangular(rows, dim);
    assert AllPositive(mw);
    WeightedMeanWithin(mr, mw);
    CentroidWithin(rows, mw, dim);
    Cluster(Embedding(WeightedCentroid(rows, mw, dim)), [], WeightedMean(mr, mw), |idx|)
  }

  /** Every selected value lies within the bounds of the whole sequence. */
  lemma SelectWithin(xs: seq<real>, idx: seq<nat>)
    requires |xs| > 0 && |idx| > 0 && ValidIndices(idx, |xs|)
    ensures SeqMin(xs) <= SeqMin(Select(xs, idx)) && SeqMax(Select(xs, idx)) <= SeqMax(xs)
  {
    var sel := Select(xs, idx);
    var lo := SeqMin(sel);
    var j :| 0 <= j < |sel| && sel[j] == lo;
    assert sel[j] == xs[idx[j]];
    var hi := SeqMax(sel);
    var k :| 0 <= k < |sel| && sel[k] == hi;
    assert sel[k] == xs[idx[k]];
  }

  lemma {:induction false} PositionsCount(s: seq<int>, x: int)
    ensures |Positions(s, x)| == Count(s, x)
  {
    if |s| > 0 {
      var init := s[..|s| - 1];
      assert s == init + [s[|s| - 1]];
      PositionsCount(init, x);
      CountAppend(init, [s[|s| - 1]], x);
      assert Count([s[|s| - 1]], x) == (if s[|s| - 1] == x then 1 else 0) + Count([], x);
    }
  }

  /** A freshly built cluster: not empty, no movies attached yet, a centroid
      of the embedding dimension and a rating within the input's range. */
  predicate ClusterWithin(c: Cluster, dim: nat, ratings: seq<real>)
  {
    && c.count >= 1 && c.movies == [] && |c.centroid.vector| == dim
    && |ratings| > 0 && SeqMin(ratings) <= c.averageRating <= SeqMax(ratings)
  }

  /** `sum(len(np.where(labels == i)[0]) for i in ids)` */
  function SumCounts(labels: seq<int>, ids: seq<int>): nat
  {
    if |ids| == 0 then 0 else Count(labels, ids[0]) + SumCounts(labels, ids[1..])
  }

  /** Does label `id` occur in `labels`? */
  function HasMembers(labels: seq<int>): int -> bool
  {
    (id: int) => id in labels
  }

  /** The ids of `ids` that occur in `labels`, in the order of `ids`. */
  function PresentIds(ids: seq<int>, labels: seq<int>): seq<int>
  {
    Filter(ids, HasMembers(labels))
  }

  /** Cluster j of `r` is the cluster of the rows labelled `present[j]`. */
  predicate ClustersOf(r: seq<Cluster>, present: seq<int>, labels: seq<int>, X: seq<Vector>, ws: seq<real>, ratings: seq<real>, dim: nat)
    requires Aligned(X, ws, ratings, dim) && |labels| == |X|
  {
    && |r| == |present|
    && forall j :: 0 <= j < |r| ==>
         r[j].count == Count(labels, present[j]) && ClusterOf(r[j], X, ws, ratings, Positions(labels, present[j]), dim)
  }

  /** One cluster per label in `ids` that has members, in the order of `ids`;
      labels with no members are skipped. */
  function ClustersFor(ids: seq<int>, labels: seq<int>, X: seq<Vector>, ws: seq<real>, ratings: seq<real>, dim: nat): (r: seq<Cluster>)
    requires Aligned(X, ws, ratings, dim) && |labels| == |X|
    ensures |r| <= |ids|
    ensures (forall j :: 0 <= j < |ids| ==> ids[j] in labels) ==> |r| == |ids|
    ensures TotalCount(r) == SumCounts(labels, ids)
    ensures forall i :: 0 <= i < |r| ==> ClusterWithin(r[i], dim, ratings)
  {
    if |ids| == 0 then []
    else
      var idx := Positions(labels, ids[0]);
      var rest := ClustersFor(ids[1..], labels, X, ws, ratings, dim);
      PositionsCount(labels, ids[0]);
      if |idx| == 0 then
        assert ids[0] !in labels;
        rest
      else
        var c := MakeCluster(X, ws, ratings, idx, dim);
        MadeClusterWithin(X, ws, ratings, idx, dim);
        ConsCount(c, rest);
        ConsWithin(c, rest, dim, ratings);
        [c] + rest
  }

  lemma MadeClusterWithin(X: seq<Vector>, ws: seq<real>, ratings: seq<real>, idx: seq<nat>, dim: nat)
    requires Aligned(X, ws, ratings, dim)
    requires |idx| > 0 && ValidIndices(idx, |X|)
    ensures ClusterWithin(MakeCluster(X, ws, ratings, idx, dim), dim, ratings)
  {
    SelectWithin(ratings, idx);
  }

  lemma ConsWithin(c: Cluster, rest: seq<Cluster>, dim: nat, ratings: seq<real>)
    requires ClusterWithin(c, dim, ratings)
    requires forall i :: 0 <= i < |rest| ==> ClusterWithin(rest[i], dim, ratings)
    ensures forall i :: 0 <= i < |[c] + rest| ==> ClusterWithin(([c] + rest)[i], dim, ratings)
  {
  }

  /** Which rows make up each cluster: cluster j of `ClustersFor` is the
      cluster of exactly the rows labelled with the j-th id that has members. */
  lemma {:induction false} ClustersForGroups(ids: seq<int>, labels: seq<int>, X: seq<Vector>, ws: seq<real>, ratings: seq<real>, dim: nat)
    requires Aligned(X, ws, ratings, dim) && |labels| == |X|
    ensures ClustersOf(ClustersFor(ids, labels, X, ws, ratings, dim), PresentIds(ids, labels), labels, X, ws, ratings, dim)
  {
    if |ids| > 0 {
      var idx := Positions(labels, ids[0]);
      var rest := ClustersFor(ids[1..], labels, X, ws, ratings, dim);
      ClustersForGroups(ids[1..], labels, X, ws, ratings, dim);
      PositionsCount(labels, ids[0]);
      if |idx| == 0 {
        assert ids[0] !in labels;
        assert PresentIds(ids, labels) == PresentIds(ids[1..], labels);
      } else {
        assert labels[idx[0]] == ids[0];
        assert PresentIds(ids, labels) == [ids[0]] + PresentIds(ids[1..], labels);
        ConsClustersOf(MakeCluster(X, ws, ratings, idx, dim), rest, ids[0], PresentIds(ids[1..], labels), labels, X, ws, ratings, dim);
      }
    }
  }

  lemma ConsClustersOf(c: Cluster, rest: seq<Cluster>, id: int, present: seq<int>,
                       labels: seq<int>, X: seq<Vector>, ws: seq<real>, ratings: seq<real>, dim: nat)
    requires Aligned(X, ws, ratings, dim) && |labels| == |X|
    requires c.count == Count(labels, id) && ClusterOf(c, X, ws, ratings, Positions(labels, id), dim)
    requires ClustersOf(rest, present, labels, X, ws, ratings, dim)
    ensures ClustersOf([c] + rest, [id] + present, labels, X, ws, ratings, dim)
  {
    var r := [c] + rest;
    var p := [id] + present;
    forall j | 0 <= j < |r|
      ensures r[j].count == Count(labels, p[j]) && ClusterOf(r[j], X, ws, ratings, Positions(labels, p[j]), dim)
    {
      if j > 0 {
        assert r[j] == rest[j - 1] && p[j] == present[j - 1];
      }
    }
  }

  /** The clusters partition the rows whose label is among `ids`: such a row
      lies in the rows of exactly one cluster, and any other row in none. */
  lemma RowsPartitioned(ids: seq<int>, labels: seq<int>, i: nat)
    requires NoDuplicates(ids) && i < |labels|
    ensures labels[i] in ids ==>
      exists j :: 0 <= j < |PresentIds(ids, labels)| && i in Positions(labels, PresentIds(ids, labels)[j])
    ensures forall j1, j2 :: (0 <= j1 < |PresentIds(ids, labels)| && 0 <= j2 < |PresentIds(ids, labels)| &&
      i in Positions(labels, PresentIds(ids, labels)[j1]) && i in Positions(labels, PresentIds(ids, labels)[j2])) ==> j1 == j2
    ensures labels[i] !in ids ==>
      forall j :: 0 <= j < |PresentIds(ids, labels)| ==> i !in Positions(labels, PresentIds(ids, labels)[j])
  {
    var present := PresentIds(ids, labels);
    FilterNoDuplicates(ids, HasMembers(labels));
    forall j, x | 0 <= j < |present| && x == present[j] ensures i in Positions(labels, x) <==> labels[i] == x {
      PositionsMember(labels, x, i);
    }
    if labels[i] in ids {
      assert HasMembers(labels)(labels[i]);
      assert labels[i] in present;
      var j :| 0 <= j < |present| && present[j] == labels[i];
      assert i in Positions(labels, present[j]);
    }
  }

  /** Row `i` is among the positions of `x` exactly when it is labelled `x`. */
  lemma PositionsMember(labels: seq<int>, x: int, i: nat)
    requires i < |labels|
    ensures i in Positions(labels, x) <==> labels[i] == x
  {
    var ps := Positions(labels, x);
    if i in ps {
      var j :| 0 <= j < |ps| && ps[j] == i;
    }
  }

  lemma ConsCount(c: Cluster, rest: seq<Cluster>)
    ensures TotalCount([c] + rest) == c.count + TotalCount(rest)
  {
    assert ([c] + rest)[1..] == rest;
  }

  /** Number of labels that belong to `S`. */
  function CountIn(labels: seq<int>, S: set<int>): nat
  {
    if |labels| == 0 then 0 else (if labels[0] in S then 1 else 0) + CountIn(labels[1..], S)
  }

  lemma {:induction false} CountInInsert(labels: seq<int>, S: set<int>, a: int)
    requires a !in S
    ensures CountIn(labels, S + {a}) == Count(labels, a) + CountIn(labels, S)
  {
    if |labels| > 0 {
      CountInInsert(labels[1..], S, a);
    }
  }

  /** For distinct labels, adding up their counts counts each member once. */
  lemma {:induction false} SumCountsDistinct(labels: seq<int>, ids: seq<int>)
    requires NoDuplicates(ids)
    ensures SumCounts(labels, ids) == CountIn(labels, SetOf(ids))
  {
    if |ids| == 0 {
      assert SetOf(ids) == {};
      CountInEmpty(labels);
    } else {
      var rest := ids[1..];
      assert NoDuplicates(rest);
      assert ids[0] !in SetOf(rest) by {
        forall i | 0 <= i < |rest| ensures rest[i] != ids[0] {
          assert rest[i] == ids[i + 1];
        }
      }
      assert SetOf(ids) == SetOf(rest) + {ids[0]} by {
        assert forall x :: x in ids <==> x == ids[0] || x in rest;
      }
      SumCountsDistinct(labels, rest);
      CountInInsert(labels, SetOf(rest), ids[0]);
    }
  }

  lemma {:induction false} CountInEmpty(labels: seq<int>)
    ensures CountIn(labels, {}) == 0
  {
    if |labels| > 0 {
      CountInEmpty(labels[1..]);
    }
  }

  /** When every label other than `x` is in `S`, and `x` is not,
      the labels in `S` are all but the `x`s. */
  lemma {:induction false} CountInAllBut(labels: seq<int>, S: set<int>, x: int)
    requires forall i :: 0 <= i < |labels| ==> (labels[i] in S <==> labels[i] != x)
    ensures CountIn(labels, S) + Count(labels, x) == |labels|
  {
    if |labels| > 0 {
      CountInAllBut(labels[1..], S, x);
    }
  }

  lemma {:induction false} CountInAll(labels: seq<int>, S: set<int>)
    requires forall i :: 0 <= i < |labels| ==> labels[i] in S
    ensures CountIn(labels, S) == |labels|
  {
    if |labels| > 0 {
      CountInAll(labels[1..], S);
    }
  }

  /** `_kmeans_clusters`: one cluster per label 0..k-1 that has members. */
  function KMeansClusters(X: seq<Vector>, ws: seq<real>, ratings: seq<real>, dim: nat, labels: seq<int>, k: nat): seq<Cluster>
    requires Aligned(X, ws, ratings, dim) && |labels| == |X|
  {
    ClustersFor(Range(0, k), labels, X, ws, ratings, dim)
  }

  /** When KMeans labels every row with one of 0..k-1, the clusters' counts
      add up to the number of rows, none is empty, and there are at most k. */
  lemma KMeansCountsCoverAll(X: seq<Vector>, ws: seq<real>, ratings: seq<real>, dim: nat, labels: seq<int>, k: nat)
    requires Aligned(X, ws, ratings, dim) && |labels| == |X|
    requires forall i :: 0 <= i < |labels| ==> 0 <= labels[i] < k
    ensures var cs := KMeansClusters(X, ws, ratings, dim, labels, k);
      && TotalCount(cs) == |X|
      && |cs| <= k
      && forall i :: 0 <= i < |cs| ==> cs[i].count >= 1
  {
    var ids := Range(0, k);
    SumCountsDistinct(labels, ids);
    forall i | 0 <= i < |labels| ensures labels[i] in SetOf(ids) {
      assert ids[labels[i]] == labels[i];
    }
    CountInAll(labels, SetOf(ids));
  }

  /** The sweep of `_best_kmeans_clusters` from `k` up to `hi - 1`, carrying
      the best k and score so far; a k replaces the best only with a strictly
      greater score. */
  function BestKFrom(score: nat -> real, k: nat, hi: nat, bestK: nat, bestScore: real): (r: nat)
    decreases hi - k
    ensures (forall j :: k <= j < hi ==> score(j) <= bestScore) ==> r == bestK
    ensures (exists j :: k <= j < hi && score(j) > bestScore) ==>
      && k <= r < hi && score(r) > bestScore
      && (forall j :: k <= j < hi ==> score(j) <= score(r))
      && (forall j :: k <= j < r ==> score(j) < score(r))
  {
    if k >= hi then bestK
    else if score(k) > bestScore then BestKFrom(score, k + 1, hi, k, score(k))
    else BestKFrom(score, k + 1, hi, bestK, bestScore)
  }

  /** The chosen cluster count: k ranges over [MinK, min(MaxK, n)), the
      initial best score is -1, and the smallest k wins ties. */
  function SelectBestK(n: nat, score: nat -> real): (k: nat)
    ensures var hi := if MaxK < n then MaxK else n;
      && ((forall j :: MinK <= j < hi ==> score(j) <= -1.0) ==> k == MinK)
      && ((exists j :: MinK <= j < hi && score(j) > -1.0) ==>
            && MinK <= k < hi
            && (forall j :: MinK <= j < hi ==> score(j) <= score(k))
            && (forall j :: MinK <= j < k ==> score(j) < score(k)))
  {
    BestKFrom(score, MinK, if MaxK < n then MaxK else n, MinK, -1.0)
  }

  /** `_best_kmeans_clusters` */
  function BestKMeansClusters(X: seq<Vector>, ws: seq<real>, ratings: seq<real>, dim: nat, lib: Library): seq<Cluster>
    requires Aligned(X, ws, ratings, dim)
    requires forall k :: |lib.kmeansLabels(k)| == |X|
  {
    var k := SelectBestK(|X|, lib.silhouette);
    KMeansClusters(X, ws, ratings, dim, lib.kmeansLabels(k), k)
  }

  /** The labels HDBSCAN clusters are built for: each non-noise label once,
      in order of first appearance. */
  function DensityIds(labels: seq<int>): (ids: seq<int>)
    ensures NoDuplicates(ids)
    ensures -1 !in ids
    ensures forall l :: l in ids <==> l in labels && l != -1
  {
    var d := Distinct(labels);
    DistinctCorrect(labels);
    FilterNoDuplicates(d, l => l != -1);
    Filter(d, l => l != -1)
  }

  /** `_hdbscan_clusters`: `None` (fall back to KMeans) when noise points
      exceed `threshold * n`; otherwise one cluster per non-noise label. */
  function DensityClusters(X: seq<Vector>, ws: seq<real>, ratings: seq<real>, dim: nat, labels: seq<int>, threshold: real): (r: Option<seq<Cluster>>)
    requires Aligned(X, ws, ratings, dim) && |labels| == |X|
    ensures r.None? <==> (Count(labels, -1) as real) > threshold * (|X| as real)
  {
    if (Count(labels, -1) as real) > threshold * (|X| as real) then None
    else Some(ClustersFor(DensityIds(labels), labels, X, ws, ratings, dim))
  }

  /** Accepted density clusterings: one cluster per distinct non-noise label,
      none empty, and the counts add up to the non-noise points. */
  lemma DensityCounts(X: seq<Vector>, ws: seq<real>, ratings: seq<real>, dim: nat, labels: seq<int>, threshold: real)
    requires Aligned(X, ws, ratings, dim) && |labels| == |X|
    requires DensityClusters(X, ws, ratings, dim, labels, threshold).Some?
    ensures var cs := DensityClusters(X, ws, ratings, dim, labels, threshold).value;
      && |cs| == |DensityIds(labels)|
      && TotalCount(cs) == |X| - Count(labels, -1)
      && forall i :: 0 <= i < |cs| ==> cs[i].count >= 1
  {
    var ids := DensityIds(labels);
    SumCountsDistinct(labels, ids);
    CountInAllBut(labels, SetOf(ids), -1);
  }

  /** The weight of every item: `rating_weight(r) * recency_weight(d, now)`. */
  function Weights(ratings: seq<real>, dates: seq<string>, now: Date, lib: Library): (r: Result<seq<real>, ClusterError>)
    requires |ratings| == |dates|
    ensures r.Err? <==> exists i :: 0 <= i < |dates| && (lib.parseDate(dates[i]).None? || ratings[i] < 1.0)
    ensures r.Ok? ==> |r.value| == |ratings| && forall i :: 0 <= i < |ratings| ==>
      && lib.parseDate(dates[i]).Some?
      && r.value[i] == ItemWeight(ratings[i], lib.parseDate(dates[i]).value, now, lib.pow).value
  {
    if exists i :: 0 <= i < |dates| && lib.parseDate(dates[i]).None? then Err(InvalidDate)
    else if exists i :: 0 <= i < |ratings| && ratings[i] < 1.0 then Err(NonRealWeight)
    else Ok(seq(|ratings|, i requires 0 <= i < |ratings| =>
      ItemWeight(ratings[i], lib.parseDate(dates[i]).value, now, lib.pow).value))
  }

  lemma WeightsPositive(ratings: seq<real>, dates: seq<string>, now: Date, lib: Library)
    requires |ratings| == |dates| && IsPow15(lib.pow)
    requires Weights(ratings, dates, now, lib).Ok?
    ensures AllPositive(Weights(ratings, dates, now, lib).value)
  {
    var ws := Weights(ratings, dates, now, lib).value;
    forall i | 0 <= i < |ws| ensures ws[i] > 0.0 {
      ItemWeightBounds(ratings[i], lib.parseDate(dates[i]).value, now, lib.pow);
    }
  }

  function AllIndices(n: nat): (r: seq<nat>)
    ensures |r| == n && forall i :: 0 <= i < n ==> r[i] == i
  {
    seq(n, i => i)
  }

  /** The input is usable: a rectangular matrix, aligned ratings and dates,
      parseable dates and ratings of at least 1. */
  predicate WellFormedInput(X: seq<Vector>, ratings: seq<real>, dates: seq<string>, lib: Library)
  {
    && |X| > 0
    && Rectangular(X, |X[0]|)
    && |ratings| == |X| && |dates| == |X|
    && (forall i :: 0 <= i < |X| ==> lib.parseDate(dates[i]).Some? && ratings[i] >= 1.0)
  }

  /** The strategy table of `cluster`, once the weights are known. */
  function ClusterWeighted(X: seq<Vector>, ws: seq<real>, ratings: seq<real>, dim: nat, lib: Library): (r: seq<Cluster>)
    requires Aligned(X, ws, ratings, dim) && |X| > 0
    requires forall k :: |lib.kmeansLabels(k)| == |X|
    requires |lib.hdbscanLabels| == |X|
    ensures forall i :: 0 <= i < |r| ==> ClusterWithin(r[i], dim, ratings)
  {
    var n := |X|;
    if n < SmallLimit then
      SelectWithin(ratings, AllIndices(n));
      [MakeCluster(X, ws, ratings, AllIndices(n), dim)]
    else if n <= MediumLimit then BestKMeansClusters(X, ws, ratings, dim, lib)
    else match DensityClusters(X, ws, ratings, dim, lib.hdbscanLabels, NoiseThreshold)
      case None => BestKMeansClusters(X, ws, ratings, dim, lib)
      case Some(cs) => cs
  }

  /** `cluster`: below 100 items a single centroid; up to 500 the best KMeans
      partition; above that HDBSCAN, falling back to the best KMeans partition
      when it reports too much noise. Empty input is an error, not an empty
      result. */
  function ClusterEmbeddings(X: seq<Vector>, ratings: seq<real>, dates: seq<string>, now: Date, lib: Library): (r: Result<seq<Cluster>, ClusterError>)
    requires IsPow15(lib.pow)
    requires forall k :: |lib.kmeansLabels(k)| == |X|
    requires |lib.hdbscanLabels| == |X|
    ensures r.Ok? <==> WellFormedInput(X, ratings, dates, lib)
    ensures |X| == 0 && |ratings| == 0 && |dates| == 0 ==> r == Err(ZeroTotalWeight)
    ensures r.Ok? ==> forall i :: 0 <= i < |r.value| ==> ClusterWithin(r.value[i], |X[0]|, ratings)
  {
    var n := |X|;
    var dim := if n == 0 then 0 else |X[0]|;
    if !Rectangular(X, dim) then Err(RaggedEmbeddings)
    else if |ratings| != n || |dates| != n then Err(LengthMismatch)
    else match Weights(ratings, dates, now, lib)
      case Err(e) => Err(e)
      case Ok(ws) =>
        if n == 0 then Err(ZeroTotalWeight)
        else
          WeightsPositive(ratings, dates, now, lib);
          Ok(ClusterWeighted(X, ws, ratings, dim, lib))
  }

  /** Fewer than 100 items: exactly one cluster holding all of them, whose
      centroid and rating are the weight-weighted means of all items. */
  lemma SmallInputSingleCluster(X: seq<Vector>, ratings: seq<real>, dates: seq<string>, now: Date, lib: Library)
    requires IsPow15(lib.pow)
    requires forall k :: |lib.kmeansLabels(k)| == |X|
    requires |lib.hdbscanLabels| == |X|
    requires WellFormedInput(X, ratings, dates, lib) && |X| < SmallLimit
    ensures var r := ClusterEmbeddings(X, ratings, dates, now, lib);
      var ws := Weights(ratings, dates, now, lib).value;
      && r.Ok? && |r.value| == 1
      && r.value[0].count == |X|
      && Sum(ws) > 0.0
      && r.value[0].centroid.vector == WeightedCentroid(X, ws, |X[0]|)
      && r.value[0].averageRating == WeightedMean(ratings, ws)
  {
    var ws := Weights(ratings, dates, now, lib).value;
    WeightsPositive(ratings, dates, now, lib);
    SumPositive(ws);
    var all := AllIndices(|X|);
    assert Select(X, all) == X;
    assert Select(ws, all) == ws;
    assert Select(ratings, all) == ratings;
  }

  /** A single item forms one cluster of count 1 whose centroid is its own
      vector and whose rating is its own rating. */
  lemma SingleItem(x: Vector, rating: real, date: string, now: Date, lib: Library)
    requires IsPow15(lib.pow)
    requires forall k :: |lib.kmeansLabels(k)| == 1
    requires |lib.hdbscanLabels| == 1
    requires lib.parseDate(date).Some? && rating >= 1.0
    ensures ClusterEmbeddings([x], [rating], [date], now, lib)
      == Ok([Cluster(Embedding(x), [], rating, 1)])
  {
    SmallInputSingleCluster([x], [rating], [date], now, lib);
    var ws := Weights([rating], [date], now, lib).value;
    WeightsPositive([rating], [date], now, lib);
    assert ws == [ws[0]];
    SingleRowCentroid(x, ws[0]);
    SingleValueMean(rating, ws[0]);
  }

  /** On well-formed input `cluster` is the strategy table applied to the
      recency- and rating-based weights. */
  lemma ClusterEmbeddingsUnfold(X: seq<Vector>, ratings: seq<real>, dates: seq<string>, now: Date, lib: Library)
    requires IsPow15(lib.pow)
    requires forall k :: |lib.kmeansLabels(k)| == |X|
    requires |lib.hdbscanLabels| == |X|
    requires WellFormedInput(X, ratings, dates, lib)
    ensures var ws := Weights(ratings, dates, now, lib);
      && ws.Ok? && AllPositive(ws.value) && |ws.value| == |X|
      && Aligned(X, ws.value, ratings, |X[0]|)
      && ClusterEmbeddings(X, ratings, dates, now, lib) == Ok(ClusterWeighted(X, ws.value, ratings, |X[0]|, lib))
  {
    WeightsPositive(ratings, dates, now, lib);
  }

  /** Fewer than 100 items that all weigh the same: the centroid is the plain
      mean of the vectors and the rating the plain mean of the ratings. */
  lemma SmallEqualWeights(X: seq<Vector>, ws: seq<real>, ratings: seq<real>, lib: Library)
    requires 0 < |X| < SmallLimit && Aligned(X, ws, ratings, |X[0]|)
    requires forall k :: |lib.kmeansLabels(k)| == |X|
    requires |lib.hdbscanLabels| == |X|
    requires forall i :: 0 <= i < |ws| ==> ws[i] == ws[0]
    ensures var r := ClusterWeighted(X, ws, ratings, |X[0]|, lib);
      && |r| == 1 && r[0].count == |X|
      && r[0].averageRating == Sum(ratings) / (|X| as real)
      && forall d :: 0 <= d < |X[0]| ==>
           r[0].centroid.vector[d] == Sum(Column(X, d)) / (|X| as real)
  {
    var all := AllIndices(|X|);
    assert Select(X, all) == X;
    assert Select(ws, all) == ws;
    assert Select(ratings, all) == ratings;
    assert ws == Const(ws[0], |X|);
    SumPositive(ws);
    forall d | 0 <= d < |X[0]|
      ensures WeightedCentroid(X, ws, |X[0]|)[d] == Sum(Column(X, d)) / (|X| as real)
    {
      EqualWeightsMean(Column(X, d), ws[0]);
    }
    EqualWeightsMean(ratings, ws[0]);
  }

  /** Items with the same rating and the same watch year weigh the same. */
  lemma SameRatingSameYearSameWeight(ratings: seq<real>, dates: seq<string>, now: Date, lib: Library)
    requires IsPow15(lib.pow) && |ratings| == |dates| > 0
    requires Weights(ratings, dates, now, lib).Ok?
    requires forall i :: 0 <= i < |ratings| ==> ratings[i] == ratings[0]
    requires forall i :: 0 <= i < |dates| ==> lib.parseDate(dates[i]).value.year == lib.parseDate(dates[0]).value.year
    ensures var ws := Weights(ratings, dates, now, lib).value;
      forall i :: 0 <= i < |ws| ==> ws[i] == ws[0]
  {
    var ws := Weights(ratings, dates, now, lib).value;
    forall i | 0 <= i < |ws| ensures ws[i] == ws[0] {
      RecencyOnlyYear(lib.parseDate(dates[i]).value, lib.parseDate(dates[0]).value, now, now);
    }
  }

  /** With KMeans labelling every row within `0..k-1` for each k from 2 on,
      every outcome of the strategy table accounts for each item exactly
      once, except the noise points of an accepted density clustering. */
  lemma CountsAccountForItems(X: seq<Vector>, ws: seq<real>, ratings: seq<real>, lib: Library)
    requires |X| > 0 && Aligned(X, ws, ratings, |X[0]|)
    requires forall k :: |lib.kmeansLabels(k)| == |X|
    requires forall k, i :: MinK <= k && 0 <= i < |lib.kmeansLabels(k)| ==> 0 <= lib.kmeansLabels(k)[i] < k
    requires |lib.hdbscanLabels| == |X|
    ensures var r := ClusterWeighted(X, ws, ratings, |X[0]|, lib);
      var density := DensityClusters(X, ws, ratings, |X[0]|, lib.hdbscanLabels, NoiseThreshold);
      TotalCount(r) + (if |X| > MediumLimit && density.Some? then Count(lib.hdbscanLabels, -1) else 0) == |X|
  {
    var dim := |X[0]|;
    var r := ClusterWeighted(X, ws, ratings, dim, lib);
    if |X| < SmallLimit {
      assert TotalCount(r) == r[0].count + TotalCount([]);
    } else {
      var k := SelectBestK(|X|, lib.silhouette);
      assert k >= MinK;
      KMeansCountsCoverAll(X, ws, ratings, dim, lib.kmeansLabels(k), k);
      var density := DensityClusters(X, ws, ratings, dim, lib.hdbscanLabels, NoiseThreshold);
      if |X| > MediumLimit && density.Some? {
        DensityCounts(X, ws, ratings, dim, lib.hdbscanLabels, NoiseThreshold);
      }
    }
  }
}

=== FILE: dedup.dfy ===
/** First-occurrence deduplication: keep the first element carrying each
    key, in the order the keys first appear (the `seen` set / dict-insertion
    idiom of the services). */
module Dedup {
  import opened Seqs

  /** `[key(x) for x in s]` */
  function KeySeq<T, K>(s: seq<T>, key: T -> K): (r: seq<K>)
    ensures |r| == |s|
    ensures forall i :: 0 <= i < |s| ==> r[i] == key(s[i])
  {
    seq(|s|, i requires 0 <= i < |s| => key(s[i]))
  }

  /** Index of the first element of `s` whose key is `k`. */
  function FirstPos<T, K(==)>(s: seq<T>, key: T -> K, k: K): (p: nat)
    requires k in KeySeq(s, key)
    ensures p < |s| && key(s[p]) == k
    ensures forall i :: 0 <= i < p ==> key(s[i]) != k
  {
    IndexOf(KeySeq(s, key), k)
  }

  /** The unique-by-key subsequence, built the way the source's loop builds it. */
  function DistinctBy<T, K(==)>(s: seq<T>, key: T -> K): seq<T>
  {
    if |s| == 0 then []
    else
      var d := DistinctBy(s[..|s| - 1], key);
      if key(s[|s| - 1]) in KeySeq(d, key) then d else d + [s[|s| - 1]]
  }

  /** What `DistinctBy` promises: keys are pairwise distinct; every key of
      the input appears; each kept element is the first one with its key;
      and kept elements are in the order their keys first occur. */
  ghost predicate IsFirstOccurrences<T, K>(r: seq<T>, s: seq<T>, key: T -> K)
  {
    && NoDuplicates(KeySeq(r, key))
    && (forall i :: 0 <= i < |s| ==> key(s[i]) in KeySeq(r, key))
    && (forall j :: 0 <= j < |r| ==> key(r[j]) in KeySeq(s, key))
    && (forall j :: 0 <= j < |r| ==> r[j] == s[FirstPos(s, key, key(r[j]))])
    && (forall j1, j2 :: 0 <= j1 < j2 < |r| ==>
          FirstPos(s, key, key(r[j1])) < FirstPos(s, key, key(r[j2])))
  }

  lemma FirstPosExtend<T, K>(s: seq<T>, x: T, key: T -> K, k: K)
    requires k in KeySeq(s, key)
    ensures k in KeySeq(s + [x], key)
    ensures FirstPos(s + [x], key, k) == FirstPos(s, key, k)
  {
    var p := FirstPos(s, key, k);
    assert KeySeq(s + [x], key)[p] == k;
    var q := FirstPos(s + [x], key, k);
    if q < p {
      assert key(s[q]) == k;
    }
  }

  /** Kept elements keep their first positions when the input grows. */
  lemma StepKeepsOld<T, K>(d: seq<T>, init: seq<T>, x: T, key: T -> K)
    requires IsFirstOccurrences(d, init, key)
    ensures forall j :: 0 <= j < |d| ==>
      key(d[j]) in KeySeq(init + [x], key)
      && FirstPos(init + [x], key, key(d[j])) == FirstPos(init, key, key(d[j]))
  {
    forall j | 0 <= j < |d|
      ensures key(d[j]) in KeySeq(init + [x], key)
      ensures FirstPos(init + [x], key, key(d[j])) == FirstPos(init, key, key(d[j]))
    {
      FirstPosExtend(init, x, key, key(d[j]));
    }
  }

  lemma StepSeen<T, K>(d: seq<T>, init: seq<T>, x: T, key: T -> K)
    requires IsFirstOccurrences(d, init, key)
    requires key(x) in KeySeq(d, key)
    ensures IsFirstOccurrences(d, init + [x], key)
  {
    var s := init + [x];
    StepKeepsOld(d, init, x, key);
    forall i | 0 <= i < |s| ensures key(s[i]) in KeySeq(d, key) {
      if i < |init| { assert s[i] == init[i]; }
    }
  }

  lemma StepNew<T, K>(d: seq<T>, init: seq<T>, x: T, key: T -> K)
    requires IsFirstOccurrences(d, init, key)
    requires key(x) !in KeySeq(d, key)
    ensures IsFirstOccurrences(d + [x], init + [x], key)
  {
    var s := init + [x];
    var r := d + [x];
    StepKeepsOld(d, init, x, key);
    assert key(x) !in KeySeq(init, key);
    assert KeySeq(s, key)[|s| - 1] == key(x);
    assert FirstPos(s, key, key(x)) == |s| - 1 by {
      forall i | 0 <= i < |s| - 1 ensures key(s[i]) != key(x) {
        assert s[i] == init[i];
        assert KeySeq(init, key)[i] == key(init[i]);
      }
    }
    assert KeySeq(r, key) == KeySeq(d, key) + [key(x)];
    forall i | 0 <= i < |s| ensures key(s[i]) in KeySeq(r, key) {
      if i < |init| {
        assert s[i] == init[i];
        assert key(init[i]) in KeySeq(d, key);
      }
    }
    forall j | 0 <= j < |d| ensures FirstPos(s, key, key(d[j])) < |s| - 1 {
      assert FirstPos(init, key, key(d[j])) < |init|;
    }
  }

  lemma {:induction false} DistinctByCorrect<T, K>(s: seq<T>, key: T -> K)
    ensures IsFirstOccurrences(DistinctBy(s, key), s, key)
  {
    if |s| > 0 {
      var init := s[..|s| - 1];
      var x := s[|s| - 1];
      assert s == init + [x];
      var d := DistinctBy(init, key);
      DistinctByCorrect(init, key);
      if key(x) in KeySeq(d, key) {
        StepSeen(d, init, x, key);
      } else {
        StepNew(d, init, x, key);
      }
    }
  }

  /** First-occurrence deduplication of the elements themselves. */
  function Distinct<T(==)>(s: seq<T>): seq<T>
  {
    DistinctBy(s, (x: T) => x)
  }

  lemma KeySeqIdentity<T>(s: seq<T>)
    ensures KeySeq(s, (x: T) => x) == s
  {
  }

  /** `Distinct(s)` has no duplicates, the same elements as `s`, and lists them
      in first-occurrence order. */
  lemma DistinctCorrect<T>(s: seq<T>)
    ensures var u := Distinct(s);
      && NoDuplicates(u)
      && (forall x :: x in s <==> x in u)
      && (forall j1, j2 :: 0 <= j1 < j2 < |u| ==> IndexOf(s, u[j1]) < IndexOf(s, u[j2]))
  {
    var id := (x: T) => x;
    var u := Distinct(s);
    DistinctByCorrect(s, id);
    KeySeqIdentity(s);
    KeySeqIdentity(u);
    forall x | x in s ensures x in u {
      var i :| 0 <= i < |s| && s[i] == x;
      assert id(s[i]) in KeySeq(u, id);
    }
    forall x | x in u ensures x in s {
      var j :| 0 <= j < |u| && u[j] == x;
      assert id(u[j]) in KeySeq(s, id);
    }
  }

  /** Ascending positions at which `x` occurs in `s`. */
  function Positions<T(==)>(s: seq<T>, x: T): (r: seq<nat>)
    ensures forall j :: 0 <= j < |r| ==> r[j] < |s| && s[r[j]] == x
    ensures forall j1, j2 :: 0 <= j1 < j2 < |r| ==> r[j1] < r[j2]
    ensures forall i :: 0 <= i < |s| && s[i] == x ==> i in r
  {
    if |s| == 0 then []
    else
      var p := Positions(s[..|s| - 1], x);
      if s[|s| - 1] == x then p + [|s| - 1] else p
  }

  /** One more element: it joins the distinct list only if it is new. */
  lemma DistinctSnoc<T>(s: seq<T>, x: T)
    ensures Distinct(s + [x]) == if x in s then Distinct(s) else Distinct(s) + [x]
  {
    assert (s + [x])[..|s|] == s;
    DistinctCorrect(s);
    KeySeqIdentity(Distinct(s));
  }

  /** One more element: its position is appended to its own list only. */
  lemma PositionsSnoc<T>(s: seq<T>, x: T, y: T)
    ensures Positions(s + [x], y) == Positions(s, y) + (if y == x then [|s|] else [])
  {
    assert (s + [x])[..|s|] == s;
  }

  /** An absent element occurs nowhere. */
  lemma {:induction false} PositionsAbsent<T>(s: seq<T>, x: T)
    requires x !in s
    ensures Positions(s, x) == []
  {
    if |s| > 0 {
      assert x !in s[..|s| - 1];
      PositionsAbsent(s[..|s| - 1], x);
    }
  }
}

=== FILE: embedding.dfy ===
/** Request bookkeeping of backend/services/embedding_service.py: equal
    texts are embedded once, cached embeddings are reused, the rest is sent
    in batches, and the results are spread back over the original order.
    The embeddings API and the cache are parameters; hashing of cache keys
    and the asynchronous scheduling of batches are not modelled. */
module Embeddings {
  import opened Results
  import opened Seqs
  import opened Dedup
  import opened Entities

  /** The default `batch_size` of `_get_uncached_batches`. */
  const BatchSize := 100

  datatype EmbedError =
    /** `range(0, n, 0)` raises. */
    | ZeroBatchSize
    /** A position outside the result list. */
    | IndexOutOfRange
    /** `unique_texts.index(text)` for a text that is not there. */
    | TextNotUnique

  // --------------------------------------------------------- deduplication

  /** `_deduplicate_texts`: the distinct texts in first-occurrence order (the
      key order of the dictionary) and, for each text, the ascending list of
      the positions where it occurs. */
  method DeduplicateTexts(texts: seq<string>) returns (unique: seq<string>, index: map<string, seq<nat>>)
    ensures unique == Distinct(texts)
    ensures forall t :: t in index <==> t in texts
    ensures forall t :: t in index ==> index[t] == Positions(texts, t)
  {
    unique := [];
    index := map[];
    var i := 0;
    while i < |texts|
      invariant 0 <= i <= |texts|
      invariant unique == Distinct(texts[..i])
      invariant forall t :: t in index <==> t in texts[..i]
      invariant forall t :: t in index ==> index[t] == Positions(texts[..i], t)
    {
      var t := texts[i];
      assert texts[..i + 1] == texts[..i] + [t];
      DistinctSnoc(texts[..i], t);
      forall x ensures Positions(texts[..i + 1], x) == Positions(texts[..i], x) + (if x == t then [i] else []) {
        PositionsSnoc(texts[..i], t, x);
      }
      if t in index {
        index := index[t := index[t] + [i]];
      } else {
        PositionsAbsent(texts[..i], t);
        index := index[t := [i]];
        unique := unique + [t];
      }
      assert forall x :: x in texts[..i + 1] <==> x in texts[..i] || x == t;
      i := i + 1;
    }
    assert texts[..i] == texts;
  }

  /** What the index table promises: every position appears under its own
      text, and only there. */
  lemma IndexTableExact(texts: seq<string>, index: map<string, seq<nat>>)
    requires forall t :: t in index <==> t in texts
    requires forall t :: t in index ==> index[t] == Positions(texts, t)
    ensures forall i :: 0 <= i < |texts| ==> texts[i] in index && i in index[texts[i]]
    ensures forall t, i :: t in index && i in index[t] ==> i < |texts| && texts[i] == t
  {
    forall t, i | t in index && i in index[t] ensures i < |texts| && texts[i] == t {
      var j :| 0 <= j < |index[t]| && index[t][j] == i;
    }
  }

  // --------------------------------------------------------------- batches

  /** One request: texts and their positions among the unique texts. */
  datatype Batch = Batch(texts: seq<string>, indices: seq<nat>)

  /** The uncached unique texts paired with their positions, in order. */
  function UncachedPairs(unique: seq<string>, results: seq<Option<Embedding>>): (r: seq<(string, nat)>)
    requires |results| == |unique|
    ensures forall p :: p in r ==> p.1 < |unique| && p.0 == unique[p.1] && results[p.1].None?
    ensures MapSeq(r, (p: (string, nat)) => p.1) == Positions(results, None)
  {
    var idx := Positions(results, None);
    var r := seq(|idx|, m requires 0 <= m < |idx| => (unique[idx[m]], idx[m]));
    assert forall p :: p in r ==> exists m :: 0 <= m < |idx| && p == (unique[idx[m]], idx[m]);
    r
  }

  function ToBatch(c: seq<(string, nat)>): Batch
  {
    Batch(MapSeq(c, (p: (string, nat)) => p.0), MapSeq(c, (p: (string, nat)) => p.1))
  }

  /** `_get_uncached_batches`: the unique texts without a cached result, cut
      into consecutive slices of `batchSize`; a negative size gives no
      batches and a zero size is an error. */
  function UncachedBatches(unique: seq<string>, results: seq<Option<Embedding>>, batchSize: int): (r: Result<seq<Batch>, EmbedError>)
    requires |results| == |unique|
    ensures r.Err? <==> batchSize == 0
    ensures batchSize < 0 ==> r == Ok([])
    ensures r.Ok? && batchSize > 0 ==>
      && Flatten(MapSeq(r.value, (b: Batch) => b.indices)) == Positions(results, None)
      && Flatten(MapSeq(r.value, (b: Batch) => b.texts)) == Select(unique, Positions(results, None))
  {
    if batchSize == 0 then Err(ZeroBatchSize)
    else if batchSize < 0 then Ok([])
    else
      var pairs := UncachedPairs(unique, results);
      var chunks := Chunks(pairs, batchSize);
      var batches := MapSeq(chunks, ToBatch);
      var fst := (p: (string, nat)) => p.0;
      var snd := (p: (string, nat)) => p.1;
      FlattenMap(chunks, fst);
      FlattenMap(chunks, snd);
      assert MapSeq(batches, (b: Batch) => b.indices) == MapSeq(chunks, (c: seq<(string, nat)>) => MapSeq(c, snd));
      assert MapSeq(batches, (b: Batch) => b.texts) == MapSeq(chunks, (c: seq<(string, nat)>) => MapSeq(c, fst));
      assert MapSeq(pairs, fst) == Select(unique, Positions(results, None));
      Ok(batches)
  }

  /** Every batch is a non-empty request of at most `batchSize` texts, each
      text sent with its own position, and only uncached positions are sent. */
  lemma BatchesWellFormed(unique: seq<string>, results: seq<Option<Embedding>>, batchSize: int)
    requires |results| == |unique| && batchSize > 0
    ensures var bs := UncachedBatches(unique, results, batchSize).value;
      forall j :: 0 <= j < |bs| ==>
        && 0 < |bs[j].texts| <= batchSize
        && |bs[j].indices| == |bs[j].texts|
        && forall k :: 0 <= k < |bs[j].texts| ==>
             bs[j].indices[k] < |unique| && bs[j].texts[k] == unique[bs[j].indices[k]]
             && results[bs[j].indices[k]].None?
  {
    var pairs := UncachedPairs(unique, results);
    var chunks := Chunks(pairs, batchSize);
    var bs := UncachedBatches(unique, results, batchSize).value;
    forall j, k | 0 <= j < |bs| && 0 <= k < |bs[j].texts|
      ensures bs[j].indices[k] < |unique| && bs[j].texts[k] == unique[bs[j].indices[k]]
        && results[bs[j].indices[k]].None?
    {
      assert bs[j] == ToBatch(chunks[j]);
      assert chunks[j][k] in chunks[j];
      InFlatten(chunks, j, chunks[j][k]);
    }
  }

  // ------------------------------------------------------ sending a batch

  /** The outside world of one batch: the embeddings returned by the API
      (`None` when the call raises) and whether writing them to the cache
      succeeds. */
  datatype Services = Services(
    cache: string -> Option<Vector>,
    api: seq<string> -> Option<seq<Vector>>,
    store: seq<string> -> bool)

  /** `results[idx] = Embedding(vector)` for each returned vector, in order.
      With distinct positions, each returned vector lands at its own one. */
  function WriteAll(results: seq<Option<Embedding>>, idxs: seq<nat>, data: seq<Vector>): (r: seq<Option<Embedding>>)
    requires |data| <= |idxs| && forall k :: 0 <= k < |idxs| ==> idxs[k] < |results|
    ensures |r| == |results|
    ensures forall i :: 0 <= i < |results| && i !in idxs[..|data|] ==> r[i] == results[i]
    ensures NoDuplicates(idxs) ==> forall j :: 0 <= j < |data| ==> r[idxs[j]] == Some(Embedding(data[j]))
  {
    if |data| == 0 then results
    else
      var n := |data| - 1;
      var prev := WriteAll(results, idxs, data[..n]);
      assert forall i :: i in idxs[..n] ==> i in idxs[..n + 1];
      assert idxs[n] in idxs[..n + 1];
      prev[idxs[n] := Some(Embedding(data[n]))]
  }

  /** The batch fails when the API raises, when it returns more vectors than
      there are positions (the lookup of the extra position raises), or when
      the cache write raises. */
  predicate BatchFails(b: Batch, data: Option<seq<Vector>>, stored: bool)
  {
    data.None? || |data.value| > |b.indices| || !stored
  }

  /** `_embed_batch`: on success each returned vector lands at its position;
      on failure every position of the batch is reset to `None`. Nothing
      else changes either way. */
  function ApplyBatch(results: seq<Option<Embedding>>, b: Batch, data: Option<seq<Vector>>, stored: bool): (r: seq<Option<Embedding>>)
    requires |b.texts| == |b.indices| && forall k :: 0 <= k < |b.indices| ==> b.indices[k] < |results|
    ensures |r| == |results|
    ensures BatchFails(b, data, stored) ==>
      forall i :: 0 <= i < |results| ==> r[i] == if i in b.indices then None else results[i]
    ensures !BatchFails(b, data, stored) ==>
      forall i :: 0 <= i < |results| && i !in b.indices ==> r[i] == results[i]
    ensures !BatchFails(b, data, stored) && NoDuplicates(b.indices) ==>
      forall j :: 0 <= j < |data.value| ==> r[b.indices[j]] == Some(Embedding(data.value[j]))
  {
    if BatchFails(b, data, stored) then
      seq(|results|, i requires 0 <= i < |results| => if i in b.indices then None else results[i])
    else
      var r := WriteAll(results, b.indices, data.value);
      assert forall i :: i in b.indices[..|data.value|] ==> i in b.indices;
      r
  }

  /** All batches, one after the other. They touch disjoint positions, so the
      concurrent scheduling of the source gives the same final list. */
  function ApplyAll(results: seq<Option<Embedding>>, batches: seq<Batch>, svc: Services): (r: seq<Option<Embedding>>)
    requires forall j :: 0 <= j < |batches| ==>
      && |batches[j].texts| == |batches[j].indices|
      && forall k :: 0 <= k < |batches[j].indices| ==> batches[j].indices[k] < |results|
    ensures |r| == |results|
    decreases |batches|
  {
    if |batches| == 0 then results
    else
      var b := batches[0];
      var next := ApplyBatch(results, b, svc.api(b.texts), svc.store(b.texts));
      ApplyAll(next, batches[1..], svc)
  }

  // ------------------------------------------------------- mapping results

  /** `results[i] = value` for each `i` in `idxs`; a position past the end
      raises. */
  function SetAll(acc: seq<Option<Embedding>>, idxs: seq<nat>, v: Option<Embedding>): (r: Result<seq<Option<Embedding>>, EmbedError>)
    ensures r.Err? <==> exists k :: 0 <= k < |idxs| && idxs[k] >= |acc|
    ensures r.Ok? ==> |r.value| == |acc| && forall i :: 0 <= i < |acc| ==> r.value[i] == if i in idxs then v else acc[i]
  {
    if exists k :: 0 <= k < |idxs| && idxs[k] >= |acc| then Err(IndexOutOfRange)
    else Ok(seq(|acc|, i requires 0 <= i < |acc| => if i in idxs then v else acc[i]))
  }

  /** The loop of `_map_results_to_original_order` over the dictionary's
      keys `keys`, continuing from `acc`. */
  function MapFrom(index: map<string, seq<nat>>, keys: seq<string>, unique: seq<string>, ur: seq<Option<Embedding>>, acc: seq<Option<Embedding>>): (r: Result<seq<Option<Embedding>>, EmbedError>)
    requires forall k :: k in keys ==> k in index
    ensures r.Ok? ==> |r.value| == |acc|
  {
    if |keys| == 0 then Ok(acc)
    else if keys[0] !in unique then Err(TextNotUnique)
    else
      var u := IndexOf(unique, keys[0]);
      if u >= |ur| then Err(IndexOutOfRange)
      else match SetAll(acc, index[keys[0]], ur[u])
        case Err(e) => Err(e)
        case Ok(next) => MapFrom(index, keys[1..], unique, ur, next)
  }

  /** `_map_results_to_original_order`, iterating the dictionary in the key
      order `keys`. */
  function MapResults(index: map<string, seq<nat>>, keys: seq<string>, unique: seq<string>, ur: seq<Option<Embedding>>, total: nat): (r: Result<seq<Option<Embedding>>, EmbedError>)
    requires forall k :: k in keys ==> k in index
    ensures r.Ok? ==> |r.value| == total
  {
    MapFrom(index, keys, unique, ur, seq(total, _ => None))
  }

  /** Writing through the index table entry of `k` overwrites exactly the
      positions whose text is `k`. */
  lemma SetAllAtText(texts: seq<string>, index: map<string, seq<nat>>, k: string, v: Option<Embedding>, acc: seq<Option<Embedding>>)
    requires forall t :: t in index <==> t in texts
    requires forall t :: t in index ==> index[t] == Positions(texts, t)
    requires k in index && |acc| == |texts|
    ensures SetAll(acc, index[k], v).Ok?
    ensures |SetAll(acc, index[k], v).value| == |texts|
    ensures forall i :: 0 <= i < |texts| ==> SetAll(acc, index[k], v).value[i] == if texts[i] == k then v else acc[i]
  {
    IndexTableExact(texts, index);
  }

  /** Processing the keys `keys` of a genuine index table writes, at every
      position whose text is one of them, the unique result for that text. */
  lemma {:induction false} MapFromCorrect(texts: seq<string>, index: map<string, seq<nat>>, keys: seq<string>,
                                          unique: seq<string>, ur: seq<Option<Embedding>>, acc: seq<Option<Embedding>>)
    requires forall t :: t in index <==> t in texts
    requires forall t :: t in index ==> index[t] == Positions(texts, t)
    requires forall k :: k in keys ==> k in unique && k in texts
    requires forall t :: t in texts ==> t in unique
    requires |ur| == |unique| && |acc| == |texts|
    ensures MapFrom(index, keys, unique, ur, acc) ==
      Ok(seq(|texts|, i requires 0 <= i < |texts| => if texts[i] in keys then ur[IndexOf(unique, texts[i])] else acc[i]))
  {
    var want := seq(|texts|, i requires 0 <= i < |texts| => if texts[i] in keys then ur[IndexOf(unique, texts[i])] else acc[i]);
    if |keys| > 0 {
      var k := keys[0];
      var u := IndexOf(unique, k);
      SetAllAtText(texts, index, k, ur[u], acc);
      var next := SetAll(acc, index[k], ur[u]).value;
      MapFromCorrect(texts, index, keys[1..], unique, ur, next);
      var got := seq(|texts|, i requires 0 <= i < |texts| => if texts[i] in keys[1..] then ur[IndexOf(unique, texts[i])] else next[i]);
      assert MapFrom(index, keys, unique, ur, acc) == Ok(got);
      forall i | 0 <= i < |texts| ensures got[i] == want[i] {
        assert texts[i] in keys <==> texts[i] == k || texts[i] in keys[1..];
      }
      assert got == want;
    } else {
      assert want == acc;
    }
  }

  /** Mapping back through the index table gives every position the result
      of its own text. */
  lemma MapBackCorrect(texts: seq<string>, index: map<string, seq<nat>>, ur: seq<Option<Embedding>>)
    requires forall t :: t in index <==> t in texts
    requires forall t :: t in index ==> index[t] == Positions(texts, t)
    requires |ur| == |Distinct(texts)|
    ensures var unique := Distinct(texts);
      && (forall t :: t in unique <==> t in texts)
      && (forall t :: t in unique ==> t in index)
      && var r := MapResults(index, unique, unique, ur, |texts|);
      && r.Ok? && |r.value| == |texts|
      && forall i :: 0 <= i < |texts| ==> r.value[i] == ur[IndexOf(unique, texts[i])]
  {
    var unique := Distinct(texts);
    DistinctCorrect(texts);
    var none: seq<Option<Embedding>> := seq(|texts|, _ => None);
    MapFromCorrect(texts, index, unique, unique, ur, none);
  }

  /** Round trip: when the result of every unique text is `g` of that text,
      the mapped results are `g` of every original text. */
  lemma MapBackRoundTrip(texts: seq<string>, index: map<string, seq<nat>>, ur: seq<Option<Embedding>>, g: string -> Option<Embedding>)
    requires forall t :: t in index <==> t in texts
    requires forall t :: t in index ==> index[t] == Positions(texts, t)
    requires |ur| == |Distinct(texts)|
    requires forall j :: 0 <= j < |ur| ==> ur[j] == g(Distinct(texts)[j])
    ensures forall t :: t in Distinct(texts) ==> t in index
    ensures MapResults(index, Distinct(texts), Distinct(texts), ur, |texts|) == Ok(MapSeq(texts, g))
  {
    MapBackCorrect(texts, index, ur);
    var unique := Distinct(texts);
    var r := MapResults(index, unique, unique, ur, |texts|).value;
    assert r == MapSeq(texts, g);
  }

  // ---------------------------------------------------------- composition

  /** An ascending list repeats nothing, and neither does any batch cut from
      a list that repeats nothing. */
  lemma {:induction false} FlattenNoDuplicates<T>(ss: seq<seq<T>>)
    requires NoDuplicates(Flatten(ss))
    ensures forall j :: 0 <= j < |ss| ==> NoDuplicates(ss[j])
  {
    if |ss| > 0 {
      NoDuplicatesSplit(ss[0], Flatten(ss[1..]));
      FlattenNoDuplicates(ss[1..]);
      assert forall j :: 1 <= j < |ss| ==> ss[j] == ss[1..][j - 1];
    }
  }

  /** No batch sends a position twice. */
  lemma BatchIndicesDistinct(unique: seq<string>, results: seq<Option<Embedding>>, batchSize: int)
    requires |results| == |unique| && batchSize > 0
    ensures var bs := UncachedBatches(unique, results, batchSize).value;
      forall j :: 0 <= j < |bs| ==> NoDuplicates(bs[j].indices)
  {
    var bs := UncachedBatches(unique, results, batchSize).value;
    var ids := MapSeq(bs, (b: Batch) => b.indices);
    FlattenNoDuplicates(ids);
  }

  /** The cached embedding of a text, if any. */
  function Cached(svc: Services, t: string): Option<Embedding>
  {
    if svc.cache(t).Some? then Some(Embedding(svc.cache(t).value)) else None
  }

  /** The cache and the API both embed every text as `f` does, and cache
      writes succeed. */
  ghost predicate Agrees(svc: Services, f: string -> Vector)
  {
    && (forall t :: svc.cache(t).Some? ==> svc.cache(t).value == f(t))
    && (forall ts :: svc.api(ts) == Some(MapSeq(ts, f)))
    && (forall ts :: svc.store(ts))
  }

  /** Every call to the embeddings API raises. */
  ghost predicate ApiDown(svc: Services)
  {
    forall ts :: svc.api(ts).None?
  }

  /** The well-formedness `ApplyAll` needs, plus what the batches of
      `_get_uncached_batches` guarantee. */
  ghost predicate GoodBatch(b: Batch, unique: seq<string>, results: seq<Option<Embedding>>)
  {
    && |b.texts| == |b.indices|
    && NoDuplicates(b.indices)
    && forall k :: 0 <= k < |b.indices| ==>
         b.indices[k] < |results| && b.indices[k] < |unique| && b.texts[k] == unique[b.indices[k]]
  }

  ghost predicate GoodBatches(batches: seq<Batch>, unique: seq<string>, results: seq<Option<Embedding>>)
  {
    forall j :: 0 <= j < |batches| ==> GoodBatch(batches[j], unique, results)
  }

  /** One batch under agreeing services: its positions receive `f` of
      their texts, the other positions keep their values. */
  lemma ApplyBatchAgrees(results: seq<Option<Embedding>>, b: Batch, svc: Services, unique: seq<string>, f: string -> Vector)
    requires GoodBatch(b, unique, results) && Agrees(svc, f) && |results| == |unique|
    ensures forall i :: 0 <= i < |results| ==>
      ApplyBatch(results, b, svc.api(b.texts), svc.store(b.texts))[i] ==
        if i in b.indices then Some(Embedding(f(unique[i]))) else results[i]
  {
    var data := svc.api(b.texts);
    assert data == Some(MapSeq(b.texts, f));
    var next := ApplyBatch(results, b, data, svc.store(b.texts));
    forall i | 0 <= i < |results| && i in b.indices ensures next[i] == Some(Embedding(f(unique[i]))) {
      var j :| 0 <= j < |b.indices| && b.indices[j] == i;
    }
  }

  /** With agreeing services every sent position receives `f` of its text
      and every other position keeps its value. */
  lemma {:induction false} ApplyAllAgrees(results: seq<Option<Embedding>>, batches: seq<Batch>, svc: Services,
                                          unique: seq<string>, f: string -> Vector)
    requires GoodBatches(batches, unique, results) && Agrees(svc, f) && |results| == |unique|
    ensures forall i :: 0 <= i < |results| ==>
      ApplyAll(results, batches, svc)[i] ==
        if i in Flatten(MapSeq(batches, (b: Batch) => b.indices)) then Some(Embedding(f(unique[i]))) else results[i]
    decreases |batches|
  {
    var h := (b: Batch) => b.indices;
    if |batches| > 0 {
      var b := batches[0];
      assert GoodBatch(b, unique, results);
      ApplyBatchAgrees(results, b, svc, unique, f);
      var next := ApplyBatch(results, b, svc.api(b.texts), svc.store(b.texts));
      assert GoodBatches(batches[1..], unique, next) by {
        forall j | 0 <= j < |batches| - 1 ensures batches[1..][j] == batches[j + 1] { }
      }
      ApplyAllAgrees(next, batches[1..], svc, unique, f);
      assert MapSeq(batches, h)[1..] == MapSeq(batches[1..], h);
      assert Flatten(MapSeq(batches, h)) == b.indices + Flatten(MapSeq(batches[1..], h));
    }
  }

  /** When the API is down every batch fails, and since batches only hold
      positions that were `None`, nothing changes. */
  lemma {:induction false} ApplyAllApiDown(results: seq<Option<Embedding>>, batches: seq<Batch>, svc: Services, unique: seq<string>)
    requires GoodBatches(batches, unique, results) && ApiDown(svc)
    requires forall j, k :: 0 <= j < |batches| && 0 <= k < |batches[j].indices| ==> results[batches[j].indices[k]].None?
    ensures ApplyAll(results, batches, svc) == results
    decreases |batches|
  {
    if |batches| > 0 {
      var b := batches[0];
      var next := ApplyBatch(results, b, svc.api(b.texts), svc.store(b.texts));
      assert next == results;
      assert GoodBatches(batches[1..], unique, results) by {
        forall j | 0 <= j < |batches| - 1 ensures batches[1..][j] == batches[j + 1] { }
      }
      ApplyAllApiDown(results, batches[1..], svc, unique);
    }
  }

  /** A position no batch sends keeps its value, whatever the services do. */
  lemma {:induction false} ApplyAllKeeps(results: seq<Option<Embedding>>, batches: seq<Batch>, svc: Services, q: nat)
    requires forall j :: 0 <= j < |batches| ==>
      && |batches[j].texts| == |batches[j].indices|
      && forall k :: 0 <= k < |batches[j].indices| ==> batches[j].indices[k] < |results|
    requires q < |results|
    requires forall j, k :: 0 <= j < |batches| && 0 <= k < |batches[j].indices| ==> batches[j].indices[k] != q
    ensures ApplyAll(results, batches, svc)[q] == results[q]
    decreases |batches|
  {
    if |batches| > 0 {
      var b := batches[0];
      var next := ApplyBatch(results, b, svc.api(b.texts), svc.store(b.texts));
      assert q !in b.indices;
      assert next[q] == results[q];
      assert forall j :: 0 <= j < |batches| - 1 ==> batches[1..][j] == batches[j + 1];
      ApplyAllKeeps(next, batches[1..], svc, q);
    }
  }

  /** What `embed` has in hand once the batches are applied: the cache
      lookups of the unique texts, batches that send exactly the uncached
      positions, their results, and every text spread back to its own
      unique text's result. */
  ghost predicate EmbedState(texts: seq<string>, unique: seq<string>, cached: seq<Option<Embedding>>, batches: seq<Batch>,
                             svc: Services, results: seq<Option<Embedding>>, r: seq<Option<Embedding>>)
  {
    && |cached| == |unique| && (forall u :: 0 <= u < |unique| ==> cached[u] == Cached(svc, unique[u]))
    && GoodBatches(batches, unique, cached)
    && (forall j, k :: 0 <= j < |batches| && 0 <= k < |batches[j].indices| ==> cached[batches[j].indices[k]].None?)
    && Flatten(MapSeq(batches, (b: Batch) => b.indices)) == Positions(cached, None)
    && results == ApplyAll(cached, batches, svc)
    && |r| == |texts|
    && forall i :: 0 <= i < |texts| ==> texts[i] in unique && r[i] == results[IndexOf(unique, texts[i])]
  }

  /** Batches send only uncached positions, so a text found in the cache
      ends with its cached embedding. */
  lemma CacheHitsKept(texts: seq<string>, unique: seq<string>, cached: seq<Option<Embedding>>,
                      batches: seq<Batch>, svc: Services, results: seq<Option<Embedding>>, r: seq<Option<Embedding>>)
    requires EmbedState(texts, unique, cached, batches, svc, results, r)
    ensures forall i :: 0 <= i < |texts| && Cached(svc, texts[i]).Some? ==> r[i] == Cached(svc, texts[i])
  {
    forall i | 0 <= i < |texts| && Cached(svc, texts[i]).Some? ensures r[i] == Cached(svc, texts[i]) {
      var u := IndexOf(unique, texts[i]);
      assert cached[u] == Cached(svc, texts[i]);
      ApplyAllKeeps(cached, batches, svc, u);
    }
  }

  /** With agreeing services every unique text ends with `f` of itself,
      whether it was cached or sent. */
  lemma AgreeingResults(unique: seq<string>, cached: seq<Option<Embedding>>, batches: seq<Batch>,
                        svc: Services, f: string -> Vector)
    requires |cached| == |unique| && forall u :: 0 <= u < |unique| ==> cached[u] == Cached(svc, unique[u])
    requires GoodBatches(batches, unique, cached)
    requires Flatten(MapSeq(batches, (b: Batch) => b.indices)) == Positions(cached, None)
    requires Agrees(svc, f)
    ensures forall u :: 0 <= u < |unique| ==> ApplyAll(cached, batches, svc)[u] == Some(Embedding(f(unique[u])))
  {
    ApplyAllAgrees(cached, batches, svc, unique, f);
    forall u | 0 <= u < |unique| ensures ApplyAll(cached, batches, svc)[u] == Some(Embedding(f(unique[u]))) {
      if cached[u].None? {
        assert u in Positions(cached, None);
      }
    }
  }

  /** Round trip through `embed`'s spreading: when every unique text ends
      with `g` of itself, every text ends with `g` of itself. */
  lemma SpreadRoundTrip(texts: seq<string>, unique: seq<string>, cached: seq<Option<Embedding>>, batches: seq<Batch>,
                        svc: Services, results: seq<Option<Embedding>>, r: seq<Option<Embedding>>, g: string -> Option<Embedding>)
    requires EmbedState(texts, unique, cached, batches, svc, results, r)
    requires forall u :: 0 <= u < |unique| ==> results[u] == g(unique[u])
    ensures r == MapSeq(texts, g)
  {
    forall i | 0 <= i < |texts| ensures r[i] == g(texts[i]) {
      var u := IndexOf(unique, texts[i]);
      assert r[i] == results[u];
    }
  }

  /** With the API down every text keeps its cache lookup. */
  lemma ApiDownSpread(texts: seq<string>, unique: seq<string>, cached: seq<Option<Embedding>>, batches: seq<Batch>,
                      svc: Services, results: seq<Option<Embedding>>, r: seq<Option<Embedding>>)
    requires EmbedState(texts, unique, cached, batches, svc, results, r) && ApiDown(svc)
    ensures r == MapSeq(texts, (t: string) => Cached(svc, t))
  {
    ApplyAllApiDown(cached, batches, svc, unique);
    forall i | 0 <= i < |texts| ensures r[i] == Cached(svc, texts[i]) {
      var u := IndexOf(unique, texts[i]);
      assert r[i] == cached[u];
    }
  }

  /** `embed`: deduplicate, look up the cache, send the uncached texts in
      batches of 100, and spread the unique results over the input order.
      Equal texts get equal results; a text found in the cache gets its
      cached embedding whatever the API does; when cache and API agree with
      an embedding function, every text gets its embedding; when the API is
      down, every text keeps exactly its cached embedding or `None`. */
  method Embed(texts: seq<string>, svc: Services) returns (r: seq<Option<Embedding>>)
    ensures |r| == |texts|
    ensures forall i, j :: 0 <= i < |texts| && 0 <= j < |texts| && texts[i] == texts[j] ==> r[i] == r[j]
    ensures forall f :: Agrees(svc, f) ==> r == MapSeq(texts, (t: string) => Some(Embedding(f(t))))
    ensures ApiDown(svc) ==> r == MapSeq(texts, (t: string) => Cached(svc, t))
    ensures forall i :: 0 <= i < |texts| && Cached(svc, texts[i]).Some? ==> r[i] == Cached(svc, texts[i])
  {
    var unique, index := DeduplicateTexts(texts);
    var cached := MapSeq(unique, (t: string) => Cached(svc, t));
    var batches := UncachedBatches(unique, cached, BatchSize).value;
    BatchesWellFormed(unique, cached, BatchSize);
    BatchIndicesDistinct(unique, cached, BatchSize);
    assert GoodBatches(batches, unique, cached);
    var results := ApplyAll(cached, batches, svc);
    MapBackCorrect(texts, index, results);
    r := MapResults(index, unique, unique, results, |texts|).value;
    assert EmbedState(texts, unique, cached, batches, svc, results, r);
    CacheHitsKept(texts, unique, cached, batches, svc, results, r);
    forall f | Agrees(svc, f) ensures r == MapSeq(texts, (t: string) => Some(Embedding(f(t)))) {
      AgreeingResults(unique, cached, batches, svc, f);
      SpreadRoundTrip(texts, unique, cached, batches, svc, results, r, (t: string) => Some(Embedding(f(t))));
    }
    if ApiDown(svc) {
      ApiDownSpread(texts, unique, cached, batches, svc, results, r);
    }
  }
}

=== FILE: entities.dfy ===
/** The records the services exchange (backend/domain/entities.py and
    backend/schemas/watch_history.py). Floats are modelled as `real`. */
module Entities {
  import opened Results

  type Vector = seq<real>

  datatype Embedding = Embedding(vector: Vector)

  /** A catalogue movie. `id` is optional because profile building creates
      movies from history items, which carry no id. */
  datatype Movie = Movie(
    id: Option<string>,
    title: string,
    year: int,
    duration: int,
    genres: seq<string>,
    countries: seq<string>,
    description: Option<string>,
    embedding: Option<Embedding>)

  /** One taste group: a weighted centroid, its member movies (left empty by
      clustering), the weighted mean rating and the member count. */
  datatype Cluster = Cluster(
    centroid: Embedding,
    movies: seq<Movie>,
    averageRating: real,
    count: int)

  /** One validated row of an uploaded watch history. */
  datatype MovieHistoryItem = MovieHistoryItem(
    title: string,
    rating: real,
    year: int,
    duration: int,
    genres: seq<string>,
    countries: seq<string>,
    description: Option<string>,
    watchedAt: Option<string>)

  datatype UserProfile = UserProfile(
    userId: string,
    clusters: seq<Cluster>,
    movies: seq<MovieHistoryItem>)
}

=== FILE: field_detection.dfy ===
/** Field detection for uploaded watch histories
    (backend/services/field_detection_service.py): a table of fields, each
    with priority-ordered source keys and a type, and one parser per type.
    Float parsing, `str()` of values other than strings, integers and
    booleans, and the country-name lookup are library behaviour and are
    parameters. */
module FieldDetection {
  import opened Results
  import opened Seqs
  import opened Strings

  /** A value of a decoded JSON record. `VObj` stands for any other object
      (a dict, ...), of which only its truthiness matters here. */
  datatype Value =
    | VStr(s: string)
    | VInt(i: int)
    | VBool(b: bool)
    | VFloat(x: real)
    | VList(items: seq<Value>)
    | VNone
    | VObj(truthy: bool)

  /** A record: keys to values. */
  type Record = map<string, Value>

  /** Python truthiness. */
  predicate Truthy(v: Value)
  {
    match v
    case VStr(s) => |s| > 0
    case VInt(i) => i != 0
    case VBool(b) => b
    case VFloat(x) => x != 0.0
    case VList(items) => |items| > 0
    case VNone => false
    case VObj(t) => t
  }

  datatype FieldType = StrType | FloatType | IntType | ListType

  /** One entry of `_get_field_configs`. */
  datatype FieldConfig = FieldConfig(
    name: string,
    patterns: seq<string>,
    ftype: FieldType,
    required: bool,
    isYear: bool,
    default: Option<Value>)

  /** `_get_field_configs`, in declaration order. */
  const Configs: seq<FieldConfig> := [
    FieldConfig("title",
      ["originalTitle", "title", "original_title", "primaryTitle", "movie_name", "name", "film_title", "internationalTitle"],
      StrType, true, false, None),
    FieldConfig("rating",
      ["rating", "rating_score", "vote_average", "averageRating", "user_rating", "score", "rate"],
      FloatType, true, false, None),
    FieldConfig("year",
      ["year", "release_year", "startYear", "production_year", "release_date", "releaseYear"],
      IntType, true, true, None),
    FieldConfig("duration",
      ["duration", "runtime", "runtimeMinutes", "film_length", "length"],
      IntType, true, false, None),
    FieldConfig("genres",
      ["genres", "genre_list", "category_tags", "genre"],
      ListType, true, false, None),
    FieldConfig("countries",
      ["countries", "country_list", "production_countries", "origin_countries", "country"],
      ListType, true, false, Some(VList([]))),
    FieldConfig("description",
      ["description", "plot_summary", "overview", "synopsis", "plot", "summary"],
      StrType, true, false, None),
    FieldConfig("watched_at",
      ["watched_at", "viewed_date", "watch_timestamp", "date", "watch_date", "viewDate"],
      StrType, false, false, None)
  ]

  /** Library behaviour: `float(s)` for a string (`None` when it raises
      `ValueError`), `str(v)` for floats, lists and other objects, and
      `map_country_to_tmdb`. */
  datatype Parsers = Parsers(
    parseFloat: string -> Option<real>,
    render: Value -> string,
    mapCountry: string -> string)

  /** `str(v)` */
  function ToStr(v: Value, ps: Parsers): string
  {
    match v
    case VStr(s) => s
    case VInt(i) => IntToString(i)
    case VBool(b) => if b then "True" else "False"
    case VNone => "None"
    case _ => ps.render(v)
  }

  // ---------------------------------------------------------------- titles

  predicate IsAsciiLetter(c: char)
  {
    'a' <= c <= 'z' || 'A' <= c <= 'Z'
  }

  /** `t` ends in a parenthesised two-letter code such as "(en)" or "(FR)". */
  predicate HasLangSuffix(t: string)
  {
    |t| >= 4 && t[|t| - 4] == '(' && IsAsciiLetter(t[|t| - 3]) && IsAsciiLetter(t[|t| - 2]) && t[|t| - 1] == ')'
  }

  /** The part of a title, right-trimmed, before its language code. */
  function TitleStem(title: string): string
    requires HasLangSuffix(TrimRight(title))
  {
    var t := TrimRight(title);
    t[..|t| - 4]
  }

  /** `normalize_title_value`: drop one trailing two-letter language code in
      parentheses together with the whitespace around it, then strip. */
  function NormalizeTitle(title: string): (r: string)
    ensures |r| > 0 ==> !IsSpace(r[0]) && !IsSpace(r[|r| - 1])
    ensures HasLangSuffix(TrimRight(title)) ==> exists a :: StripsTo(TitleStem(title), a, r)
    ensures !HasLangSuffix(TrimRight(title)) ==> exists a :: StripsTo(title, a, r)
  {
    if HasLangSuffix(TrimRight(title)) then
      var stem := TitleStem(title);
      StripEnds(stem);
      StripStripsTo(stem);
      Strip(stem)
    else
      StripEnds(title);
      StripStripsTo(title);
      Strip(title)
  }

  /** A title of the form `p + " (xx) "` loses the code and the whitespace
      around it; the rest is stripped. */
  lemma NormalizeTitleDropsCode(p: string, w1: string, a: char, b: char, w2: string)
    requires AllSpace(w1) && AllSpace(w2) && IsAsciiLetter(a) && IsAsciiLetter(b)
    ensures NormalizeTitle(p + w1 + ['(', a, b, ')'] + w2) == Strip(p)
  {
    var head := p + w1;
    var core := head + ['(', a, b, ')'];
    var n := |core|;
    assert n == |head| + 4;
    assert core[n - 4] == '(' && core[n - 3] == a && core[n - 2] == b && core[n - 1] == ')';
    assert TrimRight(core) == core;
    StripAppendSpaces(core, w2);
    assert core + w2 == p + w1 + ['(', a, b, ')'] + w2;
    assert HasLangSuffix(core);
    assert core[..n - 4] == head;
    StripAppendSpaces(p, w1);
  }

  /** A title with no such code at its end is only stripped. */
  lemma NormalizeTitleOnlyStrips(title: string)
    requires !HasLangSuffix(TrimRight(title))
    ensures NormalizeTitle(title) == Strip(title)
  {
  }

  // --------------------------------------------------------------- parsers

  /** `_detect_str_field`: a string with some non-whitespace content, stripped
      (titles also normalized, which leaves nothing for the final `strip()`
      to remove); anything else is `None`. The text kept is the input's
      non-whitespace core; for a title ending in a language code, the core of
      what precedes the code, which may be empty. */
  function DetectStr(v: Value, isTitle: bool): (r: Option<string>)
    ensures r.Some? <==> v.VStr? && !AllSpace(v.s)
    ensures r.Some? && !isTitle ==> |r.value| > 0 && exists a :: StripsTo(v.s, a, r.value)
    ensures r.Some? && isTitle && !HasLangSuffix(TrimRight(v.s)) ==>
      |r.value| > 0 && exists a :: StripsTo(v.s, a, r.value)
    ensures r.Some? && isTitle && HasLangSuffix(TrimRight(v.s)) ==>
      exists a :: StripsTo(TitleStem(v.s), a, r.value)
  {
    if v.VStr? && |Strip(v.s)| > 0 then
      StripEmpty(v.s);
      StripStripsTo(v.s);
      Some(if isTitle then NormalizeTitle(v.s) else Strip(v.s))
    else
      StripEmpty(if v.VStr? then v.s else "");
      None
  }
  /** A title of one no-break space is whitespace only, so it is rejected. */
  lemma NoBreakSpaceRejected()
    ensures DetectStr(VStr("\U{A0}"), true) == None
  {
    assert !exists i :: 0 <= i < |"\U{A0}"| && !IsSpace("\U{A0}"[i]);
  }


  /** `_detect_float_field`: numbers (booleans are integers in Python)
      convert, strings go through `float()`, anything else is `None`.
      Conversion keeps a number's value, so an integer stays whole and a
      number stays truthy exactly when it was. */
  function DetectFloat(v: Value, ps: Parsers): (r: Option<real>)
    ensures r.Some? <==> v.VInt? || v.VFloat? || v.VBool? || (v.VStr? && ps.parseFloat(v.s).Some?)
    ensures r.Some? && !v.VStr? ==> (r.value != 0.0 <==> Truthy(v))
    ensures v.VInt? ==> r.value.Floor == v.i && r.value == r.value.Floor as real
    ensures v.VBool? ==> r.value == r.value.Floor as real && 0.0 <= r.value <= 1.0
    ensures v.VFloat? ==> r.value == v.x
    ensures v.VStr? ==> r == ps.parseFloat(v.s)
  {
    match v
    case VInt(i) => Some(i as real)
    case VBool(b) => Some(if b then 1.0 else 0.0)
    case VFloat(x) => Some(x)
    case VStr(s) => ps.parseFloat(s)
    case _ => None
  }

  /** A detected float detects as itself: the field converter is stable. */
  lemma DetectFloatStable(v: Value, ps: Parsers)
    requires DetectFloat(v, ps).Some?
    ensures DetectFloat(VFloat(DetectFloat(v, ps).value), ps) == DetectFloat(v, ps)
  {
  }

  /** Four digits start at position `i` of `s`. */
  predicate DigitWindow(s: string, i: nat)
  {
    i + 4 <= |s| && AllDigits(s[i..i + 4])
  }

  /** `re.search(r"(\d{4})", s)`: where the first run of four digits starts. */
  function FirstWindow(s: string): (r: Option<nat>)
    ensures r.Some? ==> DigitWindow(s, r.value) && forall j :: 0 <= j < r.value ==> !DigitWindow(s, j)
    ensures r.None? ==> forall j :: 0 <= j ==> !DigitWindow(s, j)
  {
    if |s| < 4 then None
    else if AllDigits(s[..4]) then
      assert s[0..4] == s[..4];
      Some(0)
    else
      var rest := FirstWindow(s[1..]);
      assert !DigitWindow(s, 0) by { assert s[0..4] == s[..4]; }
      ShiftWindow(s);
      match rest
      case None => None
      case Some(i) => Some(i + 1)
  }

  /** A window of `s` at `j + 1` is a window of `s[1..]` at `j`. */
  lemma ShiftWindow(s: string)
    requires |s| > 0
    ensures forall j: nat :: j >= 1 ==> (DigitWindow(s, j) <==> DigitWindow(s[1..], j - 1))
  {
    forall j: nat | j >= 1 ensures DigitWindow(s, j) <==> DigitWindow(s[1..], j - 1) {
      if j + 4 <= |s| {
        assert s[1..][j - 1..j + 3] == s[j..j + 4];
      }
    }
  }

  /** `_detect_int_field`: an integer (or boolean) passes through unchanged;
      a string gives the first four-digit run for a year field and the
      whole-string integer otherwise; anything else is `None`. A year string
      without four digits is `None` as well. */
  function DetectInt(v: Value, isYear: bool): (r: Option<Value>)
    ensures (v.VInt? || v.VBool?) ==> r == Some(v)
    ensures v.VStr? && isYear ==>
      (r.None? <==> forall j :: 0 <= j ==> !DigitWindow(v.s, j))
    ensures v.VStr? && isYear && r.Some? ==>
      exists j :: 0 <= j && DigitWindow(v.s, j)
        && (forall k :: 0 <= k < j ==> !DigitWindow(v.s, k))
        && r.value == VInt(DigitsValue(v.s[j..j + 4]))
    ensures v.VStr? && !isYear ==> (r.Some? <==> ParseInt(v.s).Some?)
    ensures v.VStr? && !isYear && r.Some? ==> r.value == VInt(ParseInt(v.s).value)
    ensures !(v.VInt? || v.VBool? || v.VStr?) ==> r.None?
  {
    match v
    case VInt(_) => Some(v)
    case VBool(_) => Some(v)
    case VStr(s) =>
      if isYear then
        var w := FirstWindow(s);
        if w.Some? then Some(VInt(DigitsValue(s[w.value..w.value + 4]))) else None
      else
        var p := ParseInt(s);
        if p.Some? then Some(VInt(p.value)) else None
    case _ => None
  }

  /** Stripped pieces of a comma split are stripped and comma-free. */
  lemma StrippedPieces(raw: seq<string>)
    requires forall i :: 0 <= i < |raw| ==> ',' !in raw[i]
    ensures forall t :: t in MapSeq(raw, Strip) ==> Strip(t) == t && ',' !in t
  {
    var pieces := MapSeq(raw, Strip);
    forall t | t in pieces ensures Strip(t) == t && ',' !in t {
      var i :| 0 <= i < |pieces| && pieces[i] == t;
      StripIdempotent(raw[i]);
      StripKeepsOut(raw[i], ',');
    }
  }

  predicate NonEmpty(t: string)
  {
    |t| > 0
  }

  /** `[item.strip() for item in s.split(",") if item.strip()]` */
  function CommaItems(s: string): (r: seq<string>)
    ensures forall t :: t in r ==> |t| > 0 && ',' !in t && Strip(t) == t
    ensures Selects(r, MapSeq(Split(s, ','), Strip), NonEmpty)
  {
    var raw := Split(s, ',');
    StrippedPieces(raw);
    FilterSelects(MapSeq(raw, Strip), NonEmpty);
    Filter(MapSeq(raw, Strip), NonEmpty)
  }

  /** Joining clean items with commas and splitting them again gives the
      items back. */
  lemma CommaItemsJoin(items: seq<string>)
    requires |items| >= 1
    requires forall i :: 0 <= i < |items| ==> |items[i]| > 0 && ',' !in items[i] && Strip(items[i]) == items[i]
    ensures CommaItems(Join(items, [','])) == items
  {
    SplitJoin(items, ',');
    var pieces := MapSeq(items, Strip);
    assert pieces == items;
    FilterKeepsAll(items, NonEmpty);
  }

  /** The country mapping, when the field is `countries`. */
  function CountryMapped(t: string, isCountries: bool, ps: Parsers): string
  {
    if isCountries then ps.mapCountry(t) else t
  }

  /** `_detect_list_field`: a list keeps its truthy items as strings; a string
      is split on commas into trimmed non-empty items; anything else is
      `None`. Country names then go through `map_country_to_tmdb`. */
  function DetectList(v: Value, isCountries: bool, ps: Parsers): (r: Option<seq<string>>)
    ensures r.Some? <==> v.VList? || v.VStr?
    ensures v.VList? ==> exists kept :: (
      && Selects(kept, v.items, Truthy) && |r.value| == |kept|
      && forall i :: 0 <= i < |kept| ==> r.value[i] == CountryMapped(ToStr(kept[i], ps), isCountries, ps))
    ensures v.VStr? ==> exists items :: (
      && Selects(items, MapSeq(Split(v.s, ','), Strip), NonEmpty) && |r.value| == |items|
      && forall i :: 0 <= i < |items| ==> r.value[i] == CountryMapped(items[i], isCountries, ps))
    ensures v.VStr? && !isCountries ==> forall t :: t in r.value ==> |t| > 0 && ',' !in t && Strip(t) == t
  {
    match v
    case VList(items) =>
      var kept := Filter(items, Truthy);
      FilterSelects(items, Truthy);
      Some(MapSeq(kept, (x: Value) => CountryMapped(ToStr(x, ps), isCountries, ps)))
    case VStr(s) =>
      var parts := CommaItems(s);
      Some(MapSeq(parts, (t: string) => CountryMapped(t, isCountries, ps)))
    case _ => None
  }

  /** A comma-joined list of clean names detects as those names. */
  lemma DetectListJoin(items: seq<string>, ps: Parsers)
    requires |items| >= 1
    requires forall i :: 0 <= i < |items| ==> |items[i]| > 0 && ',' !in items[i] && Strip(items[i]) == items[i]
    ensures DetectList(VStr(Join(items, [','])), false, ps) == Some(items)
  {
    var joined := Join(items, [',']);
    var parts := CommaItems(joined);
    assert parts == items by {
      CommaItemsJoin(items);
    }
    UnmappedItems(parts, ps);
  }

  /** Outside the countries field, no name is mapped. */
  lemma UnmappedItems(parts: seq<string>, ps: Parsers)
    ensures MapSeq(parts, (t: string) => CountryMapped(t, false, ps)) == parts
  {
  }

  // ------------------------------------------------------------- detection

  /** The parser chosen by the field's type, applied to one raw value. */
  function Parse(v: Value, cfg: FieldConfig, ps: Parsers): (r: Option<Value>)
    ensures r.Some? ==> HasType(r.value, cfg.ftype)
  {
    match cfg.ftype
    case StrType =>
      var d := DetectStr(v, cfg.name == "title");
      if d.Some? then Some(VStr(d.value)) else None
    case FloatType =>
      var d := DetectFloat(v, ps);
      if d.Some? then Some(VFloat(d.value)) else None
    case IntType => DetectInt(v, cfg.isYear)
    case ListType =>
      var d := DetectList(v, cfg.name == "countries", ps);
      if d.Some? then Some(VList(MapSeq(d.value, (t: string) => VStr(t)))) else None
  }

  /** The first of `patterns` that is a key of `data`. */
  function FirstPresent(patterns: seq<string>, data: Record): (r: Option<nat>)
    ensures r.Some? ==>
      && r.value < |patterns| && patterns[r.value] in data
      && forall j :: 0 <= j < r.value ==> patterns[j] !in data
    ensures r.None? ==> forall j :: 0 <= j < |patterns| ==> patterns[j] !in data
  {
    if |patterns| == 0 then None
    else if patterns[0] in data then Some(0)
    else
      var rest := FirstPresent(patterns[1..], data);
      if rest.Some? then Some(rest.value + 1) else None
  }

  /** `_detect_field`: the value under the first pattern present in the
      record is parsed, and its result is final even when it is `None`;
      with no pattern present the configured default is returned. */
  function DetectField(data: Record, cfg: FieldConfig, ps: Parsers): (r: Option<Value>)
    ensures forall i ::
      (0 <= i < |cfg.patterns| && cfg.patterns[i] in data
       && forall j :: 0 <= j < i ==> cfg.patterns[j] !in data)
      ==> r == Parse(data[cfg.patterns[i]], cfg, ps)
    ensures (forall i :: 0 <= i < |cfg.patterns| ==> cfg.patterns[i] !in data) ==> r == cfg.default
  {
    var k := FirstPresent(cfg.patterns, data);
    assert forall i :: (0 <= i < |cfg.patterns| && cfg.patterns[i] in data
      && forall j :: 0 <= j < i ==> cfg.patterns[j] !in data) ==> k == Some(i);
    if k.Some? then Parse(data[cfg.patterns[k.value]], cfg, ps) else cfg.default
  }

  // ------------------------------------------------------------ conversion

  predicate DistinctNames(cfgs: seq<FieldConfig>)
  {
    forall i, j :: 0 <= i < j < |cfgs| ==> cfgs[i].name != cfgs[j].name
  }

  /** The loop of `convert_movie_data` over `cfgs`, continuing from `acc`. */
  function ConvertFrom(data: Record, cfgs: seq<FieldConfig>, acc: Record, ps: Parsers): (r: Option<Record>)
    ensures r.None? <==> exists i :: 0 <= i < |cfgs| && cfgs[i].required && DetectField(data, cfgs[i], ps).None?
  {
    if |cfgs| == 0 then Some(acc)
    else
      var v := DetectField(data, cfgs[0], ps);
      if cfgs[0].required && v.None? then None
      else
        var acc' := if v.Some? then acc[cfgs[0].name := v.value] else acc;
        var r := ConvertFrom(data, cfgs[1..], acc', ps);
        assert forall i :: 1 <= i < |cfgs| ==> cfgs[1..][i - 1] == cfgs[i];
        r
  }

  /** With distinct field names, the loop writes each detected field under
      its name, and a field's name is a key exactly when it was detected or
      already present. */
  lemma {:induction false} ConvertFromFields(data: Record, cfgs: seq<FieldConfig>, acc: Record, ps: Parsers)
    requires DistinctNames(cfgs)
    ensures var r := ConvertFrom(data, cfgs, acc, ps);
      r.Some? ==> forall i :: 0 <= i < |cfgs| ==>
        && (cfgs[i].name in r.value <==> DetectField(data, cfgs[i], ps).Some? || cfgs[i].name in acc)
        && (DetectField(data, cfgs[i], ps).Some? ==> r.value[cfgs[i].name] == DetectField(data, cfgs[i], ps).value)
  {
    if |cfgs| > 0 {
      var v := DetectField(data, cfgs[0], ps);
      var acc' := if v.Some? then acc[cfgs[0].name := v.value] else acc;
      assert DistinctNames(cfgs[1..]);
      var r := ConvertFrom(data, cfgs, acc, ps);
      if r.Some? {
        assert r == ConvertFrom(data, cfgs[1..], acc', ps);
        ConvertFromFields(data, cfgs[1..], acc', ps);
        ConvertFromKeeps(data, cfgs[1..], acc', ps);
        ConvertFromOnly(data, cfgs[1..], acc', ps);
        forall i | 0 <= i < |cfgs|
          ensures cfgs[i].name in r.value <==> DetectField(data, cfgs[i], ps).Some? || cfgs[i].name in acc
          ensures DetectField(data, cfgs[i], ps).Some? ==> r.value[cfgs[i].name] == DetectField(data, cfgs[i], ps).value
        {
          if i == 0 {
            assert forall j :: 0 <= j < |cfgs[1..]| ==> cfgs[1..][j].name != cfgs[0].name;
          } else {
            assert cfgs[1..][i - 1] == cfgs[i];
            assert cfgs[i].name != cfgs[0].name;
          }
        }
      }
    }
  }

  /** Every key of the result was already in `acc` or names a field. */
  lemma {:induction false} ConvertFromOnly(data: Record, cfgs: seq<FieldConfig>, acc: Record, ps: Parsers)
    ensures var r := ConvertFrom(data, cfgs, acc, ps);
      r.Some? ==> forall k :: k in r.value ==> k in acc || exists i :: 0 <= i < |cfgs| && cfgs[i].name == k
  {
    if |cfgs| > 0 {
      var v := DetectField(data, cfgs[0], ps);
      var acc' := if v.Some? then acc[cfgs[0].name := v.value] else acc;
      ConvertFromOnly(data, cfgs[1..], acc', ps);
      var r := ConvertFrom(data, cfgs, acc, ps);
      if r.Some? {
        assert r == ConvertFrom(data, cfgs[1..], acc', ps);
        forall k | k in r.value
          ensures k in acc || exists i :: 0 <= i < |cfgs| && cfgs[i].name == k
        {
          if k !in acc' {
            var j :| 0 <= j < |cfgs[1..]| && cfgs[1..][j].name == k;
            assert cfgs[j + 1].name == k;
          } else if k !in acc {
            assert cfgs[0].name == k;
          }
        }
      }
    }
  }

  /** Keys of `acc` that name no field pass through unchanged. */
  lemma {:induction false} ConvertFromKeeps(data: Record, cfgs: seq<FieldConfig>, acc: Record, ps: Parsers)
    ensures var r := ConvertFrom(data, cfgs, acc, ps);
      r.Some? ==> forall k :: k in acc && (forall i :: 0 <= i < |cfgs| ==> cfgs[i].name != k) ==>
        k in r.value && r.value[k] == acc[k]
  {
    if |cfgs| > 0 {
      var v := DetectField(data, cfgs[0], ps);
      var acc' := if v.Some? then acc[cfgs[0].name := v.value] else acc;
      ConvertFromKeeps(data, cfgs[1..], acc', ps);
      assert forall i :: 1 <= i < |cfgs| ==> cfgs[1..][i - 1] == cfgs[i];
    }
  }

  lemma ConfigNamesDistinct()
    ensures DistinctNames(Configs)
  {
  }

  /** The loop started from the empty record: one key per detected field,
      holding the detected value, and no other keys. */
  lemma ConvertFromEmpty(data: Record, cfgs: seq<FieldConfig>, ps: Parsers)
    requires DistinctNames(cfgs)
    ensures var r := ConvertFrom(data, cfgs, map[], ps);
      r.Some? ==>
        && (forall i :: 0 <= i < |cfgs| ==>
              && (cfgs[i].name in r.value <==> DetectField(data, cfgs[i], ps).Some?)
              && (DetectField(data, cfgs[i], ps).Some? ==> r.value[cfgs[i].name] == DetectField(data, cfgs[i], ps).value))
        && (forall k :: k in r.value ==> exists i :: 0 <= i < |cfgs| && cfgs[i].name == k)
  {
    ConvertFromFields(data, cfgs, map[], ps);
    ConvertFromOnly(data, cfgs, map[], ps);
  }

  /** `convert_movie_data`: `None` exactly when a required field is not
      detected; otherwise a record with one key per detected field, holding
      the detected value, and no other keys. */
  function Convert(data: Record, ps: Parsers): (r: Option<Record>)
    ensures r.None? <==> exists i :: 0 <= i < |Configs| && Configs[i].required && DetectField(data, Configs[i], ps).None?
    ensures r.Some? ==> forall i :: 0 <= i < |Configs| ==>
      && (Configs[i].name in r.value <==> DetectField(data, Configs[i], ps).Some?)
      && (DetectField(data, Configs[i], ps).Some? ==> r.value[Configs[i].name] == DetectField(data, Configs[i], ps).value)
    ensures r.Some? ==> forall k :: k in r.value ==> exists i :: 0 <= i < |Configs| && Configs[i].name == k
  {
    ConfigNamesDistinct();
    ConvertFromEmpty(data, Configs, ps);
    ConvertFrom(data, Configs, map[], ps)
  }

  // ------------------------------------------------------------ validation

  /** The `isinstance` test of `validate_movie_data` for each type tag. */
  predicate HasType(v: Value, t: FieldType)
  {
    match t
    case StrType => v.VStr?
    case FloatType => v.VInt? || v.VBool? || v.VFloat?
    case IntType => v.VInt? || v.VBool?
    case ListType => v.VList?
  }

  /** The loop of `validate_movie_data` over `cfgs`, with its early returns. */
  function ValidateFrom(data: Record, cfgs: seq<FieldConfig>): bool
  {
    if |cfgs| == 0 then true
    else if cfgs[0].required && cfgs[0].name !in data then false
    else if cfgs[0].required && !HasType(data[cfgs[0].name], cfgs[0].ftype) then false
    else ValidateFrom(data, cfgs[1..])
  }

  function Validate(data: Record): bool
  {
    ValidateFrom(data, Configs)
  }

  /** Validation fails exactly when some required field is missing or has
      the wrong type. */
  lemma {:induction false} ValidateFromExactly(data: Record, cfgs: seq<FieldConfig>)
    ensures ValidateFrom(data, cfgs) <==>
      forall i :: 0 <= i < |cfgs| && cfgs[i].required ==>
        cfgs[i].name in data && HasType(data[cfgs[i].name], cfgs[i].ftype)
  {
    if |cfgs| > 0 {
      ValidateFromExactly(data, cfgs[1..]);
      assert forall i :: 1 <= i < |cfgs| ==> cfgs[1..][i - 1] == cfgs[i];
    }
  }

  lemma ValidateExactly(data: Record)
    ensures Validate(data) <==>
      forall i :: 0 <= i < |Configs| && Configs[i].required ==>
        Configs[i].name in data && HasType(data[Configs[i].name], Configs[i].ftype)
  {
    ValidateFromExactly(data, Configs);
  }

  /** Every converted record passes validation. */
  lemma ConvertedValidates(data: Record, ps: Parsers)
    requires Convert(data, ps).Some?
    ensures Validate(Convert(data, ps).value)
  {
    var c := Convert(data, ps).value;
    ValidateExactly(c);
    ConfigDefaultsTyped();
    forall i | 0 <= i < |Configs| && Configs[i].required
      ensures Configs[i].name in c && HasType(c[Configs[i].name], Configs[i].ftype)
    {
      var cfg := Configs[i];
      var d := DetectField(data, cfg, ps);
      assert d.Some?;
      DetectedHasType(data, cfg, ps);
    }
  }

  /** Every configured default has its field's type. */
  lemma ConfigDefaultsTyped()
    ensures forall i :: 0 <= i < |Configs| && Configs[i].default.Some? ==>
      HasType(Configs[i].default.value, Configs[i].ftype)
  {
  }

  /** A detected value has the type its field declares. */
  lemma DetectedHasType(data: Record, cfg: FieldConfig, ps: Parsers)
    requires cfg.default.Some? ==> HasType(cfg.default.value, cfg.ftype)
    requires DetectField(data, cfg, ps).Some?
    ensures HasType(DetectField(data, cfg, ps).value, cfg.ftype)
  {
  }

  /** A record with no country key gets the empty country list rather than
      being rejected. */
  lemma MissingCountriesDefault(data: Record, ps: Parsers)
    requires forall i :: 0 <= i < |Configs[5].patterns| ==> Configs[5].patterns[i] !in data
    ensures Configs[5].name == "countries"
    ensures DetectField(data, Configs[5], ps) == Some(VList([]))
  {
  }

  /** A record with no watch-date key converts without a `watched_at` entry. */
  lemma MissingWatchedAtOmitted(data: Record, ps: Parsers)
    requires forall i :: 0 <= i < |Configs[7].patterns| ==> Configs[7].patterns[i] !in data
    requires Convert(data, ps).Some?
    ensures "watched_at" !in Convert(data, ps).value
  {
    ConfigNamesDistinct();
    var c := Convert(data, ps).value;
    assert Configs[7].name == "watched_at";
    assert DetectField(data, Configs[7], ps).None?;
  }
}

=== FILE: filtering.dfy ===
/** The candidate filter of backend/services/filtering_service.py: a
    watched-id exclusion followed by four optional constraints. */
module Filtering {
  import opened Results
  import opened Seqs
  import opened Entities

  /** The filter dictionary. An absent key and an empty list are both falsy
      in Python, so both are modelled by the empty sequence. */
  datatype Filters = Filters(
    genres: seq<string>,
    years: seq<int>,
    durations: seq<int>,
    countries: seq<string>,
    watchedIds: seq<string>)

  /** `{}`: no key present. */
  const NoFilters := Filters([], [], [], [], [])

  /** `_matches`: the five tests in source order. A movie without an id is
      never in the watched set. */
  predicate Matches(m: Movie, f: Filters)
  {
    if m.id.Some? && m.id.value in f.watchedIds then false
    else if |f.genres| > 0 && !Intersects(f.genres, m.genres) then false
    else if |f.years| > 0 && m.year !in f.years then false
    else if |f.durations| > 0 && m.duration > IntMax(f.durations) then false
    else if |f.countries| > 0 && !Intersects(f.countries, m.countries) then false
    else true
  }

  /** `DefaultFilteringService.filter` */
  function FilterMovies(movies: seq<Movie>, f: Filters): (r: seq<Movie>)
    ensures IsSubsequence(r, movies)
    ensures forall m :: m in r <==> m in movies && Matches(m, f)
    ensures forall m :: multiset(r)[m] == if Matches(m, f) then multiset(movies)[m] else 0
    ensures forall m :: m in r ==> m.id.None? || m.id.value !in f.watchedIds
    ensures forall m :: m in r && |f.genres| > 0 ==> exists g :: g in f.genres && g in m.genres
    ensures forall m :: m in r && |f.years| > 0 ==> m.year in f.years
    ensures forall m :: m in r && |f.durations| > 0 ==> exists d :: d in f.durations && m.duration <= d
    ensures forall m :: m in r && |f.countries| > 0 ==> exists c :: c in f.countries && c in m.countries
  {
    FilterCounts(movies, (m: Movie) => Matches(m, f));
    Filter(movies, (m: Movie) => Matches(m, f))
  }

  /** `_matches` against an independent reading of the five tests: the id is
      not watched, and each non-empty list is met (a shared genre, a listed
      year, a duration no longer than some listed duration, a shared
      country). */
  lemma MatchesExactly(m: Movie, f: Filters)
    ensures Matches(m, f) <==>
      && (m.id.None? || m.id.value !in f.watchedIds)
      && (|f.genres| == 0 || exists g :: g in f.genres && g in m.genres)
      && (|f.years| == 0 || m.year in f.years)
      && (|f.durations| == 0 || exists d :: d in f.durations && m.duration <= d)
      && (|f.countries| == 0 || exists c :: c in f.countries && c in m.countries)
  {
  }

  /** Filtering the filtered list again changes nothing. */
  lemma FilterMoviesIdempotent(movies: seq<Movie>, f: Filters)
    ensures FilterMovies(FilterMovies(movies, f), f) == FilterMovies(movies, f)
  {
    FilterIdempotent(movies, (m: Movie) => Matches(m, f));
  }

  /** An empty filter dictionary returns the candidates unchanged. */
  lemma NoFiltersIdentity(movies: seq<Movie>)
    ensures FilterMovies(movies, NoFilters) == movies
  {
    FilterKeepsAll(movies, (m: Movie) => Matches(m, NoFilters));
  }
}

=== FILE: ranking.dfy ===
/** Python's stable `sorted(..., key=k, reverse=True)`: order by key,
    largest first, equal keys kept in input order. Each element is tagged
    with its input position, which makes the intended order a strict total
    order; any correct sort then produces the same sequence. */
module Ranking {

  datatype Ranked<T> = Ranked(key: real, pos: nat, item: T)

  /** `a` comes before `b` in a stable descending sort. */
  predicate Before<T>(a: Ranked<T>, b: Ranked<T>)
  {
    a.key > b.key || (a.key == b.key && a.pos < b.pos)
  }

  predicate SortedDesc<T>(s: seq<Ranked<T>>)
  {
    forall i, j :: 0 <= i < j < |s| ==> Before(s[i], s[j])
  }

  predicate DistinctPositions<T>(s: seq<Ranked<T>>)
  {
    forall i, j :: 0 <= i < j < |s| ==> s[i].pos != s[j].pos
  }

  /** Pair every element with its key and its input position. */
  function Tag<T>(s: seq<T>, key: T -> real): (r: seq<Ranked<T>>)
    ensures |r| == |s| && DistinctPositions(r)
    ensures forall i :: 0 <= i < |s| ==> r[i] == Ranked(key(s[i]), i, s[i])
  {
    seq(|s|, i requires 0 <= i < |s| => Ranked(key(s[i]), i, s[i]))
  }

  function Items<T>(s: seq<Ranked<T>>): (r: seq<T>)
    ensures |r| == |s| && forall i :: 0 <= i < |s| ==> r[i] == s[i].item
  {
    seq(|s|, i requires 0 <= i < |s| => s[i].item)
  }

  function PosSeq<T>(s: seq<Ranked<T>>): (r: seq<nat>)
    ensures |r| == |s| && forall i :: 0 <= i < |s| ==> r[i] == s[i].pos
  {
    seq(|s|, i requires 0 <= i < |s| => s[i].pos)
  }

  /** Insert `x` into a sorted sequence at its place. */
  function Insert<T(==,!new)>(x: Ranked<T>, s: seq<Ranked<T>>): (r: seq<Ranked<T>>)
    ensures |r| == |s| + 1
    ensures forall y :: y in r <==> y == x || y in s
  {
    if |s| == 0 then [x]
    else if Before(x, s[0]) then [x] + s
    else [s[0]] + Insert(x, s[1..])
  }

  /** Inserting an element whose position is new keeps the order sorted. */
  lemma {:induction false} InsertSorted<T(!new)>(x: Ranked<T>, s: seq<Ranked<T>>)
    ensures SortedDesc(s) && (forall y :: y in s ==> y.pos != x.pos) ==> SortedDesc(Insert(x, s))
  {
    if |s| > 0 && !Before(x, s[0]) && SortedDesc(s) && (forall y :: y in s ==> y.pos != x.pos) {
      var rest := Insert(x, s[1..]);
      assert forall y :: y in s <==> y == s[0] || y in s[1..];
      InsertSorted(x, s[1..]);
      assert forall y :: y in s[1..] ==> Before(s[0], y);
      assert Before(s[0], x);
      assert forall j :: 0 <= j < |rest| ==> Before(s[0], rest[j]);
    }
  }

  /** Insertion sort over tagged elements. */
  function Sort<T(==,!new)>(t: seq<Ranked<T>>): (r: seq<Ranked<T>>)
    ensures |r| == |t|
    ensures forall y :: y in r <==> y in t
    ensures DistinctPositions(t) ==> SortedDesc(r)
  {
    if |t| == 0 then []
    else
      var rest := Sort(t[1..]);
      assert forall y :: y in t <==> y == t[0] || y in t[1..];
      assert DistinctPositions(t) ==> forall y :: y in rest ==> y.pos != t[0].pos;
      InsertSorted(t[0], rest);
      Insert(t[0], rest)
  }

  /** `sorted(s, key=key, reverse=True)`, with each element's key and input
      position kept: the result is a rearrangement of the input (every input
      position occurs exactly once, carrying its element), ordered by
      non-increasing key, and equal keys appear in input order. */
  function StableSortDesc<T(==,!new)>(s: seq<T>, key: T -> real): (r: seq<Ranked<T>>)
    ensures |r| == |s|
    ensures forall i :: 0 <= i < |r| ==> r[i].pos < |s| && r[i].item == s[r[i].pos] && r[i].key == key(r[i].item)
    ensures forall p :: 0 <= p < |s| ==> p in PosSeq(r)
    ensures DistinctPositions(r)
    ensures forall i, j :: 0 <= i < j < |r| ==> r[i].key >= r[j].key
    ensures forall i, j :: 0 <= i < j < |r| && r[i].key == r[j].key ==> r[i].pos < r[j].pos
  {
    var t := Tag(s, key);
    var r := Sort(t);
    assert forall i :: 0 <= i < |r| ==> r[i] in t;
    forall p | 0 <= p < |s| ensures p in PosSeq(r) {
      assert t[p] in r;
      var i :| 0 <= i < |r| && r[i] == t[p];
      assert PosSeq(r)[i] == p;
    }
    r
  }
}

=== FILE: recommendation.dfy ===
/** Scoring and top-N selection of backend/services/recommendation_service.py.
    The similarity measure (`utils.similarity.cosine_similarity`) is not part
    of this model and is a parameter. */
module Recommendation {
  import opened Results
  import opened Seqs
  import opened Ranking
  import opened Entities

  type Similarity = (Vector, Vector) -> real

  /** At most this many movies are recommended. */
  const TopN := 10

  datatype RecommendError =
    /** `max()` of an empty sequence: the profile has no clusters. */
    NoClusters

  /** `max(sim(v, c.centroid.vector) for c in clusters)` */
  function MaxSim(v: Vector, clusters: seq<Cluster>, sim: Similarity): (m: real)
    requires |clusters| > 0
    ensures forall i :: 0 <= i < |clusters| ==> sim(v, clusters[i].centroid.vector) <= m
    ensures exists i :: 0 <= i < |clusters| && m == sim(v, clusters[i].centroid.vector)
  {
    var first := sim(v, clusters[0].centroid.vector);
    if |clusters| == 1 then first
    else
      var rest := MaxSim(v, clusters[1..], sim);
      assert forall i :: 1 <= i < |clusters| ==> clusters[1..][i - 1] == clusters[i];
      if first >= rest then first else rest
  }

  /** `if not movie.embedding: continue` — an `Embedding` object is always
      truthy, so exactly the movies with no embedding are skipped. */
  function Embedded(candidates: seq<Movie>): (r: seq<Movie>)
    ensures IsSubsequence(r, candidates)
    ensures forall m :: m in r <==> m in candidates && m.embedding.Some?
    ensures forall m :: multiset(r)[m] == if m.embedding.Some? then multiset(candidates)[m] else 0
  {
    FilterCounts(candidates, (m: Movie) => m.embedding.Some?);
    Filter(candidates, (m: Movie) => m.embedding.Some?)
  }

  /** The score of a candidate: its best similarity to any cluster centroid.
      Only ever used for embedded movies and a non-empty cluster list. */
  function Score(m: Movie, clusters: seq<Cluster>, sim: Similarity): real
  {
    if m.embedding.Some? && |clusters| > 0 then MaxSim(m.embedding.value.vector, clusters, sim) else 0.0
  }

  /** The scored list after `scored.sort(reverse=True, key=...)`: each entry
      keeps its position in the embedded list. */
  function Scored(clusters: seq<Cluster>, candidates: seq<Movie>, sim: Similarity): seq<Ranked<Movie>>
  {
    StableSortDesc(Embedded(candidates), (m: Movie) => Score(m, clusters, sim))
  }

  function Take<T>(s: seq<T>, n: nat): (r: seq<T>)
    ensures |r| == if |s| < n then |s| else n
    ensures r == s[..|r|]
  {
    if |s| < n then s else s[..n]
  }

  /** `DefaultRecommendationService.recommend` */
  function Recommend(profile: UserProfile, candidates: seq<Movie>, sim: Similarity): (r: Result<seq<Movie>, RecommendError>)
    ensures r.Err? <==> |profile.clusters| == 0 && exists m :: m in candidates && m.embedding.Some?
    ensures r.Ok? ==> |r.value| <= TopN
    ensures r.Ok? ==> forall m :: m in r.value ==> m in candidates && m.embedding.Some?
    ensures r.Ok? ==> |r.value| == if |Embedded(candidates)| < TopN then |Embedded(candidates)| else TopN
  {
    var embedded := Embedded(candidates);
    AnyEmbedded(candidates);
    if |profile.clusters| == 0 && |embedded| > 0 then
      Err(NoClusters)
    else
      var ranked := Take(Scored(profile.clusters, candidates, sim), TopN);
      TopAreEmbedded(profile.clusters, candidates, sim);
      Ok(Items(ranked))
  }

  lemma AnyEmbedded(candidates: seq<Movie>)
    ensures |Embedded(candidates)| > 0 <==> exists m :: m in candidates && m.embedding.Some?
  {
    var e := Embedded(candidates);
    if |e| > 0 {
      assert e[0] in e;
    }
  }

  lemma TopAreEmbedded(clusters: seq<Cluster>, candidates: seq<Movie>, sim: Similarity)
    ensures var top := Take(Scored(clusters, candidates, sim), TopN);
      forall i :: 0 <= i < |top| ==> top[i].item in candidates && top[i].item.embedding.Some?
  {
    var e := Embedded(candidates);
    var all := Scored(clusters, candidates, sim);
    var top := Take(all, TopN);
    forall i | 0 <= i < |top|
      ensures top[i].item in candidates && top[i].item.embedding.Some?
    {
      assert top[i] == all[i];
      assert all[i].item == e[all[i].pos];
      assert e[all[i].pos] in e;
    }
  }

  /** Positions, in the embedded list, of the returned movies. */
  function TopPositions(profile: UserProfile, candidates: seq<Movie>, sim: Similarity): seq<nat>
  {
    PosSeq(Take(Scored(profile.clusters, candidates, sim), TopN))
  }

  /** The returned movies come in non-increasing score order; each is the
      embedded candidate at its position, no position is returned twice, and
      movies with equal scores keep their input order. */
  lemma RecommendOrdered(profile: UserProfile, candidates: seq<Movie>, sim: Similarity)
    requires Recommend(profile, candidates, sim).Ok?
    ensures var r := Recommend(profile, candidates, sim).value;
      var e := Embedded(candidates);
      var pos := TopPositions(profile, candidates, sim);
      && |pos| == |r|
      && (forall i :: 0 <= i < |r| ==> pos[i] < |e| && r[i] == e[pos[i]])
      && (forall i, j :: 0 <= i < j < |r| ==> pos[i] != pos[j])
      && (forall i, j :: 0 <= i < j < |r| ==> Score(r[i], profile.clusters, sim) >= Score(r[j], profile.clusters, sim))
      && (forall i, j :: 0 <= i < j < |r| && Score(r[i], profile.clusters, sim) == Score(r[j], profile.clusters, sim) ==> pos[i] < pos[j])
  {
    var top := Take(Scored(profile.clusters, candidates, sim), TopN);
    assert Recommend(profile, candidates, sim).value == Items(top);
    assert TopPositions(profile, candidates, sim) == PosSeq(top);
    TopMatchesEmbedded(profile.clusters, candidates, sim);
    TopSorted(profile.clusters, candidates, sim);
  }

  lemma TopMatchesEmbedded(clusters: seq<Cluster>, candidates: seq<Movie>, sim: Similarity)
    ensures var e := Embedded(candidates);
      var top := Take(Scored(clusters, candidates, sim), TopN);
      forall i :: 0 <= i < |top| ==>
        top[i].pos < |e| && top[i].item == e[top[i].pos] && top[i].key == Score(top[i].item, clusters, sim)
  {
    var all := Scored(clusters, candidates, sim);
    var top := Take(all, TopN);
    assert forall i :: 0 <= i < |top| ==> top[i] == all[i];
  }

  lemma TopSorted(clusters: seq<Cluster>, candidates: seq<Movie>, sim: Similarity)
    ensures var top := Take(Scored(clusters, candidates, sim), TopN);
      forall i, j :: 0 <= i < j < |top| ==>
        && top[i].pos != top[j].pos
        && top[i].key >= top[j].key
        && (top[i].key == top[j].key ==> top[i].pos < top[j].pos)
  {
    var all := Scored(clusters, candidates, sim);
    var top := Take(all, TopN);
    forall i, j | 0 <= i < j < |top|
      ensures top[i].pos != top[j].pos && top[i].key >= top[j].key
      ensures top[i].key == top[j].key ==> top[i].pos < top[j].pos
    {
      assert top[i] == all[i] && top[j] == all[j];
    }
  }

  lemma TopPositionsTaken(clusters: seq<Cluster>, candidates: seq<Movie>, sim: Similarity)
    ensures var all := Scored(clusters, candidates, sim);
      var top := Take(all, TopN);
      forall j :: 0 <= j < |top| ==> all[j].pos in PosSeq(top)
  {
    var all := Scored(clusters, candidates, sim);
    var top := Take(all, TopN);
    forall j | 0 <= j < |top|
      ensures all[j].pos in PosSeq(top)
    {
      assert PosSeq(top)[j] == top[j].pos;
      assert top[j] == all[j];
    }
  }

  /** Top-N: an embedded candidate that is not returned scores no higher than
      any returned movie, and when it ties with a returned movie it comes
      later in the input (the sort is stable, so ties at the cut-off are
      decided in favour of the earlier candidates). */
  lemma RecommendTopN(profile: UserProfile, candidates: seq<Movie>, sim: Similarity, p: nat)
    requires Recommend(profile, candidates, sim).Ok?
    requires p < |Embedded(candidates)| && p !in TopPositions(profile, candidates, sim)
    ensures var r := Recommend(profile, candidates, sim).value;
      forall i :: 0 <= i < |r| ==>
        Score(Embedded(candidates)[p], profile.clusters, sim) <= Score(r[i], profile.clusters, sim)
    ensures var r := Recommend(profile, candidates, sim).value;
      forall i :: 0 <= i < |r| && Score(Embedded(candidates)[p], profile.clusters, sim) == Score(r[i], profile.clusters, sim) ==>
        TopPositions(profile, candidates, sim)[i] < p
  {
    var top := Take(Scored(profile.clusters, candidates, sim), TopN);
    assert Recommend(profile, candidates, sim).value == Items(top);
    assert TopPositions(profile, candidates, sim) == PosSeq(top);
    ScoredCutOff(profile.clusters, candidates, sim, p);
  }

  /** The cut-off of the sorted list: an embedded position left out of the
      first `TopN` entries scores no higher than any of them, and on a tie
      comes after it. */
  lemma ScoredCutOff(clusters: seq<Cluster>, candidates: seq<Movie>, sim: Similarity, p: nat)
    requires p < |Embedded(candidates)| && p !in PosSeq(Take(Scored(clusters, candidates, sim), TopN))
    ensures var top := Take(Scored(clusters, candidates, sim), TopN);
      var k := Score(Embedded(candidates)[p], clusters, sim);
      forall i :: 0 <= i < |top| ==>
        k <= Score(top[i].item, clusters, sim) && (k == Score(top[i].item, clusters, sim) ==> top[i].pos < p)
  {
    var e := Embedded(candidates);
    var all := Scored(clusters, candidates, sim);
    var top := Take(all, TopN);
    assert p in PosSeq(all);
    var j :| 0 <= j < |all| && PosSeq(all)[j] == p;
    assert all[j].item == e[p] && all[j].key == Score(e[p], clusters, sim);
    TopPositionsTaken(clusters, candidates, sim);
    assert |top| <= j;
    TopBeatsRest(clusters, candidates, sim, j);
    TopMatchesEmbedded(clusters, candidates, sim);
  }

  lemma TopBeatsRest(clusters: seq<Cluster>, candidates: seq<Movie>, sim: Similarity, j: nat)
    requires |Take(Scored(clusters, candidates, sim), TopN)| <= j < |Scored(clusters, candidates, sim)|
    ensures var all := Scored(clusters, candidates, sim);
      var top := Take(all, TopN);
      forall i :: 0 <= i < |top| ==> top[i].key >= all[j].key && (top[i].key == all[j].key ==> top[i].pos < all[j].pos)
  {
    var all := Scored(clusters, candidates, sim);
    var top := Take(all, TopN);
    forall i | 0 <= i < |top|
      ensures top[i].key >= all[j].key && (top[i].key == all[j].key ==> top[i].pos < all[j].pos)
    {
      assert top[i] == all[i];
    }
  }

  /** Each returned movie's score is its best similarity to a cluster centroid. */
  lemma ScoreIsBestSimilarity(profile: UserProfile, candidates: seq<Movie>, sim: Similarity)
    requires Recommend(profile, candidates, sim).Ok?
    ensures var r := Recommend(profile, candidates, sim).value;
      forall i :: 0 <= i < |r| ==>
        && (forall c :: 0 <= c < |profile.clusters| ==>
              sim(r[i].embedding.value.vector, profile.clusters[c].centroid.vector) <= Score(r[i], profile.clusters, sim))
        && (exists c :: 0 <= c < |profile.clusters| &&
              Score(r[i], profile.clusters, sim) == sim(r[i].embedding.value.vector, profile.clusters[c].centroid.vector))
  {
    var r := Recommend(profile, candidates, sim).value;
    var top := Take(Scored(profile.clusters, candidates, sim), TopN);
    assert r == Items(top);
    TopAreEmbedded(profile.clusters, candidates, sim);
    forall i | 0 <= i < |r|
      ensures && (forall c :: 0 <= c < |profile.clusters| ==>
                    sim(r[i].embedding.value.vector, profile.clusters[c].centroid.vector) <= Score(r[i], profile.clusters, sim))
              && (exists c :: 0 <= c < |profile.clusters| &&
                    Score(r[i], profile.clusters, sim) == sim(r[i].embedding.value.vector, profile.clusters[c].centroid.vector))
    {
      assert r[i] == top[i].item;
      assert |profile.clusters| > 0;
      var m := MaxSim(r[i].embedding.value.vector, profile.clusters, sim);
    }
  }

  /** No candidates, no recommendations, whatever the profile. */
  lemma NoCandidatesNoRecommendations(profile: UserProfile, sim: Similarity)
    ensures Recommend(profile, [], sim) == Ok([])
  {
  }
}

=== FILE: results.dfy ===
/** Failure-carrying datatypes shared by every module of the model.
    `Option` stands for Python's `Optional[...]` (a value or `None`);
    `Result` stands for a call that either returns or raises. */
module Results {

  datatype Option<+T> = None | Some(value: T) {
    predicate IsFailure() { None? }

    function PropagateFailure<U>(): Option<U>
      requires None?
    {
      None
    }

    function Extract(): T
      requires Some?
    {
      value
    }

    /** Python's `x or default` for an optional value. */
    function GetOr(default: T): T {
      match this
      case Some(v) => v
      case None => default
    }
  }

  datatype Result<+R, +E> = Ok(value: R) | Err(error: E) {
    predicate IsFailure() { Err? }

    function PropagateFailure<U>(): Result<U, E>
      requires Err?
    {
      Err(error)
    }

    function Extract(): R
      requires Ok?
    {
      value
    }
  }
}

=== FILE: seqs.dfy ===
/** Generic sequence vocabulary: list comprehensions with a condition,
    sums, counts, Python's `range` and fixed-size batching by slicing. */
module Seqs {

  /** `[x for x in s if p(x)]` */
  function Filter<T(!new)>(s: seq<T>, p: T -> bool): (r: seq<T>)
    ensures |r| <= |s|
    ensures forall x :: x in r <==> x in s && p(x)
    ensures IsSubsequence(r, s)
  {
    if |s| == 0 then []
    else
      var rest := Filter(s[1..], p);
      if p(s[0]) then [s[0]] + rest else rest
  }

  /** Each element satisfying `p` is kept as often as it occurs; the others
      are dropped. */
  lemma {:induction false} FilterCounts<T(!new)>(s: seq<T>, p: T -> bool)
    ensures forall x :: multiset(Filter(s, p))[x] == if p(x) then multiset(s)[x] else 0
  {
    if |s| > 0 {
      FilterCounts(s[1..], p);
      assert s == [s[0]] + s[1..];
    }
  }

  /** `a` can be obtained from `b` by deleting elements: order is kept. */
  predicate IsSubsequence<T(==)>(a: seq<T>, b: seq<T>)
    decreases |b|
  {
    if |a| == 0 then true
    else if |b| == 0 then false
    else if a[0] == b[0] then IsSubsequence(a[1..], b[1..])
    else IsSubsequence(a, b[1..])
  }

  /** `kept` lists the elements of `s` that satisfy `p`, in their order in
      `s` and each as often as it occurs there, and nothing else. */
  ghost predicate Selects<T(!new)>(kept: seq<T>, s: seq<T>, p: T -> bool)
  {
    && IsSubsequence(kept, s)
    && forall x :: multiset(kept)[x] == if p(x) then multiset(s)[x] else 0
  }

  lemma FilterSelects<T(!new)>(s: seq<T>, p: T -> bool)
    ensures Selects(Filter(s, p), s, p)
  {
    FilterCounts(s, p);
  }

  /** A subsequence takes no element more often than the sequence has it. */
  lemma {:induction false} SubsequenceMultiset<T>(a: seq<T>, b: seq<T>)
    requires IsSubsequence(a, b)
    ensures multiset(a) <= multiset(b)
    decreases |b|
  {
    if |a| > 0 {
      assert b == [b[0]] + b[1..];
      if a[0] == b[0] {
        assert a == [a[0]] + a[1..];
        SubsequenceMultiset(a[1..], b[1..]);
      } else {
        SubsequenceMultiset(a, b[1..]);
      }
    }
  }

  /** Order and multiplicity pin the selection down: `Filter` is the only
      sequence that selects the elements satisfying `p`. */
  lemma {:induction false} SelectsUnique<T(!new)>(kept: seq<T>, s: seq<T>, p: T -> bool)
    requires Selects(kept, s, p)
    ensures kept == Filter(s, p)
    decreases |s|
  {
    if |s| > 0 {
      var x := s[0];
      assert s == [x] + s[1..];
      if |kept| > 0 && kept[0] == x {
        assert kept == [x] + kept[1..];
        assert multiset(kept)[x] > 0;
        assert p(x);
        SelectsUnique(kept[1..], s[1..], p);
      } else {
        assert IsSubsequence(kept, s[1..]);
        SubsequenceMultiset(kept, s[1..]);
        assert multiset(kept)[x] <= multiset(s[1..])[x] < multiset(s)[x];
        assert !p(x);
        SelectsUnique(kept, s[1..], p);
      }
    }
  }

  /** Filtering a second time with the same condition changes nothing. */
  lemma {:induction false} FilterIdempotent<T(!new)>(s: seq<T>, p: T -> bool)
    ensures Filter(Filter(s, p), p) == Filter(s, p)
  {
    if |s| > 0 {
      FilterIdempotent(s[1..], p);
      var rest := Filter(s[1..], p);
      if p(s[0]) {
        assert ([s[0]] + rest)[1..] == rest;
      }
    }
  }

  /** When every element passes, the filter is the identity. */
  lemma {:induction false} FilterKeepsAll<T(!new)>(s: seq<T>, p: T -> bool)
    requires forall i :: 0 <= i < |s| ==> p(s[i])
    ensures Filter(s, p) == s
  {
    if |s| > 0 {
      FilterKeepsAll(s[1..], p);
      assert [s[0]] + s[1..] == s;
    }
  }

  function Sum(xs: seq<real>): real
  {
    if |xs| == 0 then 0.0 else xs[0] + Sum(xs[1..])
  }

  lemma {:induction false} SumAppend(a: seq<real>, b: seq<real>)
    ensures Sum(a + b) == Sum(a) + Sum(b)
  {
    if |a| > 0 {
      assert (a + b)[1..] == a[1..] + b;
      SumAppend(a[1..], b);
    } else {
      assert a + b == b;
    }
  }

  function IntSum(xs: seq<int>): int
  {
    if |xs| == 0 then 0 else xs[0] + IntSum(xs[1..])
  }

  /** Number of occurrences of `x` in `s`. */
  function Count<T(==)>(s: seq<T>, x: T): nat
  {
    if |s| == 0 then 0 else (if s[0] == x then 1 else 0) + Count(s[1..], x)
  }

  lemma {:induction false} CountAppend<T>(a: seq<T>, b: seq<T>, x: T)
    ensures Count(a + b, x) == Count(a, x) + Count(b, x)
  {
    if |a| > 0 {
      assert (a + b)[1..] == a[1..] + b;
      CountAppend(a[1..], b, x);
    } else {
      assert a + b == b;
    }
  }

  /** Python's `range(lo, hi)` with step 1. */
  function Range(lo: int, hi: int): (r: seq<int>)
    ensures |r| == if lo <= hi then hi - lo else 0
    ensures forall i :: 0 <= i < |r| ==> r[i] == lo + i
    decreases hi - lo
  {
    if lo >= hi then [] else [lo] + Range(lo + 1, hi)
  }

  /** `[s[i] for i in idx]`, numpy fancy indexing with an index vector. */
  function Select<T>(s: seq<T>, idx: seq<nat>): (r: seq<T>)
    requires forall j :: 0 <= j < |idx| ==> idx[j] < |s|
    ensures |r| == |idx|
    ensures forall j :: 0 <= j < |idx| ==> r[j] == s[idx[j]]
  {
    seq(|idx|, j requires 0 <= j < |idx| => s[idx[j]])
  }

  /** Concatenation of a list of lists. */
  function Flatten<T>(ss: seq<seq<T>>): seq<T>
  {
    if |ss| == 0 then [] else ss[0] + Flatten(ss[1..])
  }

  lemma FlattenCons<T>(x: seq<T>, rest: seq<seq<T>>)
    ensures Flatten([x] + rest) == x + Flatten(rest)
  {
    assert ([x] + rest)[1..] == rest;
  }

  lemma {:induction false} FlattenAppend<T>(a: seq<seq<T>>, b: seq<seq<T>>)
    ensures Flatten(a + b) == Flatten(a) + Flatten(b)
  {
    if |a| > 0 {
      assert (a + b)[1..] == a[1..] + b;
      FlattenAppend(a[1..], b);
    } else {
      assert a + b == b;
    }
  }

  /** `[s[b:b + size] for b in range(0, len(s), size)]` for a positive `size`:
      the batches are non-empty, hold at most `size` elements, all but the
      last hold exactly `size`, and together they are `s` again. */
  function Chunks<T>(s: seq<T>, size: nat): (r: seq<seq<T>>)
    requires size > 0
    ensures Flatten(r) == s
    ensures forall i :: 0 <= i < |r| ==> 0 < |r[i]| <= size
    ensures forall i :: 0 <= i < |r| - 1 ==> |r[i]| == size
    ensures |r| * size >= |s| && (|r| == 0 || (|r| - 1) * size < |s|)
    decreases |s|
  {
    if |s| == 0 then []
    else if |s| <= size then [s]
    else
      var rest := Chunks(s[size..], size);
      assert s[..size] + s[size..] == s;
      [s[..size]] + rest
  }

  /** Position of the first occurrence of `x`, Python's `list.index`. */
  function IndexOf<T(==)>(s: seq<T>, x: T): (r: nat)
    requires x in s
    ensures r < |s| && s[r] == x
    ensures forall j :: 0 <= j < r ==> s[j] != x
  {
    if s[0] == x then 0 else 1 + IndexOf(s[1..], x)
  }

  /** No element occurs twice. */
  predicate NoDuplicates<T(==)>(s: seq<T>)
  {
    forall i, j :: 0 <= i < j < |s| ==> s[i] != s[j]
  }

  /** Filtering never introduces duplicates. */
  lemma {:induction false} FilterNoDuplicates<T(!new)>(s: seq<T>, p: T -> bool)
    requires NoDuplicates(s)
    ensures NoDuplicates(Filter(s, p))
  {
    if |s| > 0 {
      FilterNoDuplicates(s[1..], p);
      assert s[0] !in s[1..] by {
        forall i | 0 <= i < |s| - 1 ensures s[1..][i] != s[0] {
          assert s[1..][i] == s[i + 1];
        }
      }
    }
  }

  /** The set of elements of a sequence. */
  function SetOf<T>(s: seq<T>): set<T>
  {
    set x | x in s
  }

  /** Python's `max` over a non-empty list of integers. */
  function IntMax(xs: seq<int>): (m: int)
    requires |xs| > 0
    ensures forall i :: 0 <= i < |xs| ==> xs[i] <= m
    ensures m in xs
  {
    if |xs| == 1 then xs[0]
    else
      var rest := IntMax(xs[1..]);
      if xs[0] >= rest then xs[0] else rest
  }

  /** `set(a).intersection(set(b))` is non-empty. */
  predicate Intersects<T(==)>(a: seq<T>, b: seq<T>)
  {
    exists x :: x in a && x in b
  }

  /** `[f(x) for x in xs]` */
  function MapSeq<A, B>(xs: seq<A>, f: A -> B): (r: seq<B>)
    ensures |r| == |xs| && forall i :: 0 <= i < |xs| ==> r[i] == f(xs[i])
  {
    seq(|xs|, i requires 0 <= i < |xs| => f(xs[i]))
  }

  /** The elements of a mapped sequence are the images of the elements. */
  lemma MapSeqMembers<A, B>(xs: seq<A>, f: A -> B)
    ensures forall y :: y in MapSeq(xs, f) <==> exists x :: x in xs && y == f(x)
  {
    var r := MapSeq(xs, f);
    forall y | y in r ensures exists x :: x in xs && y == f(x) {
      var i :| 0 <= i < |r| && r[i] == y;
      assert xs[i] in xs;
    }
    forall x | x in xs ensures f(x) in r {
      var i :| 0 <= i < |xs| && xs[i] == x;
      assert r[i] == f(x);
    }
  }

  lemma MapSeqAppend<A, B>(a: seq<A>, b: seq<A>, f: A -> B)
    ensures MapSeq(a + b, f) == MapSeq(a, f) + MapSeq(b, f)
  {
  }

  /** Mapping inside the batches and concatenating is mapping the
      concatenation. */
  lemma {:induction false} FlattenMap<A, B>(ss: seq<seq<A>>, f: A -> B)
    ensures Flatten(MapSeq(ss, (c: seq<A>) => MapSeq(c, f))) == MapSeq(Flatten(ss), f)
  {
    if |ss| > 0 {
      var g := (c: seq<A>) => MapSeq(c, f);
      FlattenMap(ss[1..], f);
      assert MapSeq(ss, g)[1..] == MapSeq(ss[1..], g);
      MapSeqAppend(ss[0], Flatten(ss[1..]), f);
    }
  }

  /** An element of one batch is an element of the concatenation. */
  lemma {:induction false} InFlatten<T>(ss: seq<seq<T>>, j: nat, x: T)
    requires j < |ss| && x in ss[j]
    ensures x in Flatten(ss)
  {
    if j > 0 {
      InFlatten(ss[1..], j - 1, x);
    }
  }

  /** An element of the concatenation comes from one of the batches. */
  lemma {:induction false} FlattenIn<T>(ss: seq<seq<T>>, x: T) returns (j: nat)
    requires x in Flatten(ss)
    ensures j < |ss| && x in ss[j]
  {
    if x in ss[0] {
      j := 0;
    } else {
      var k := FlattenIn(ss[1..], x);
      j := k + 1;
    }
  }

  lemma NoDuplicatesSplit<T>(a: seq<T>, b: seq<T>)
    requires NoDuplicates(a + b)
    ensures NoDuplicates(a) && NoDuplicates(b)
  {
    forall i, j | 0 <= i < j < |b| ensures b[i] != b[j] {
      assert b[i] == (a + b)[|a| + i] && b[j] == (a + b)[|a| + j];
    }
    forall i, j | 0 <= i < j < |a| ensures a[i] != a[j] {
      assert a[i] == (a + b)[i] && a[j] == (a + b)[j];
    }
  }
}

=== FILE: strings.dfy ===
/** Python string operations the services rely on, over `seq<char>`:
    `strip`, `split`, `join`, `str(int)` and `int(str)`. Whitespace is the
    set of characters Python's `str.isspace` recognises. */
module Strings {
  import opened Results
  import opened Seqs

  /** The characters Python's `str.isspace` accepts; `str.strip()`, the
      regex class `\s` and `int()` use the same set. */
  predicate IsSpace(c: char)
  {
    || c == ' ' || ('\t' <= c <= '\r') || ('\U{1C}' <= c <= '\U{1F}')
    || c == '\U{85}' || c == '\U{A0}' || c == '\U{1680}'
    || ('\U{2000}' <= c <= '\U{200A}')
    || c == '\U{2028}' || c == '\U{2029}' || c == '\U{202F}' || c == '\U{205F}'
    || c == '\U{3000}'
  }

  predicate IsDigit(c: char)
  {
    '0' <= c <= '9'
  }

  predicate AllDigits(s: string)
  {
    forall i :: 0 <= i < |s| ==> IsDigit(s[i])
  }

  /** Where `s[..n].rstrip()` ends: step left past trailing whitespace. */
  function RightEnd(s: string, n: nat): (e: nat)
    requires n <= |s|
    ensures e <= n
    ensures forall i :: e <= i < n ==> IsSpace(s[i])
    ensures e > 0 ==> !IsSpace(s[e - 1])
    decreases n
  {
    if n == 0 || !IsSpace(s[n - 1]) then n else RightEnd(s, n - 1)
  }

  /** Where `s[k..].lstrip()` starts: step right past leading whitespace. */
  function LeftStart(s: string, k: nat): (b: nat)
    requires k <= |s|
    ensures k <= b <= |s|
    ensures forall i :: k <= i < b ==> IsSpace(s[i])
    ensures b < |s| ==> !IsSpace(s[b])
    decreases |s| - k
  {
    if k == |s| || !IsSpace(s[k]) then k else LeftStart(s, k + 1)
  }

  /** `s.rstrip()`: the longest prefix of `s` that does not end in whitespace. */
  function TrimRight(s: string): (r: string)
    ensures |r| <= |s| && r == s[..|r|]
    ensures forall i :: |r| <= i < |s| ==> IsSpace(s[i])
    ensures |r| > 0 ==> !IsSpace(r[|r| - 1])
  {
    s[..RightEnd(s, |s|)]
  }

  /** `s.lstrip()`: the longest suffix of `s` that does not start with whitespace. */
  function TrimLeft(s: string): (r: string)
    ensures |r| <= |s| && r == s[|s| - |r|..]
    ensures forall i :: 0 <= i < |s| - |r| ==> IsSpace(s[i])
    ensures |r| > 0 ==> !IsSpace(r[0])
  {
    s[LeftStart(s, 0)..]
  }

  /** `s.strip()` */
  function Strip(s: string): string
  {
    TrimLeft(TrimRight(s))
  }

  lemma NestedSlice(s: string, t: string, r: string)
    requires |t| <= |s| && t == s[..|t|]
    requires |r| <= |t| && r == t[|t| - |r|..]
    ensures r == s[|t| - |r|..|t|]
  {
  }

  /** Stripped text has whitespace at neither end, and is a slice of the input
      surrounded by whitespace only. */
  lemma StripShape(s: string) returns (lo: nat)
    ensures var r := Strip(s);
      && (|r| > 0 ==> !IsSpace(r[0]) && !IsSpace(r[|r| - 1]))
      && lo <= |s| - |r| && r == s[lo..lo + |r|]
      && (forall i :: 0 <= i < lo ==> IsSpace(s[i]))
      && (forall i :: lo + |r| <= i < |s| ==> IsSpace(s[i]))
  {
    var t := TrimRight(s);
    var r := TrimLeft(t);
    lo := |t| - |r|;
    NestedSlice(s, t, r);
    forall i | 0 <= i < lo ensures IsSpace(s[i]) {
      assert s[i] == t[i];
    }
    if |r| > 0 {
      assert r[|r| - 1] == t[|t| - 1];
    }
  }

  predicate AllSpace(w: string)
  {
    forall i :: 0 <= i < |w| ==> IsSpace(w[i])
  }

  /** `t` sits at position `a` of `s` with only whitespace around it, and has
      whitespace at neither end: what `s.strip()` is meant to return. */
  predicate StripsTo(s: string, a: nat, t: string)
  {
    && a + |t| <= |s| && s[a..a + |t|] == t
    && (forall i :: 0 <= i < a ==> IsSpace(s[i]))
    && (forall i :: a + |t| <= i < |s| ==> IsSpace(s[i]))
    && (|t| > 0 ==> !IsSpace(t[0]) && !IsSpace(t[|t| - 1]))
  }

  /** `Strip` meets that description ... */
  lemma StripStripsTo(s: string)
    ensures exists a :: StripsTo(s, a, Strip(s))
  {
    var lo := StripShape(s);
    assert StripsTo(s, lo, Strip(s));
  }

  /** ... and nothing else does. */
  lemma StripsToUnique(s: string, a: nat, t: string)
    requires StripsTo(s, a, t)
    ensures t == Strip(s)
  {
    var lo := StripShape(s);
    var r := Strip(s);
    if |t| > 0 && |r| > 0 {
      assert s[a] == t[0] && s[a + |t| - 1] == t[|t| - 1];
      assert s[lo] == r[0] && s[lo + |r| - 1] == r[|r| - 1];
      assert lo == a;
      assert lo + |r| == a + |t|;
    }
  }

  /** Stripping leaves nothing exactly when the text is all whitespace. */
  lemma StripEmpty(s: string)
    ensures |Strip(s)| == 0 <==> AllSpace(s)
  {
    var lo := StripShape(s);
    var r := Strip(s);
    if |r| > 0 {
      assert s[lo] == r[0];
    }
  }

  /** Stripped text starts and ends with a non-whitespace character. */
  lemma StripEnds(s: string)
    ensures var r := Strip(s); |r| > 0 ==> !IsSpace(r[0]) && !IsSpace(r[|r| - 1])
  {
    var _ := StripShape(s);
  }

  /** Stripping only removes characters. */
  lemma StripKeepsOut(s: string, c: char)
    requires c !in s
    ensures c !in Strip(s)
  {
    var lo := StripShape(s);
    var r := Strip(s);
    forall i | 0 <= i < |r| ensures r[i] != c {
      assert r[i] == s[lo + i];
    }
  }

  /** Text that already has no surrounding whitespace is left alone. */
  lemma StripNoop(s: string)
    requires |s| > 0 ==> !IsSpace(s[0]) && !IsSpace(s[|s| - 1])
    ensures Strip(s) == s
  {
    assert RightEnd(s, |s|) == |s|;
    assert s[..|s|] == s;
    assert LeftStart(s, 0) == 0;
  }

  lemma StripIdempotent(s: string)
    ensures Strip(Strip(s)) == Strip(s)
  {
    var _ := StripShape(s);
    StripNoop(Strip(s));
  }

  /** Whitespace between `m` and `n` does not move the right end. */
  lemma {:induction false} RightEndSkips(s: string, m: nat, n: nat)
    requires m <= n <= |s|
    requires forall i :: m <= i < n ==> IsSpace(s[i])
    ensures RightEnd(s, n) == RightEnd(s, m)
    decreases n
  {
    if m < n {
      RightEndSkips(s, m, n - 1);
    }
  }

  /** The right end below `n` depends only on the first `n` characters. */
  lemma {:induction false} RightEndAgrees(s: string, t: string, n: nat)
    requires n <= |s| && n <= |t|
    requires forall i :: 0 <= i < n ==> s[i] == t[i]
    ensures RightEnd(s, n) == RightEnd(t, n)
    decreases n
  {
    if n > 0 {
      RightEndAgrees(s, t, n - 1);
    }
  }

  /** Whitespace appended to a string disappears under `strip`. */
  lemma StripAppendSpaces(p: string, w: string)
    requires forall i :: 0 <= i < |w| ==> IsSpace(w[i])
    ensures TrimRight(p + w) == TrimRight(p)
    ensures Strip(p + w) == Strip(p)
  {
    var s := p + w;
    RightEndSkips(s, |p|, |s|);
    RightEndAgrees(s, p, |p|);
    var e := RightEnd(p, |p|);
    assert s[..e] == p[..e];
  }

  /** `sep.join(parts)` */
  function Join(parts: seq<string>, sep: string): string
  {
    if |parts| == 0 then ""
    else if |parts| == 1 then parts[0]
    else parts[0] + sep + Join(parts[1..], sep)
  }

  /** Joining two non-empty lists is joining each and putting one separator
      between them. */
  lemma {:induction false} JoinAppend(a: seq<string>, b: seq<string>, sep: string)
    requires |a| >= 1 && |b| >= 1
    ensures Join(a + b, sep) == Join(a, sep) + sep + Join(b, sep)
  {
    assert (a + b)[0] == a[0];
    if |a| == 1 {
      assert (a + b)[1..] == b;
    } else {
      JoinAppend(a[1..], b, sep);
      assert (a + b)[1..] == a[1..] + b;
    }
  }

  /** A character found neither in the parts nor in the separator is not in
      the joined string. */
  lemma {:induction false} JoinKeepsOut(parts: seq<string>, sep: string, c: char)
    requires c !in sep && forall i :: 0 <= i < |parts| ==> c !in parts[i]
    ensures c !in Join(parts, sep)
  {
    if |parts| > 1 {
      JoinKeepsOut(parts[1..], sep, c);
    }
  }

  /** `s.split(sep)` for a one-character separator: the pieces between
      separators; there is always at least one piece, none contains the
      separator, and joining them back gives `s`. */
  function Split(s: string, sep: char): (r: seq<string>)
    ensures |r| >= 1
    ensures forall i :: 0 <= i < |r| ==> sep !in r[i]
    ensures Join(r, [sep]) == s
    decreases |s|
  {
    if sep !in s then [s]
    else
      var i := IndexOf(s, sep);
      var rest := Split(s[i + 1..], sep);
      assert s == s[..i] + [sep] + s[i + 1..];
      [s[..i]] + rest
  }

  /** The first separator of `a + [sep] + b` is the one after `a`, when `a`
      holds none. */
  lemma FirstSeparator(a: string, sep: char, b: string)
    requires sep !in a
    ensures sep in a + [sep] + b
    ensures IndexOf(a + [sep] + b, sep) == |a|
    ensures (a + [sep] + b)[..|a|] == a && (a + [sep] + b)[|a| + 1..] == b
  {
    var s := a + [sep] + b;
    assert s[|a|] == sep;
    assert forall j :: 0 <= j < |a| ==> s[j] == a[j];
  }

  /** One step of `Split`: the piece before the first separator, then the
      split of the rest. */
  lemma SplitStep(a: string, sep: char, b: string)
    requires sep !in a
    ensures Split(a + [sep] + b, sep) == [a] + Split(b, sep)
  {
    FirstSeparator(a, sep, b);
  }

  /** `s[..k]` is the text of `s` before its first `sep`, or all of `s`
      when it has none. */
  predicate FirstPieceEnd(s: string, sep: char, k: nat)
  {
    && k <= |s|
    && (forall j :: 0 <= j < k ==> s[j] != sep)
    && (k == |s| || s[k] == sep)
  }

  /** Every string has exactly one such end. */
  lemma FirstPieceEndUnique(s: string, sep: char)
    ensures exists k: nat :: FirstPieceEnd(s, sep, k)
    ensures forall k: nat, k': nat :: FirstPieceEnd(s, sep, k) && FirstPieceEnd(s, sep, k') ==> k == k'
  {
    if sep in s {
      assert FirstPieceEnd(s, sep, IndexOf(s, sep));
    } else {
      assert FirstPieceEnd(s, sep, |s|);
    }
  }

  /** The first piece of a split is the text before the first separator. */
  lemma SplitHead(s: string, sep: char, k: nat)
    requires FirstPieceEnd(s, sep, k)
    ensures Split(s, sep)[0] == s[..k]
  {
    if sep in s {
      var i := IndexOf(s, sep);
      assert k < |s|;
      assert i == k;
    } else {
      assert k == |s|;
      assert s[..k] == s;
    }
  }

  /** Splitting a join recovers the parts, when no part holds the separator. */
  lemma {:induction false} SplitJoin(parts: seq<string>, sep: char)
    requires |parts| >= 1
    requires forall i :: 0 <= i < |parts| ==> sep !in parts[i]
    ensures Split(Join(parts, [sep]), sep) == parts
  {
    if |parts| > 1 {
      var tail := Join(parts[1..], [sep]);
      assert Join(parts, [sep]) == parts[0] + [sep] + tail;
      SplitStep(parts[0], sep, tail);
      SplitJoin(parts[1..], sep);
      assert parts == [parts[0]] + parts[1..];
    }
  }

  function DigitChar(d: nat): char
    requires d < 10
  {
    "0123456789"[d]
  }

  function DigitValue(c: char): (d: nat)
    requires IsDigit(c)
    ensures d < 10
  {
    (c as int - '0' as int) as nat
  }

  /** Decimal rendering of a natural number, without leading zeros. */
  function NatToString(n: nat): (r: string)
    ensures |r| > 0 && AllDigits(r)
    ensures |r| > 1 ==> r[0] != '0'
  {
    if n < 10 then [DigitChar(n)] else NatToString(n / 10) + [DigitChar(n % 10)]
  }

  /** Python's `str(i)` for an integer. */
  function IntToString(i: int): string
  {
    if i < 0 then "-" + NatToString(-i) else NatToString(i)
  }

  /** Value of a run of decimal digits (leading zeros allowed). */
  function DigitsValue(s: string): nat
    requires AllDigits(s)
  {
    if |s| == 0 then 0 else 10 * DigitsValue(s[..|s| - 1]) + DigitValue(s[|s| - 1])
  }

  lemma {:induction false} DigitsValueOfNatToString(n: nat)
    ensures DigitsValue(NatToString(n)) == n
  {
    if n >= 10 {
      var s := NatToString(n);
      assert s[..|s| - 1] == NatToString(n / 10);
      DigitsValueOfNatToString(n / 10);
    }
  }

  /** An optional sign, then at least one digit. */
  function ParseSigned(t: string): Option<int>
  {
    if |t| == 0 then None
    else
      var neg := t[0] == '-';
      var body := if t[0] == '-' || t[0] == '+' then t[1..] else t;
      if |body| == 0 || !AllDigits(body) then None
      else if neg then Some(-(DigitsValue(body) as int))
      else Some(DigitsValue(body))
  }

  /** Python's `int(s)` for base 10: surrounding whitespace, an optional sign,
      then at least one digit; anything else raises, modelled as `None`. */
  function ParseInt(s: string): (r: Option<int>)
    ensures r.Some? ==> |Strip(s)| > 0
  {
    ParseSigned(Strip(s))
  }

  lemma SignedDigits(digits: string)
    requires |digits| > 0 && AllDigits(digits)
    ensures ParseSigned("-" + digits) == Some(-(DigitsValue(digits) as int))
    ensures ParseSigned(digits) == Some(DigitsValue(digits) as int)
  {
    assert ("-" + digits)[1..] == digits;
  }

  /** Decimal renderings have no surrounding whitespace, so `strip` keeps
      them. */
  lemma IntToStringStripped(i: int)
    ensures Strip(IntToString(i)) == IntToString(i)
  {
    var s := IntToString(i);
    assert !IsSpace(s[0]);
    assert !IsSpace(s[|s| - 1]);
    StripNoop(s);
  }

  lemma NonNegRoundTrip(i: int)
    requires i >= 0
    ensures ParseInt(IntToString(i)) == Some(i)
  {
    IntToStringStripped(i);
    DigitsValueOfNatToString(i);
    SignedDigits(NatToString(i));
  }

  lemma NegRoundTrip(i: int)
    requires i < 0
    ensures ParseInt(IntToString(i)) == Some(i)
  {
    var n: nat := -i;
    var d := NatToString(n);
    DigitsValueOfNatToString(n);
    SignedDigits(d);
    assert IntToString(i) == "-" + d;
    IntToStringStripped(i);
    assert ParseInt(IntToString(i)) == ParseSigned("-" + d);
  }

  /** `int(str(i)) == i` */
  lemma IntToStringRoundTrip(i: int)
    ensures ParseInt(IntToString(i)) == Some(i)
  {
    if i < 0 {
      NegRoundTrip(i);
    } else {
      NonNegRoundTrip(i);
    }
  }

  /** Distinct integers render to distinct strings. */
  lemma IntToStringInjective(i: int, j: int)
    requires IntToString(i) == IntToString(j)
    ensures i == j
  {
    IntToStringRoundTrip(i);
    IntToStringRoundTrip(j);
  }
}

=== FILE: taste_summary.dfy ===
/** The taste summary handed to the language model
    (`_build_taste_summary` in backend/services/llm_service.py): one line per
    cluster with its size, its mean rating and its two most frequent genres
    and countries. The `:.2f` rendering of the rating is a parameter. */
module TasteSummary {
  import opened Seqs
  import opened Strings
  import opened Dedup
  import opened Ranking
  import opened Entities

  /** How many times each name occurs, as the `Counter` key. */
  function Frequency(xs: seq<string>): string -> real
  {
    g => Count(xs, g) as real
  }

  /** The names of `xs` in first-appearance order, sorted by frequency with
      a stable sort. */
  function Ranked(xs: seq<string>): seq<string>
  {
    Items(StableSortDesc(Distinct(xs), Frequency(xs)))
  }

  /** Every name appears in the ranking, once. */
  lemma RankedMembers(xs: seq<string>)
    ensures var r := Ranked(xs);
      && NoDuplicates(r)
      && (forall g :: g in r <==> g in xs)
  {
    var names := Distinct(xs);
    DistinctCorrect(xs);
    var ranked := StableSortDesc(names, Frequency(xs));
    var r := Items(ranked);
    forall g | g in xs ensures g in r {
      var p := IndexOf(names, g);
      assert p in PosSeq(ranked);
      var i :| 0 <= i < |ranked| && PosSeq(ranked)[i] == p;
      assert r[i] == g;
    }
    forall i, j | 0 <= i < j < |r| ensures r[i] != r[j] {
      assert ranked[i].pos != ranked[j].pos;
    }
  }

  /** Counts never increase along the ranking, and equal counts keep the
      order of first appearance. */
  lemma RankedOrder(xs: seq<string>)
    ensures var r := Ranked(xs);
      && (forall g :: g in r ==> g in xs)
      && (forall i, j :: 0 <= i < j < |r| ==> Count(xs, r[i]) >= Count(xs, r[j]))
      && (forall i, j :: 0 <= i < j < |r| && Count(xs, r[i]) == Count(xs, r[j]) ==>
            IndexOf(xs, r[i]) < IndexOf(xs, r[j]))
  {
    var names := Distinct(xs);
    DistinctCorrect(xs);
    var ranked := StableSortDesc(names, Frequency(xs));
    var r := Items(ranked);
    RankedMembers(xs);
    forall i, j | 0 <= i < j < |r| ensures Count(xs, r[i]) >= Count(xs, r[j]) {
      assert ranked[i].key >= ranked[j].key;
    }
    forall i, j | 0 <= i < j < |r| && Count(xs, r[i]) == Count(xs, r[j])
      ensures IndexOf(xs, r[i]) < IndexOf(xs, r[j])
    {
      assert ranked[i].key == ranked[j].key;
      assert ranked[i].pos < ranked[j].pos;
    }
  }

  /** The names of `xs`, most frequent first; names with equal counts keep
      the order in which they first appear (`Counter.most_common()`, whose
      ties follow the counter's insertion order). */
  function ByFrequency(xs: seq<string>): (r: seq<string>)
    ensures NoDuplicates(r)
    ensures forall g :: g in r <==> g in xs
    ensures forall i, j :: 0 <= i < j < |r| ==> Count(xs, r[i]) >= Count(xs, r[j])
    ensures forall i, j :: 0 <= i < j < |r| && Count(xs, r[i]) == Count(xs, r[j]) ==>
      IndexOf(xs, r[i]) < IndexOf(xs, r[j])
  {
    RankedMembers(xs);
    RankedOrder(xs);
    Ranked(xs)
  }

  /** The first `n` names by frequency. */
  function Prefix(all: seq<string>): seq<string>
  {
    all[..if |all| < 2 then |all| else 2]
  }

  /** The top list has at most two names from `xs`, is empty only for an
      empty tally, and has two names whenever `xs` has two distinct ones. */
  lemma TopSize(xs: seq<string>)
    ensures var r := Prefix(ByFrequency(xs));
      && |r| <= 2 && NoDuplicates(r)
      && (|xs| > 0 <==> |r| > 0)
      && ((exists i, j :: 0 <= i < j < |xs| && xs[i] != xs[j]) ==> |r| == 2)
      && (forall g :: g in r ==> g in xs)
  {
    var all := ByFrequency(xs);
    var n := if |all| < 2 then |all| else 2;
    var r := Prefix(all);
    assert r == all[..n];
    if |xs| > 0 {
      assert xs[0] in all;
    }
    if exists i, j :: 0 <= i < j < |xs| && xs[i] != xs[j] {
      var i, j :| 0 <= i < j < |xs| && xs[i] != xs[j];
      assert xs[i] in all && xs[j] in all;
    }
  }

  /** The top list is in frequency order, and each listed name beats every
      unlisted one: by count, or by first appearance on equal counts. */
  lemma TopBeats(xs: seq<string>)
    ensures var r := Prefix(ByFrequency(xs));
      && (forall i, j :: 0 <= i < j < |r| ==>
            Count(xs, r[i]) > Count(xs, r[j]) || (Count(xs, r[i]) == Count(xs, r[j]) && IndexOf(xs, r[i]) < IndexOf(xs, r[j])))
      && (forall i, g :: 0 <= i < |r| && g in xs && g !in r ==>
            Count(xs, r[i]) > Count(xs, g) || (Count(xs, r[i]) == Count(xs, g) && IndexOf(xs, r[i]) < IndexOf(xs, g)))
  {
    var all := ByFrequency(xs);
    var n := if |all| < 2 then |all| else 2;
    var r := Prefix(all);
    assert r == all[..n];
    forall i, g | 0 <= i < |r| && g in xs && g !in r
      ensures Count(xs, r[i]) > Count(xs, g) || (Count(xs, r[i]) == Count(xs, g) && IndexOf(xs, r[i]) < IndexOf(xs, g))
    {
      var k := IndexOf(all, g);
      assert k >= n;
      assert r[i] == all[i];
    }
  }

  /** `[g for g, _ in counter.most_common(2)]`: at most two names; the listed
      names come first in frequency order, and every unlisted name occurs
      less often than each listed one, or as often but first appears later. */
  function TopNames(xs: seq<string>): (r: seq<string>)
    ensures |r| <= 2 && NoDuplicates(r)
    ensures |xs| > 0 <==> |r| > 0
    ensures (exists i, j :: 0 <= i < j < |xs| && xs[i] != xs[j]) ==> |r| == 2
    ensures forall g :: g in r ==> g in xs
    ensures forall i, j :: 0 <= i < j < |r| ==>
      Count(xs, r[i]) > Count(xs, r[j]) || (Count(xs, r[i]) == Count(xs, r[j]) && IndexOf(xs, r[i]) < IndexOf(xs, r[j]))
    ensures forall i, g :: 0 <= i < |r| && g in xs && g !in r ==>
      Count(xs, r[i]) > Count(xs, g) || (Count(xs, r[i]) == Count(xs, g) && IndexOf(xs, r[i]) < IndexOf(xs, g))
  {
    TopSize(xs);
    TopBeats(xs);
    Prefix(ByFrequency(xs))
  }

  /** `summarize_top`: "no <kind> found" for an empty tally, otherwise the
      top names joined by ", ". The "varied" fallback of the source cannot be
      reached, because a non-empty tally always has a top name. */
  function SummarizeTop(xs: seq<string>, kind: string): (r: string)
    ensures |xs| == 0 ==> r == "no " + kind + " found"
    ensures |xs| > 0 ==> r == Join(TopNames(xs), ", ")
  {
    if |xs| == 0 then "no " + kind + " found"
    else
      var top := TopNames(xs);
      if |top| > 0 then Join(top, ", ") else "varied " + kind
  }

  /** All genres of the cluster's movies, in order. */
  function ClusterGenres(c: Cluster): seq<string>
  {
    Flatten(MapSeq(c.movies, (m: Movie) => m.genres))
  }

  /** All countries of the cluster's movies, in order. */
  function ClusterCountries(c: Cluster): seq<string>
  {
    Flatten(MapSeq(c.movies, (m: Movie) => m.countries))
  }

  /** "Taste group {idx+1}: {count} movies" */
  function Header(idx: nat, count: int): string
  {
    "Taste group " + NatToString(idx + 1) + ": " + IntToString(count) + " movies"
  }

  /** `summarize_cluster`; `fmt` renders the mean rating with two decimals. */
  function SummarizeCluster(c: Cluster, idx: nat, fmt: real -> string): (line: string)
    ensures |Header(idx, c.count)| <= |line| && line[..|Header(idx, c.count)|] == Header(idx, c.count)
  {
    var header := Header(idx, c.count);
    var details := ", avg rating " + fmt(c.averageRating)
      + ", main genres: " + SummarizeTop(ClusterGenres(c), "genres")
      + ", main countries: " + SummarizeTop(ClusterCountries(c), "countries");
    assert (header + details)[..|header|] == header;
    header + details
  }

  function Lines(clusters: seq<Cluster>, fmt: real -> string): (r: seq<string>)
    ensures |r| == |clusters|
    ensures forall i :: 0 <= i < |clusters| ==> r[i] == SummarizeCluster(clusters[i], i, fmt)
  {
    seq(|clusters|, i requires 0 <= i < |clusters| => SummarizeCluster(clusters[i], i, fmt))
  }

  /** `_build_taste_summary`: the cluster lines joined by newlines. */
  function BuildTasteSummary(profile: UserProfile, fmt: real -> string): (s: string)
    ensures |profile.clusters| == 0 ==> s == ""
  {
    Join(Lines(profile.clusters, fmt), "\n")
  }

  /** Every genre the summary lists for a cluster is a genre of one of that
      cluster's movies; likewise for countries. */
  lemma TalliesDrawOnClusterMovies(c: Cluster)
    ensures forall g :: g in TopNames(ClusterGenres(c)) ==> exists m :: m in c.movies && g in m.genres
    ensures forall g :: g in TopNames(ClusterCountries(c)) ==> exists m :: m in c.movies && g in m.countries
  {
    forall g | g in TopNames(ClusterGenres(c)) ensures exists m :: m in c.movies && g in m.genres {
      var j := FlattenIn(MapSeq(c.movies, (m: Movie) => m.genres), g);
      assert c.movies[j] in c.movies;
    }
    forall g | g in TopNames(ClusterCountries(c)) ensures exists m :: m in c.movies && g in m.countries {
      var j := FlattenIn(MapSeq(c.movies, (m: Movie) => m.countries), g);
      assert c.movies[j] in c.movies;
    }
  }

  /** No newline in the names of a cluster's genres or countries, nor in the
      rendered rating. */
  predicate NoNewlines(c: Cluster, fmt: real -> string)
  {
    && '\n' !in fmt(c.averageRating)
    && (forall m :: m in c.movies ==> forall g :: g in m.genres ==> '\n' !in g)
    && (forall m :: m in c.movies ==> forall g :: g in m.countries ==> '\n' !in g)
  }

  lemma TopKeepsOutNewline(xs: seq<string>, kind: string)
    requires '\n' !in kind
    requires forall g :: g in xs ==> '\n' !in g
    ensures '\n' !in SummarizeTop(xs, kind)
  {
    if |xs| > 0 {
      JoinKeepsOut(TopNames(xs), ", ", '\n');
    } else {
      assert '\n' !in "no " && '\n' !in " found";
    }
  }

  lemma DigitsKeepOutNewline(n: nat)
    ensures '\n' !in NatToString(n)
  {
    var d := NatToString(n);
    forall k | 0 <= k < |d| ensures d[k] != '\n' {
      assert IsDigit(d[k]);
    }
  }

  lemma HeaderKeepsOutNewline(idx: nat, count: int)
    ensures '\n' !in Header(idx, count)
  {
    DigitsKeepOutNewline(idx + 1);
    DigitsKeepOutNewline(if count < 0 then -count else count);
    assert '\n' !in IntToString(count);
  }

  /** The genres (or countries) of a cluster's movies carry no newline when
      none of the movies' names does. */
  lemma NamesKeepOutNewline(movies: seq<Movie>, names: Movie -> seq<string>)
    requires forall m :: m in movies ==> forall g :: g in names(m) ==> '\n' !in g
    ensures forall g :: g in Flatten(MapSeq(movies, names)) ==> '\n' !in g
  {
    forall g | g in Flatten(MapSeq(movies, names)) ensures '\n' !in g {
      var j := FlattenIn(MapSeq(movies, names), g);
      assert movies[j] in movies;
    }
  }

  lemma LineHasNoNewline(c: Cluster, idx: nat, fmt: real -> string)
    requires NoNewlines(c, fmt)
    ensures '\n' !in SummarizeCluster(c, idx, fmt)
  {
    HeaderKeepsOutNewline(idx, c.count);
    NamesKeepOutNewline(c.movies, (m: Movie) => m.genres);
    NamesKeepOutNewline(c.movies, (m: Movie) => m.countries);
    TopKeepsOutNewline(ClusterGenres(c), "genres");
    TopKeepsOutNewline(ClusterCountries(c), "countries");
    assert '\n' !in ", avg rating " && '\n' !in ", main genres: " && '\n' !in ", main countries: ";
  }

  /** Read back line by line, a non-empty summary has exactly one line per
      cluster, in cluster order, and line i opens with
      "Taste group {i+1}: {count} movies". */
  lemma SummaryLines(profile: UserProfile, fmt: real -> string)
    requires |profile.clusters| > 0
    requires forall i :: 0 <= i < |profile.clusters| ==> NoNewlines(profile.clusters[i], fmt)
    ensures var lines := Split(BuildTasteSummary(profile, fmt), '\n');
      && |lines| == |profile.clusters|
      && (forall i :: 0 <= i < |lines| ==> lines[i] == SummarizeCluster(profile.clusters[i], i, fmt))
      && (forall i :: 0 <= i < |lines| ==>
            var h := Header(i, profile.clusters[i].count);
            |h| <= |lines[i]| && lines[i][..|h|] == h)
  {
    var ls := Lines(profile.clusters, fmt);
    forall i | 0 <= i < |ls| ensures '\n' !in ls[i] {
      LineHasNoNewline(profile.clusters[i], i, fmt);
    }
    SplitJoin(ls, '\n');
  }
}

=== FILE: tmdb.dfy ===
/** The pure parts of backend/services/tmdb_service.py: matching cached
    catalogue records against filters, the page and batch arithmetic of the
    catalogue download, and the shaping of one downloaded record. HTTP,
    Redis and the pauses between batches are not modelled; page contents and
    detail responses are parameters. */
module Tmdb {
  import opened Results
  import opened Seqs
  import opened Strings
  import opened Entities

  // ------------------------------------------------------------ matching

  /** A cached catalogue record, as `_fetch_details` stores it. */
  datatype Record = Record(
    id: string,
    title: string,
    year: int,
    duration: int,
    genres: seq<string>,
    countries: seq<string>,
    description: string)

  /** The filter dictionary of `fetch_movies`. A missing key, an empty list,
      `None` and `0` are all falsy and impose nothing; `None` models the
      missing key. */
  datatype TmdbFilters = TmdbFilters(
    genres: seq<string>,
    year: Option<int>,
    countries: seq<string>,
    duration: Option<int>)

  /** The scalar filter is present and truthy. */
  predicate Active(o: Option<int>)
  {
    o.Some? && o.value != 0
  }

  /** `_matches`: shared genre, equal year, shared country, equal duration,
      each only when its filter is truthy. */
  predicate Matches(m: Record, f: TmdbFilters)
  {
    if |f.genres| > 0 && !Intersects(f.genres, m.genres) then false
    else if Active(f.year) && m.year != f.year.value then false
    else if |f.countries| > 0 && !Intersects(f.countries, m.countries) then false
    else if Active(f.duration) && m.duration != f.duration.value then false
    else true
  }

  /** `Movie(**m)`: a catalogue movie, not yet embedded. */
  function ToMovie(m: Record): Movie
  {
    Movie(Some(m.id), m.title, m.year, m.duration, m.genres, m.countries, Some(m.description), None)
  }

  /** `kept` lists the matching records of `cached` in cache order, each as
      often as it occurs there, and nothing else. */
  ghost predicate SelectsMatches(kept: seq<Record>, cached: seq<Record>, f: TmdbFilters)
  {
    Selects(kept, cached, (m: Record) => Matches(m, f))
  }

  /** `fetch_movies` over the cached catalogue: the matching records, in
      cache order, as movies. */
  function FetchMovies(cached: seq<Record>, f: TmdbFilters): (r: seq<Movie>)
    ensures |r| <= |cached|
    ensures forall m :: m in r <==> exists rec :: rec in cached && Matches(rec, f) && m == ToMovie(rec)
    ensures exists kept :: SelectsMatches(kept, cached, f) && r == MapSeq(kept, ToMovie)
    ensures forall i :: 0 <= i < |r| ==> r[i].embedding.None?
  {
    var kept := Filter(cached, (m: Record) => Matches(m, f));
    FilterCounts(cached, (m: Record) => Matches(m, f));
    MapSeqMembers(kept, ToMovie);
    assert SelectsMatches(kept, cached, f);
    MapSeq(kept, ToMovie)
  }

  /** `_matches` against an independent reading of its four tests. */
  lemma MatchesExactly(m: Record, f: TmdbFilters)
    ensures Matches(m, f) <==>
      && (|f.genres| == 0 || exists g :: g in f.genres && g in m.genres)
      && (f.year.None? || f.year.value == 0 || m.year == f.year.value)
      && (|f.countries| == 0 || exists c :: c in f.countries && c in m.countries)
      && (f.duration.None? || f.duration.value == 0 || m.duration == f.duration.value)
  {
  }

  /** The kept records are exactly the matching ones, in cache order. */
  lemma FetchMoviesKeepsMatches(cached: seq<Record>, f: TmdbFilters)
    ensures var kept := Filter(cached, (m: Record) => Matches(m, f));
      && IsSubsequence(kept, cached)
      && (forall m :: m in kept <==> m in cached && Matches(m, f))
      && FetchMovies(cached, f) == MapSeq(kept, ToMovie)
  {
  }

  /** No filter keeps the whole catalogue. */
  lemma NoFiltersKeepAll(cached: seq<Record>)
    ensures FetchMovies(cached, TmdbFilters([], None, [], None)) == MapSeq(cached, ToMovie)
  {
    FilterKeepsAll(cached, (m: Record) => Matches(m, TmdbFilters([], None, [], None)));
  }

  // ----------------------------------------------------------- pagination

  const MoviesPerPage := 20

  /** `(total_movies + movies_per_page - 1) // movies_per_page`; floor
      division by a positive number agrees with Dafny's division. */
  function TotalPages(totalMovies: int): int
  {
    (totalMovies + MoviesPerPage - 1) / MoviesPerPage
  }

  /** The page count is the ceiling of `totalMovies / 20`: enough pages for
      every movie, and no page more. */
  lemma TotalPagesCeiling(totalMovies: nat)
    ensures TotalPages(totalMovies) >= 0
    ensures TotalPages(totalMovies) * MoviesPerPage >= totalMovies
    ensures (TotalPages(totalMovies) - 1) * MoviesPerPage < totalMovies || totalMovies == 0
  {
  }

  /** The pages of each round, from `start` on: `range(start, min(start +
      size, last + 1))` for `start` in `range(1, last + 1, size)`. */
  function PageRoundsFrom(start: int, last: int, size: nat): (r: seq<seq<int>>)
    requires size > 0
    ensures forall j :: 0 <= j < |r| ==> 0 < |r[j]| <= size
    ensures Flatten(r) == Range(start, last + 1)
    decreases last + 1 - start
  {
    if start > last then []
    else
      var stop := if start + size < last + 1 then start + size else last + 1;
      var rest := PageRoundsFrom(start + size, last, size);
      var round := Range(start, stop);
      RangeSplit(start, stop, last + 1);
      FlattenCons(round, rest);
      assert forall j :: 0 < j <= |rest| ==> ([round] + rest)[j] == rest[j - 1];
      [round] + rest
  }

  lemma {:induction false} RangeSplit(lo: int, mid: int, hi: int)
    requires lo <= mid <= hi
    ensures Range(lo, hi) == Range(lo, mid) + Range(mid, hi)
    decreases mid - lo
  {
    if lo < mid {
      RangeSplit(lo + 1, mid, hi);
    }
  }

  datatype TmdbError =
    /** `range(..., 0)` raises. */
    | ZeroBatchSize
    /** `int(...)` of the year part of a release date raises. */
    | BadReleaseDate(date: string)
    /** A detail request fails with a status other than 404. */
    | HttpError(id: int)
    /** A discover page request fails: `raise_for_status` raises, and
        `gather` passes the exception on. */
    | PageFailed(page: int)

  /** The page rounds of `_fetch_and_cache_top_movies`: every page from 1 to
      the page count exactly once, in order, at most `batchSize` per round.
      A negative batch size gives no rounds. */
  function PageRounds(totalMovies: int, batchSize: int): (r: Result<seq<seq<int>>, TmdbError>)
    ensures r.Err? <==> batchSize == 0
    ensures r.Ok? && batchSize > 0 ==>
      && Flatten(r.value) == Range(1, TotalPages(totalMovies) + 1)
      && forall j :: 0 <= j < |r.value| ==> 0 < |r.value[j]| <= batchSize
    ensures batchSize < 0 ==> r == Ok([])
  {
    if batchSize == 0 then Err(ZeroBatchSize)
    else if batchSize < 0 then Ok([])
    else Ok(PageRoundsFrom(1, TotalPages(totalMovies), batchSize))
  }

  /** `s[:n]` with Python's slice semantics (a negative `n` counts from the
      end). */
  function PyPrefix<T>(s: seq<T>, n: int): (r: seq<T>)
    ensures n >= 0 ==> |r| == (if n < |s| then n else |s|)
    ensures n < 0 ==> |r| == (if |s| + n > 0 then |s| + n else 0)
    ensures r == s[..|r|]
  {
    var k := if n >= 0 then (if n < |s| then n else |s|) else (if |s| + n > 0 then |s| + n else 0);
    s[..k]
  }

  /** The results of one page request, or nothing when it failed. */
  function PageResults<M>(page: Option<seq<M>>): seq<M>
  {
    if page.Some? then page.value else []
  }

  /** Every page's results, concatenated in page order. */
  function Fetched<M>(pages: seq<int>, fetchPage: int -> Option<seq<M>>): seq<M>
  {
    Flatten(MapSeq(pages, (p: int) => PageResults(fetchPage(p))))
  }

  /** The page requests of every round: the concatenated results when all
      succeed, and otherwise a failure naming a page whose request failed.
      `fetchPage(p)` is `None` when the request for page `p` raises. */
  function FetchPages<M>(pages: seq<int>, fetchPage: int -> Option<seq<M>>): (r: Result<seq<M>, TmdbError>)
    ensures r.Err? <==> exists i :: 0 <= i < |pages| && fetchPage(pages[i]).None?
    ensures r.Err? ==> exists i :: 0 <= i < |pages| && fetchPage(pages[i]).None? && r.error == PageFailed(pages[i])
    ensures r.Ok? ==> r.value == Fetched(pages, fetchPage)
  {
    if |pages| == 0 then Ok([])
    else if fetchPage(pages[0]).None? then Err(PageFailed(pages[0]))
    else
      var rest := FetchPages(pages[1..], fetchPage);
      if rest.Err? then
        assert forall i :: 0 <= i < |pages| - 1 ==> pages[1..][i] == pages[i + 1];
        Err(rest.error)
      else
        FetchedCons(pages, fetchPage);
        Ok(fetchPage(pages[0]).value + rest.value)
  }

  lemma FetchedCons<M>(pages: seq<int>, fetchPage: int -> Option<seq<M>>)
    requires |pages| > 0
    ensures Fetched(pages, fetchPage) == PageResults(fetchPage(pages[0])) + Fetched(pages[1..], fetchPage)
  {
    var f := (p: int) => PageResults(fetchPage(p));
    assert MapSeq(pages, f) == [f(pages[0])] + MapSeq(pages[1..], f);
    FlattenCons(f(pages[0]), MapSeq(pages[1..], f));
  }

  /** The raw movie list: every page's results in page order, cut to the
      requested number of movies. A failing page request aborts the whole
      download. */
  function RawMovies<M>(rounds: seq<seq<int>>, fetchPage: int -> Option<seq<M>>, totalMovies: int): (r: Result<seq<M>, TmdbError>)
    ensures r.Err? <==> exists p :: p in Flatten(rounds) && fetchPage(p).None?
    ensures r.Err? ==> exists p :: p in Flatten(rounds) && fetchPage(p).None? && r.error == PageFailed(p)
    ensures r.Ok? ==> var all := Fetched(Flatten(rounds), fetchPage);
      && |r.value| <= |all| && r.value == all[..|r.value|]
      && (totalMovies >= 0 ==> |r.value| == if totalMovies < |all| then totalMovies else |all|)
  {
    var all :- FetchPages(Flatten(rounds), fetchPage);
    Ok(PyPrefix(all, totalMovies))
  }

  // -------------------------------------------------------------- shaping

  /** A movie of a discover page. Missing `genre_ids` is modelled as the
      empty list, a missing or null `release_date` or `overview` as `None`. */
  datatype RawMovie = RawMovie(
    id: int,
    title: string,
    genreIds: seq<int>,
    releaseDate: Option<string>,
    overview: Option<string>)

  /** A movie details response. A missing `runtime` is `None`; missing or
      empty production countries are the empty list. */
  datatype Details = Details(runtime: Option<int>, productionCountries: seq<string>)

  datatype DetailsResponse = NotFound | Failed | Found(details: Details)

  /** `int(release_date.split("-")[0])`, or 0 without a release date: the
      year is the integer written before the date's first '-', and a date
      whose text there is not an integer is an error naming the date. */
  function ReleaseYear(date: Option<string>): (r: Result<int, TmdbError>)
    ensures date.None? || date.value == "" ==> r == Ok(0)
    ensures date.Some? && date.value != "" ==> forall k: nat :: FirstPieceEnd(date.value, '-', k) ==>
      && (r.Ok? <==> ParseInt(date.value[..k]).Some?)
      && (r.Ok? ==> ParseInt(date.value[..k]) == Some(r.value))
    ensures r.Err? ==> date.Some? && r.error == BadReleaseDate(date.value)
  {
    if date.None? || date.value == "" then Ok(0)
    else
      var d := date.value;
      var y := ParseInt(Split(d, '-')[0]);
      assert forall k: nat :: FirstPieceEnd(d, '-', k) ==> Split(d, '-')[0] == d[..k] by {
        forall k: nat | FirstPieceEnd(d, '-', k) ensures Split(d, '-')[0] == d[..k] {
          SplitHead(d, '-', k);
        }
      }
      if y.Some? then Ok(y.value) else Err(BadReleaseDate(d))
  }

  /** `genre_map.get(str(gid), str(gid))` */
  function GenreName(genreMap: map<string, string>, gid: int): string
  {
    var key := IntToString(gid);
    if key in genreMap then genreMap[key] else key
  }

  /** `_fetch_details` after the request: a 404 skips the movie, another
      failure propagates, and a found movie is shaped into a record. */
  function ShapeRecord(m: RawMovie, resp: DetailsResponse, genreMap: map<string, string>): (r: Result<Option<Record>, TmdbError>)
    ensures resp.NotFound? ==> r == Ok(None)
    ensures resp.Failed? ==> r == Err(HttpError(m.id))
    ensures resp.Found? ==> (r.Ok? <==> ReleaseYear(m.releaseDate).Ok?)
    ensures resp.Found? && r.Ok? ==> r.value.Some? && var rec := r.value.value;
      && rec.id == IntToString(m.id)
      && rec.title == m.title
      && rec.year == ReleaseYear(m.releaseDate).value
      && rec.duration == (if resp.details.runtime.Some? then resp.details.runtime.value else 0)
      && |rec.genres| == |m.genreIds|
      && (forall i :: 0 <= i < |m.genreIds| ==>
            rec.genres[i] == (if IntToString(m.genreIds[i]) in genreMap then genreMap[IntToString(m.genreIds[i])] else IntToString(m.genreIds[i])))
      && rec.countries == resp.details.productionCountries
      && rec.description == (if m.overview.Some? then m.overview.value else "")
  {
    match resp
    case NotFound => Ok(None)
    case Failed => Err(HttpError(m.id))
    case Found(d) =>
      var year :- ReleaseYear(m.releaseDate);
      Ok(Some(Record(
        IntToString(m.id),
        m.title,
        year,
        if d.runtime.Some? then d.runtime.value else 0,
        MapSeq(m.genreIds, (gid: int) => GenreName(genreMap, gid)),
        d.productionCountries,
        if m.overview.Some? then m.overview.value else "")))
  }

  /** A release date "YYYY-MM-DD" yields its year. */
  lemma ReleaseYearOfIsoDate(y: nat, rest: string)
    ensures ReleaseYear(Some(NatToString(y) + "-" + rest)) == Ok(y)
  {
    var s := NatToString(y) + "-" + rest;
    var head := NatToString(y);
    assert '-' !in head;
    var parts := Split(s, '-');
    assert s[|head|] == '-';
    assert IndexOf(s, '-') == |head| by {
      forall j | 0 <= j < |head| ensures s[j] != '-' {
        assert s[j] == head[j];
      }
    }
    assert s[..|head|] == head;
    assert parts[0] == head;
    IntToStringRoundTrip(y);
  }

  // ------------------------------------------------------------ details

  /** The shaped records of one round of detail requests: skipped movies
      dropped, the first failure propagated. */
  function ShapeAll(ms: seq<RawMovie>, detailsOf: int -> DetailsResponse, genreMap: map<string, string>): (r: Result<seq<Record>, TmdbError>)
  {
    if |ms| == 0 then Ok([])
    else
      var first :- ShapeRecord(ms[0], detailsOf(ms[0].id), genreMap);
      var rest :- ShapeAll(ms[1..], detailsOf, genreMap);
      Ok((if first.Some? then [first.value] else []) + rest)
  }

  /** The detail rounds of `_fetch_and_cache_top_movies`: the raw list in
      slices of `size`, each shaped, results concatenated. */
  function ShapeRounds(rounds: seq<seq<RawMovie>>, detailsOf: int -> DetailsResponse, genreMap: map<string, string>): (r: Result<seq<Record>, TmdbError>)
  {
    if |rounds| == 0 then Ok([])
    else
      var first :- ShapeAll(rounds[0], detailsOf, genreMap);
      var rest :- ShapeRounds(rounds[1..], detailsOf, genreMap);
      Ok(first + rest)
  }

  lemma {:induction false} ShapeAllAppend(a: seq<RawMovie>, b: seq<RawMovie>, detailsOf: int -> DetailsResponse, genreMap: map<string, string>)
    ensures ShapeAll(a + b, detailsOf, genreMap) ==
      match ShapeAll(a, detailsOf, genreMap)
      case Err(e) => Err(e)
      case Ok(x) =>
        match ShapeAll(b, detailsOf, genreMap)
        case Err(e) => Err(e)
        case Ok(y) => Ok(x + y)
  {
    if |a| == 0 {
      assert a + b == b;
      var tb := ShapeAll(b, detailsOf, genreMap);
      if tb.Ok? {
        assert [] + tb.value == tb.value;
      }
    } else {
      assert (a + b)[0] == a[0];
      assert (a + b)[1..] == a[1..] + b;
      ShapeAllAppend(a[1..], b, detailsOf, genreMap);
      var h := ShapeRecord(a[0], detailsOf(a[0].id), genreMap);
      var ta := ShapeAll(a[1..], detailsOf, genreMap);
      var tb := ShapeAll(b, detailsOf, genreMap);
      if h.Ok? && ta.Ok? && tb.Ok? {
        var f := if h.value.Some? then [h.value.value] else [];
        assert (f + ta.value) + tb.value == f + (ta.value + tb.value);
      }
    }
  }

  /** Cutting the raw list into rounds does not change the outcome: the
      records are those of one pass over the whole list, in order. */
  lemma {:induction false} RoundsAreOnePass(rounds: seq<seq<RawMovie>>, detailsOf: int -> DetailsResponse, genreMap: map<string, string>)
    ensures ShapeRounds(rounds, detailsOf, genreMap) == ShapeAll(Flatten(rounds), detailsOf, genreMap)
  {
    if |rounds| > 0 {
      RoundsAreOnePass(rounds[1..], detailsOf, genreMap);
      ShapeAllAppend(rounds[0], Flatten(rounds[1..]), detailsOf, genreMap);
    }
  }

  /** The catalogue download after the pages are fetched: truncate, shape in
      rounds of `batchSize`. */
  function BuildCatalogue(raw: seq<RawMovie>, totalMovies: int, batchSize: int, detailsOf: int -> DetailsResponse, genreMap: map<string, string>): (r: Result<seq<Record>, TmdbError>)
    ensures batchSize > 0 ==> r == ShapeAll(PyPrefix(raw, totalMovies), detailsOf, genreMap)
  {
    if batchSize == 0 then Err(ZeroBatchSize)
    else if batchSize < 0 then Ok([])
    else
      var kept := PyPrefix(raw, totalMovies);
      RoundsAreOnePass(Chunks(kept, batchSize), detailsOf, genreMap);
      ShapeRounds(Chunks(kept, batchSize), detailsOf, genreMap)
  }
}

=== FILE: user_profile.dfy ===
/** Profile building (backend/services/user_profile_service.py): loading a
    watch history from uploaded records, preparing the high-rated part of it
    for embedding and clustering, and saving the result. The field detector,
    the history-item constructor, the embedder, the clusterer and the vector
    store are collaborators the model receives as functions; a collaborator
    that raises answers `Err` with the exception's message. */
module UserProfiles {
  import opened Results
  import opened Seqs
  import opened Strings
  import opened Entities
  import FieldDetection

  type Record = FieldDetection.Record

  /** What the profile service hands to `clusterer.cluster`. */
  datatype ClusterInput = ClusterInput(
    embeddings: seq<Option<Embedding>>,
    ratings: seq<real>,
    dates: seq<string>,
    movies: seq<Movie>)

  /** The collaborators. `convertBatch` answers the converted records of
      `convert_movies_batch` (the excluded ones are only logged);
      `construct` is `MovieHistoryItem(**data)`, `None` when it raises. */
  datatype Services = Services(
    convertBatch: seq<Record> -> Result<seq<Record>, string>,
    validate: Record -> bool,
    construct: Record -> Option<MovieHistoryItem>,
    embed: seq<string> -> Result<seq<Option<Embedding>>, string>,
    cluster: ClusterInput -> Result<seq<Cluster>, string>,
    save: UserProfile -> Result<(), string>)

  const HighRatingThreshold: real := 4.0
  const DefaultWatchDate: string := "2023-01-01"

  // ----- loading the watch history -----

  /** What one converted record contributes: itself as a history item when it
      validates and constructs, nothing otherwise. */
  function KeptOne(c: Record, svc: Services): seq<MovieHistoryItem>
  {
    if svc.validate(c) then
      match svc.construct(c)
      case Some(m) => [m]
      case None => []
    else []
  }

  /** The history a list of converted records yields, in order. */
  function Kept(cs: seq<Record>, svc: Services): seq<MovieHistoryItem>
  {
    Flatten(MapSeq(cs, c => KeptOne(c, svc)))
  }

  /** The outcome of `_load_watch_history_from_content` as one expression:
      a failing batch conversion propagates, otherwise the kept records. */
  function LoadedHistory(data: seq<Record>, svc: Services): Result<seq<MovieHistoryItem>, string>
  {
    var converted :- svc.convertBatch(data);
    Ok(Kept(converted, svc))
  }

  /** A history item is kept exactly when some converted record validates and
      constructs to it. */
  lemma {:induction false} KeptExactly(cs: seq<Record>, svc: Services, m: MovieHistoryItem)
    ensures m in Kept(cs, svc) <==>
      exists i :: 0 <= i < |cs| && svc.validate(cs[i]) && svc.construct(cs[i]) == Some(m)
  {
    if |cs| > 0 {
      var f := c => KeptOne(c, svc);
      assert MapSeq(cs, f) == [f(cs[0])] + MapSeq(cs[1..], f);
      FlattenAppend([f(cs[0])], MapSeq(cs[1..], f));
      assert Flatten([f(cs[0])]) == f(cs[0]) + Flatten([]);
      KeptExactly(cs[1..], svc, m);
      if exists i :: 0 <= i < |cs[1..]| && svc.validate(cs[1..][i]) && svc.construct(cs[1..][i]) == Some(m) {
        var i :| 0 <= i < |cs[1..]| && svc.validate(cs[1..][i]) && svc.construct(cs[1..][i]) == Some(m);
        assert cs[i + 1] == cs[1..][i];
      }
      if exists i :: 0 <= i < |cs| && svc.validate(cs[i]) && svc.construct(cs[i]) == Some(m) {
        var i :| 0 <= i < |cs| && svc.validate(cs[i]) && svc.construct(cs[i]) == Some(m);
        if i > 0 {
          assert cs[1..][i - 1] == cs[i];
        }
      }
    }
  }

  /** No record is dropped when every record validates and constructs, and
      the history then lists the constructed items in record order. */
  lemma {:induction false} KeptAll(cs: seq<Record>, svc: Services)
    requires forall i :: 0 <= i < |cs| ==> svc.validate(cs[i]) && svc.construct(cs[i]).Some?
    ensures |Kept(cs, svc)| == |cs|
    ensures forall i :: 0 <= i < |cs| ==> Kept(cs, svc)[i] == svc.construct(cs[i]).value
  {
    if |cs| > 0 {
      var f := c => KeptOne(c, svc);
      assert MapSeq(cs, f) == [f(cs[0])] + MapSeq(cs[1..], f);
      FlattenAppend([f(cs[0])], MapSeq(cs[1..], f));
      assert Flatten([f(cs[0])]) == f(cs[0]) + Flatten([]);
      KeptAll(cs[1..], svc);
      forall i | 1 <= i < |cs| ensures Kept(cs, svc)[i] == svc.construct(cs[i]).value {
        assert cs[1..][i - 1] == cs[i];
      }
    }
  }

  /** `_load_watch_history_from_content`: converts the whole batch, then walks
      the converted records in order, skipping each one that fails validation
      or construction. */
  method LoadWatchHistory(data: seq<Record>, svc: Services) returns (r: Result<seq<MovieHistoryItem>, string>)
    ensures r == LoadedHistory(data, svc)
    ensures r.Err? <==> svc.convertBatch(data).Err?
    ensures r.Ok? ==> |r.value| <= |svc.convertBatch(data).value|
  {
    var batch := svc.convertBatch(data);
    if batch.Err? {
      return Err(batch.error);
    }
    var converted := batch.value;
    var f := c => KeptOne(c, svc);
    var movies: seq<MovieHistoryItem> := [];
    var i := 0;
    while i < |converted|
      invariant 0 <= i <= |converted|
      invariant movies == Flatten(MapSeq(converted[..i], f))
      invariant |movies| <= i
    {
      var c := converted[i];
      ghost var before := movies;
      if svc.validate(c) {
        var item := svc.construct(c);
        if item.Some? {
          movies := movies + [item.value];
        }
      }
      assert movies == before + f(c);
      assert converted[..i + 1] == converted[..i] + [c];
      MapSeqAppend(converted[..i], [c], f);
      FlattenAppend(MapSeq(converted[..i], f), [f(c)]);
      assert MapSeq([c], f) == [f(c)];
      assert Flatten([f(c)]) == f(c) + Flatten([]);
      assert Flatten(MapSeq(converted[..i + 1], f)) == movies;
      i := i + 1;
    }
    assert converted[..i] == converted;
    r := Ok(movies);
  }

  // ----- preparing the high-rated part -----

  /** `[m for m in watch_history if m.rating > 4]` */
  function HighRated(history: seq<MovieHistoryItem>): (r: seq<MovieHistoryItem>)
    ensures IsSubsequence(r, history)
    ensures forall m :: m in r <==> m in history && m.rating > HighRatingThreshold
    ensures forall m :: multiset(r)[m] == if m.rating > HighRatingThreshold then multiset(history)[m] else 0
  {
    FilterCounts(history, (m: MovieHistoryItem) => m.rating > HighRatingThreshold);
    Filter(history, (m: MovieHistoryItem) => m.rating > HighRatingThreshold)
  }

  /** `m.description or ''` */
  function DescriptionText(m: MovieHistoryItem): string
  {
    if m.description.Some? then m.description.value else ""
  }

  /** An empty list joins to the empty string, as does the list of one empty
      string; this lets the embedding text be read as one join. */
  function OrBlank(xs: seq<string>): (r: seq<string>)
    ensures |r| >= 1 && Join(r, " ") == Join(xs, " ")
  {
    if |xs| == 0 then [""] else xs
  }

  /** The text embedded for one history item: title, description, the
      space-joined genres and the space-joined countries, one space apart.
      Read as a whole, it is a single space-join of all those fields. */
  function EmbeddingText(m: MovieHistoryItem): (t: string)
    ensures t == Join([m.title, DescriptionText(m)] + OrBlank(m.genres) + OrBlank(m.countries), " ")
  {
    var t := m.title + " " + DescriptionText(m) + " " + Join(m.genres, " ") + " " + Join(m.countries, " ");
    var g := OrBlank(m.genres);
    var c := OrBlank(m.countries);
    JoinAppend([m.title, DescriptionText(m)] + g, c, " ");
    JoinAppend([m.title, DescriptionText(m)], g, " ");
    assert Join([m.title, DescriptionText(m)], " ") == m.title + " " + DescriptionText(m) by {
      assert [m.title, DescriptionText(m)][1..] == [DescriptionText(m)];
    }
    t
  }

  /** Splitting an embedding text on spaces gives back the title, the
      description, the genres and the countries, when none of them contains
      a space. */
  lemma EmbeddingTextSplits(m: MovieHistoryItem)
    requires ' ' !in m.title && ' ' !in DescriptionText(m)
    requires forall g :: g in m.genres ==> ' ' !in g
    requires forall c :: c in m.countries ==> ' ' !in c
    ensures Split(EmbeddingText(m), ' ') ==
      [m.title, DescriptionText(m)] + OrBlank(m.genres) + OrBlank(m.countries)
  {
    var parts := [m.title, DescriptionText(m)] + OrBlank(m.genres) + OrBlank(m.countries);
    forall i | 0 <= i < |parts| ensures ' ' !in parts[i] {
      if i >= 2 + |OrBlank(m.genres)| {
        assert parts[i] in OrBlank(m.countries);
      } else if i >= 2 {
        assert parts[i] in OrBlank(m.genres);
      }
    }
    SplitJoin(parts, ' ');
  }

  /** `m.watched_at or "2023-01-01"`: a missing or empty date becomes the
      default, any other date is kept. */
  function WatchDate(m: MovieHistoryItem): (d: string)
    ensures d != ""
    ensures m.watchedAt.Some? && m.watchedAt.value != "" ==> d == m.watchedAt.value
    ensures m.watchedAt.None? || m.watchedAt.value == "" ==> d == DefaultWatchDate
  {
    if m.watchedAt.Some? && m.watchedAt.value != "" then m.watchedAt.value else DefaultWatchDate
  }

  /** `embeddings[i] if i < len(embeddings) else None` */
  function EmbeddingAt(embeddings: seq<Option<Embedding>>, i: nat): Option<Embedding>
  {
    if i < |embeddings| then embeddings[i] else None
  }

  /** The catalogue movie built from a history item. History items carry no
      id, so `getattr(m, "id", None)` is always `None`. */
  function ToMovie(m: MovieHistoryItem, e: Option<Embedding>): (mv: Movie)
    ensures mv.id.None? && mv.embedding == e
  {
    Movie(None, m.title, m.year, m.duration, m.genres, m.countries, m.description, e)
  }

  /** The history item a profile movie came from, given back its rating and
      watch date. */
  function ToHistoryItem(mv: Movie, rating: real, watchedAt: Option<string>): MovieHistoryItem
  {
    MovieHistoryItem(mv.title, rating, mv.year, mv.duration, mv.genres, mv.countries, mv.description, watchedAt)
  }

  /** Building the movie loses only the rating and the watch date. */
  lemma ToMovieRoundTrip(m: MovieHistoryItem, e: Option<Embedding>)
    ensures ToHistoryItem(ToMovie(m, e), m.rating, m.watchedAt) == m
  {
  }

  /** The arguments of the clustering call, for the high-rated items and the
      embeddings the embedder answered. */
  function Prepare(high: seq<MovieHistoryItem>, embeddings: seq<Option<Embedding>>): (ci: ClusterInput)
    ensures ci.embeddings == embeddings
    ensures |ci.ratings| == |ci.dates| == |ci.movies| == |high|
    ensures forall i :: 0 <= i < |high| ==>
      && ci.ratings[i] == high[i].rating
      && ci.dates[i] == WatchDate(high[i])
      && ToHistoryItem(ci.movies[i], ci.ratings[i], high[i].watchedAt) == high[i]
      && ci.movies[i].id.None?
      && ci.movies[i].embedding == EmbeddingAt(embeddings, i)
  {
    ClusterInput(
      embeddings,
      MapSeq(high, (m: MovieHistoryItem) => m.rating),
      MapSeq(high, WatchDate),
      seq(|high|, i requires 0 <= i < |high| => ToMovie(high[i], EmbeddingAt(embeddings, i))))
  }

  /** `_build_user_profile_from_history`: embed the texts of the high-rated
      items, cluster them, and keep the user id and the whole history. */
  function BuildProfile(userId: string, history: seq<MovieHistoryItem>, svc: Services): (r: Result<UserProfile, string>)
    ensures r.Ok? ==> r.value.userId == userId && r.value.movies == history
    ensures svc.embed(MapSeq(HighRated(history), EmbeddingText)).Err? ==> r.Err?
    ensures r.Ok? ==>
      var embeddings := svc.embed(MapSeq(HighRated(history), EmbeddingText)).value;
      svc.cluster(Prepare(HighRated(history), embeddings)) == Ok(r.value.clusters)
    ensures var e := svc.embed(MapSeq(HighRated(history), EmbeddingText));
      e.Err? ==> r == Err(e.error)
    ensures var e := svc.embed(MapSeq(HighRated(history), EmbeddingText));
      e.Ok? && svc.cluster(Prepare(HighRated(history), e.value)).Err? ==>
        r == Err(svc.cluster(Prepare(HighRated(history), e.value)).error)
    ensures var e := svc.embed(MapSeq(HighRated(history), EmbeddingText));
      e.Ok? && svc.cluster(Prepare(HighRated(history), e.value)).Ok? ==>
        r == Ok(UserProfile(userId, svc.cluster(Prepare(HighRated(history), e.value)).value, history))
  {
    var high := HighRated(history);
    var embeddings :- svc.embed(MapSeq(high, EmbeddingText));
    var clusters :- svc.cluster(Prepare(high, embeddings));
    Ok(UserProfile(userId, clusters, history))
  }

  /** Everything handed to the clusterer comes from items rated above 4, one
      entry per such item, and every movie with an index the embedder
      answered carries that embedding. */
  lemma ClusterInputIsHighRated(history: seq<MovieHistoryItem>, embeddings: seq<Option<Embedding>>)
    ensures var ci := Prepare(HighRated(history), embeddings);
      && |ci.ratings| == |HighRated(history)|
      && (forall i :: 0 <= i < |ci.ratings| ==> ci.ratings[i] > HighRatingThreshold)
      && (forall i :: 0 <= i < |ci.movies| && i < |embeddings| ==> ci.movies[i].embedding == embeddings[i])
      && (forall i :: |embeddings| <= i < |ci.movies| ==> ci.movies[i].embedding.None?)
  {
    var high := HighRated(history);
    forall i | 0 <= i < |high| ensures high[i].rating > HighRatingThreshold {
      assert high[i] in high;
    }
  }

  /** Items rated 4 or less never influence the clusters: two histories with
      the same high-rated items give the same clustering outcome. */
  lemma ClustersIgnoreLowRated(userId: string, h1: seq<MovieHistoryItem>, h2: seq<MovieHistoryItem>, svc: Services)
    requires HighRated(h1) == HighRated(h2)
    ensures BuildProfile(userId, h1, svc).Ok? == BuildProfile(userId, h2, svc).Ok?
    ensures BuildProfile(userId, h1, svc).Ok? ==>
      BuildProfile(userId, h1, svc).value.clusters == BuildProfile(userId, h2, svc).value.clusters
  {
  }

  /** A history without any item rated above 4 sends nothing to the embedder
      and empty ratings, dates and movies to the clusterer. */
  lemma NothingHighRated(history: seq<MovieHistoryItem>, embeddings: seq<Option<Embedding>>)
    requires forall i :: 0 <= i < |history| ==> history[i].rating <= HighRatingThreshold
    ensures MapSeq(HighRated(history), EmbeddingText) == []
    ensures Prepare(HighRated(history), embeddings) == ClusterInput(embeddings, [], [], [])
  {
  }

  // ----- creating and saving -----

  /** A "rating" that `sum()`, starting from 0, can add: a missing key
      (read as 0), a number or a bool. A string, None, a list or another
      object makes `+` raise `TypeError`. */
  predicate SummableRating(rec: Record)
  {
    "rating" !in rec || rec["rating"].VInt? || rec["rating"].VFloat? || rec["rating"].VBool?
  }

  predicate RatingsSummable(data: seq<Record>)
  {
    forall i :: 0 <= i < |data| ==> SummableRating(data[i])
  }

  /** A record whose rating is the string "8.5" stops profile creation,
      although field detection would read that rating as 8.5. */
  lemma StringRatingStops()
    ensures !RatingsSummable([map["title" := FieldDetection.VStr("X"), "rating" := FieldDetection.VStr("8.5")]])
  {
    var rec := map["title" := FieldDetection.VStr("X"), "rating" := FieldDetection.VStr("8.5")];
    assert "rating" in rec && rec["rating"] == FieldDetection.VStr("8.5");
    assert !SummableRating([rec][0]);
  }

  /** The error of the opening log call's average rating. */
  const RatingSumError := "TypeError: unsupported operand type(s) for +"

  /** `create_and_save_profile`: the opening log call averages the raw
      ratings, which raises before anything is loaded when some rating is not
      a number; then load, build, save, return. `saved` is the profile handed
      to the store, if the flow got that far; a failure of any collaborator is
      propagated. */
  method CreateAndSaveProfile(userId: string, data: seq<Record>, svc: Services)
    returns (r: Result<UserProfile, string>, saved: Option<UserProfile>)
    ensures !RatingsSummable(data) ==> r == Err(RatingSumError) && saved.None?
    ensures RatingsSummable(data) && LoadedHistory(data, svc).Err? ==> r == Err(LoadedHistory(data, svc).error) && saved.None?
    ensures RatingsSummable(data) && LoadedHistory(data, svc).Ok? && BuildProfile(userId, LoadedHistory(data, svc).value, svc).Err? ==>
      r == Err(BuildProfile(userId, LoadedHistory(data, svc).value, svc).error) && saved.None?
    ensures saved.Some? <==> RatingsSummable(data) && LoadedHistory(data, svc).Ok? && BuildProfile(userId, LoadedHistory(data, svc).value, svc).Ok?
    ensures saved.Some? ==> Ok(saved.value) == BuildProfile(userId, LoadedHistory(data, svc).value, svc)
    ensures saved.Some? ==> (svc.save(saved.value).Ok? <==> r == Ok(saved.value))
    ensures saved.Some? && svc.save(saved.value).Err? ==> r == Err(svc.save(saved.value).error)
    ensures r.Ok? ==> r.value.userId == userId && saved == Some(r.value)
  {
    if !RatingsSummable(data) {
      return Err(RatingSumError), None;
    }
    var history := LoadWatchHistory(data, svc);
    if history.Err? {
      return Err(history.error), None;
    }
    var profile := BuildProfile(userId, history.value, svc);
    if profile.Err? {
      return Err(profile.error), None;
    }
    saved := Some(profile.value);
    var stored := svc.save(profile.value);
    if stored.Err? {
      r := Err(stored.error);
    } else {
      r := Ok(profile.value);
    }
  }
}

=== FILE: visualization.dfy ===
/** The 2-D picture of a profile (backend/services/visualization_service.py):
    one point per cluster centroid and one per distinct movie whose embedding
    could be found, placed by a dimensionality reducer. The text of a movie,
    the embedding lookup (cache or embedder) and the three reducers are
    parameters. */
module Visualization {
  import opened Results
  import opened Seqs
  import opened Strings
  import opened Dedup
  import opened Averages
  import opened Entities

  datatype PointType = ClusterPoint | MoviePoint

  /** The movie details shown next to a movie point. Catalogue movies have
      no rating attribute, so `getattr(movie, "rating", None)` gives `None`. */
  datatype Meta = Meta(year: int, genres: seq<string>, rating: Option<real>, duration: int)

  datatype Point = Point(x: real, y: real, caption: string, kind: PointType, meta: Option<Meta>)

  datatype VizError =
    | RaggedMatrix            // numpy cannot stack rows of different lengths
    | UnknownMethod(name: string)
    | IndexError              // a coordinate with fewer than two entries, or a movie index out of range

  datatype Reducers = Reducers(
    tsne: seq<Vector> -> seq<Vector>,
    umap: seq<Vector> -> seq<Vector>,
    pca: seq<Vector> -> seq<Vector>)

  /** The lookup answers the embedding of a text, from the cache or from the
      embedder, or `None` when neither has one. */
  type Lookup = string -> Option<Embedding>

  // ----- unique movies -----

  /** `getattr(cluster, "movies", []) or []` for every cluster: a missing or
      `None` movie list is `None` here. */
  function MovieLists(profile: UserProfile): seq<Option<seq<Movie>>>
  {
    MapSeq(profile.clusters, (c: Cluster) => Some(c.movies))
  }

  function OrEmpty(l: Option<seq<Movie>>): seq<Movie>
  {
    if l.Some? then l.value else []
  }

  function Title(m: Movie): string
  {
    m.title
  }

  /** Every movie of every cluster, in cluster order. */
  function AllMovies(lists: seq<Option<seq<Movie>>>): seq<Movie>
  {
    Flatten(MapSeq(lists, OrEmpty))
  }

  /** `_extract_unique_movies`: the first movie with each title, in the order
      titles first appear across the clusters. */
  function UniqueMovies(lists: seq<Option<seq<Movie>>>): (r: seq<Movie>)
    ensures NoDuplicates(KeySeq(r, Title))
    ensures forall m :: m in AllMovies(lists) ==> m.title in KeySeq(r, Title)
    ensures IsFirstOccurrences(r, AllMovies(lists), Title)
  {
    DistinctByCorrect(AllMovies(lists), Title);
    DistinctBy(AllMovies(lists), Title)
  }

  /** A `None` movie list contributes exactly what an empty one does. */
  lemma NoneListIsEmpty(before: seq<Option<seq<Movie>>>, after: seq<Option<seq<Movie>>>)
    ensures UniqueMovies(before + [None] + after) == UniqueMovies(before + [Some([])] + after)
  {
    var x := before + [None] + after;
    var y := before + [Some([])] + after;
    assert MapSeq(x, OrEmpty) == MapSeq(y, OrEmpty) by {
      forall i | 0 <= i < |x| ensures OrEmpty(x[i]) == OrEmpty(y[i]) {
        if i != |before| {
          assert x[i] == y[i];
        }
      }
    }
    assert AllMovies(x) == AllMovies(y);
  }

  // ----- embeddings of the unique movies -----

  predicate Found(p: (Movie, Option<Embedding>))
  {
    p.1.Some?
  }

  /** `zip(movies, embeddings)`: pairs up to the shorter length. */
  function Zip(movies: seq<Movie>, es: seq<Option<Embedding>>): (r: seq<(Movie, Option<Embedding>)>)
    ensures |r| == if |movies| < |es| then |movies| else |es|
    ensures forall i :: 0 <= i < |r| ==> r[i] == (movies[i], es[i])
  {
    var n := if |movies| < |es| then |movies| else |es|;
    seq(n, i requires 0 <= i < n => (movies[i], es[i]))
  }

  function Present(es: seq<Option<Embedding>>): (r: seq<Embedding>)
    ensures |r| <= |es|
    ensures forall e :: e in r <==> Some(e) in es
  {
    if |es| == 0 then []
    else if es[0].Some? then [es[0].value] + Present(es[1..])
    else Present(es[1..])
  }

  function PairTitle(p: (Movie, Option<Embedding>)): string
  {
    p.0.title
  }

  function PairMovie(p: (Movie, Option<Embedding>)): Movie
  {
    p.0
  }

  /** The pairs whose embedding was found, in order. */
  function FoundPairs(movies: seq<Movie>, es: seq<Option<Embedding>>): seq<(Movie, Option<Embedding>)>
  {
    Filter(Zip(movies, es), Found)
  }

  /** `_get_movie_embeddings`: the embeddings that were found and the titles
      of their movies; empty texts give two empty lists. */
  function MovieEmbeddings(texts: seq<string>, movies: seq<Movie>, lookup: Lookup): (r: (seq<Embedding>, seq<string>))
    ensures |texts| == 0 ==> r == ([], [])
    ensures |texts| == |movies| ==> |r.0| == |r.1|
    ensures |r.1| <= |movies|
    ensures forall e :: e in r.0 <==> exists i :: 0 <= i < |texts| && lookup(texts[i]) == Some(e)
  {
    var es := MapSeq(texts, lookup);
    LookedUp(texts, lookup);
    FoundPairsCount(movies, es);
    if |texts| == 0 then ([], [])
    else (Present(es), MapSeq(FoundPairs(movies, es), PairTitle))
  }

  /** `ks` lists, in increasing order, exactly the positions of `texts`
      whose lookup succeeded. */
  predicate FoundPositions(ks: seq<nat>, texts: seq<string>, lookup: Lookup)
  {
    && (forall j :: 0 <= j < |ks| ==> ks[j] < |texts| && lookup(texts[ks[j]]).Some?)
    && (forall j1, j2 :: 0 <= j1 < j2 < |ks| ==> ks[j1] < ks[j2])
    && (forall i :: 0 <= i < |texts| && lookup(texts[i]).Some? ==> i in ks)
  }

  /** The positions of the found embeddings in `es`, counted from `off`. */
  function FoundFrom(es: seq<Option<Embedding>>, off: nat): seq<nat>
  {
    if |es| == 0 then []
    else (if es[0].Some? then [off] else []) + FoundFrom(es[1..], off + 1)
  }

  /** Position list `ks` (counted from `off`) and `pr` line up: the j-th
      element of `pr` is the embedding found at `ks[j]`. */
  predicate PresentAt(ks: seq<nat>, pr: seq<Embedding>, es: seq<Option<Embedding>>, off: nat)
  {
    && |ks| == |pr|
    && forall j :: 0 <= j < |ks| ==>
         (off <= ks[j] < off + |es| && es[ks[j] - off].Some? && pr[j] == es[ks[j] - off].value)
  }

  /** The found positions are in range, name found embeddings, and line up
      with `Present`. */
  lemma {:induction false} FoundFromPresent(es: seq<Option<Embedding>>, off: nat)
    ensures PresentAt(FoundFrom(es, off), Present(es), es, off)
  {
    if |es| > 0 {
      FoundFromPresent(es[1..], off + 1);
      ShiftPresent(es, FoundFrom(es, off), if es[0].Some? then [off] else [], FoundFrom(es[1..], off + 1),
                   Present(es), if es[0].Some? then [es[0].value] else [], Present(es[1..]), off);
    }
  }

  /** One step of `FoundFromPresent`. */
  lemma ShiftPresent(es: seq<Option<Embedding>>, ks: seq<nat>, kh: seq<nat>, rest: seq<nat>,
                     pr: seq<Embedding>, ph: seq<Embedding>, tail: seq<Embedding>, off: nat)
    requires |es| > 0 && |kh| == |ph| <= 1
    requires ks == kh + rest && pr == ph + tail
    requires |kh| == 1 ==> kh[0] == off && es[0].Some? && ph[0] == es[0].value
    requires PresentAt(rest, tail, es[1..], off + 1)
    ensures PresentAt(ks, pr, es, off)
  {
    forall j | 0 <= j < |ks| ensures off <= ks[j] < off + |es| && es[ks[j] - off].Some? && pr[j] == es[ks[j] - off].value {
      if j >= |kh| {
        assert ks[j] == rest[j - |kh|] && pr[j] == tail[j - |kh|];
      }
    }
  }

  /** The found positions increase strictly. */
  lemma {:induction false} FoundFromSorted(es: seq<Option<Embedding>>, off: nat)
    ensures forall j :: 0 <= j < |FoundFrom(es, off)| ==> off <= FoundFrom(es, off)[j]
    ensures forall j1, j2 :: 0 <= j1 < j2 < |FoundFrom(es, off)| ==> FoundFrom(es, off)[j1] < FoundFrom(es, off)[j2]
  {
    if |es| > 0 {
      FoundFromSorted(es[1..], off + 1);
    }
  }

  /** Every found embedding's position is listed. */
  lemma {:induction false} FoundFromComplete(es: seq<Option<Embedding>>, off: nat)
    ensures forall i :: 0 <= i < |es| && es[i].Some? ==> off + i in FoundFrom(es, off)
  {
    if |es| > 0 {
      var rest := FoundFrom(es[1..], off + 1);
      FoundFromComplete(es[1..], off + 1);
      assert FoundFrom(es, off) == (if es[0].Some? then [off] else []) + rest;
      forall i | 0 <= i < |es| && es[i].Some? ensures off + i in FoundFrom(es, off) {
        if i > 0 {
          assert es[1..][i - 1].Some?;
          assert off + 1 + (i - 1) in rest;
        }
      }
    }
  }

  /** Position list `ks` (counted from `off`) and pairs `fp` line up: the
      j-th pair holds the movie at `ks[j]`. */
  predicate PairsAt(ks: seq<nat>, fp: seq<(Movie, Option<Embedding>)>, movies: seq<Movie>, off: nat)
  {
    && |ks| == |fp|
    && forall j :: 0 <= j < |ks| ==> (off <= ks[j] < off + |movies| && fp[j].0 == movies[ks[j] - off])
  }

  /** The j-th found pair holds the movie at the j-th found position. */
  lemma {:induction false} FoundFromPairs(movies: seq<Movie>, es: seq<Option<Embedding>>, off: nat)
    requires |movies| == |es|
    ensures PairsAt(FoundFrom(es, off), FoundPairs(movies, es), movies, off)
  {
    if |es| > 0 {
      FoundFromPairs(movies[1..], es[1..], off + 1);
      var h := if es[0].Some? then [(movies[0], es[0])] else [];
      FoundPairsStep(movies, es);
      ShiftPairs(movies, FoundFrom(es, off), if es[0].Some? then [off] else [], FoundFrom(es[1..], off + 1),
                 FoundPairs(movies, es), h, FoundPairs(movies[1..], es[1..]), off);
    }
  }

  /** Unfolding `FoundPairs` once. */
  lemma FoundPairsStep(movies: seq<Movie>, es: seq<Option<Embedding>>)
    requires |movies| == |es| > 0
    ensures FoundPairs(movies, es) ==
      (if es[0].Some? then [(movies[0], es[0])] else []) + FoundPairs(movies[1..], es[1..])
  {
    assert Zip(movies, es) == [(movies[0], es[0])] + Zip(movies[1..], es[1..]);
    assert Zip(movies, es)[1..] == Zip(movies[1..], es[1..]);
  }

  /** One step of `FoundFromPairs`: prepending the head position (when it was
      found) keeps positions and pairs aligned. */
  lemma ShiftPairs(movies: seq<Movie>, ks: seq<nat>, kh: seq<nat>, rest: seq<nat>,
                   fp: seq<(Movie, Option<Embedding>)>, fh: seq<(Movie, Option<Embedding>)>,
                   tail: seq<(Movie, Option<Embedding>)>, off: nat)
    requires |movies| > 0 && |kh| == |fh| <= 1 && |rest| == |tail|
    requires ks == kh + rest && fp == fh + tail
    requires |kh| == 1 ==> kh[0] == off && fh[0].0 == movies[0]
    requires PairsAt(rest, tail, movies[1..], off + 1)
    ensures PairsAt(ks, fp, movies, off)
  {
    forall j | 0 <= j < |ks| ensures off <= ks[j] < off + |movies| && fp[j].0 == movies[ks[j] - off] {
      if j >= |kh| {
        assert ks[j] == rest[j - |kh|] && fp[j] == tail[j - |kh|];
      }
    }
  }

  /** `MovieEmbeddings` pairs each found embedding with the title of its own
      movie: there is an increasing list `ks` of exactly the positions whose
      lookup succeeded, and the j-th embedding and the j-th title both come
      from position `ks[j]`. */
  lemma EmbeddingsPaired(texts: seq<string>, movies: seq<Movie>, lookup: Lookup)
    requires |texts| == |movies|
    ensures var r := MovieEmbeddings(texts, movies, lookup);
      exists ks :: (FoundPositions(ks, texts, lookup) && |ks| == |r.0| == |r.1| &&
        forall j :: 0 <= j < |ks| ==> (r.0[j] == lookup(texts[ks[j]]).value && r.1[j] == movies[ks[j]].title))
  {
    var es := MapSeq(texts, lookup);
    var r := MovieEmbeddings(texts, movies, lookup);
    var ks := FoundFrom(es, 0);
    FoundFromPresent(es, 0);
    FoundFromPairs(movies, es, 0);
    FoundFromPositions(texts, lookup);
    if |texts| == 0 {
      assert ks == [] && r == ([], []);
    } else {
      assert r == (Present(es), MapSeq(FoundPairs(movies, es), PairTitle));
    }
    AlignedTitles(texts, movies, lookup, ks, r.0, r.1, if |texts| == 0 then [] else FoundPairs(movies, es));
  }

  /** `FoundFrom` lists exactly the positions whose lookup succeeded. */
  lemma FoundFromPositions(texts: seq<string>, lookup: Lookup)
    ensures FoundPositions(FoundFrom(MapSeq(texts, lookup), 0), texts, lookup)
  {
    var es := MapSeq(texts, lookup);
    var ks := FoundFrom(es, 0);
    FoundFromPresent(es, 0);
    FoundFromSorted(es, 0);
    FoundFromComplete(es, 0);
    assert forall j :: 0 <= j < |ks| ==> ks[j] < |es| && es[ks[j]].Some?;
    assert forall i :: 0 <= i < |es| && es[i].Some? ==> i in ks;
    PositionsOfFound(texts, lookup, es, ks);
  }

  lemma PositionsOfFound(texts: seq<string>, lookup: Lookup, es: seq<Option<Embedding>>, ks: seq<nat>)
    requires |es| == |texts| && forall i :: 0 <= i < |texts| ==> es[i] == lookup(texts[i])
    requires forall j :: 0 <= j < |ks| ==> ks[j] < |es| && es[ks[j]].Some?
    requires forall j1, j2 :: 0 <= j1 < j2 < |ks| ==> ks[j1] < ks[j2]
    requires forall i :: 0 <= i < |es| && es[i].Some? ==> i in ks
    ensures FoundPositions(ks, texts, lookup)
  {
    forall i | 0 <= i < |texts| && lookup(texts[i]).Some? ensures i in ks {
      assert es[i].Some?;
    }
  }

  /** Embeddings and pairs aligned with the same positions give each title
      its own movie's embedding. */
  lemma AlignedTitles(texts: seq<string>, movies: seq<Movie>, lookup: Lookup, ks: seq<nat>,
                      r0: seq<Embedding>, r1: seq<string>, fp: seq<(Movie, Option<Embedding>)>)
    requires |texts| == |movies|
    requires PresentAt(ks, r0, MapSeq(texts, lookup), 0)
    requires PairsAt(ks, fp, movies, 0) && r1 == MapSeq(fp, PairTitle)
    ensures |ks| == |r0| == |r1|
    ensures forall j :: 0 <= j < |ks| ==> (r0[j] == lookup(texts[ks[j]]).value && r1[j] == movies[ks[j]].title)
  {
    var es := MapSeq(texts, lookup);
    forall j | 0 <= j < |ks| ensures r0[j] == lookup(texts[ks[j]]).value && r1[j] == movies[ks[j]].title {
      assert es[ks[j]] == lookup(texts[ks[j]]);
      assert r1[j] == fp[j].0.title;
    }
  }

  lemma LookedUp(texts: seq<string>, lookup: Lookup)
    ensures forall e :: Some(e) in MapSeq(texts, lookup) <==> exists i :: 0 <= i < |texts| && lookup(texts[i]) == Some(e)
  {
    var es := MapSeq(texts, lookup);
    forall e | Some(e) in es ensures exists i :: 0 <= i < |texts| && lookup(texts[i]) == Some(e) {
      var i :| 0 <= i < |es| && es[i] == Some(e);
    }
  }

  lemma {:induction false} FoundPairsCount(movies: seq<Movie>, es: seq<Option<Embedding>>)
    ensures |movies| == |es| ==> |FoundPairs(movies, es)| == |Present(es)|
  {
    if |movies| == |es| && |es| > 0 {
      FoundPairsCount(movies[1..], es[1..]);
      assert Zip(movies, es) == [(movies[0], es[0])] + Zip(movies[1..], es[1..]);
    }
  }

  /** The movies whose embedding was found, in order: the list the point
      metadata has to be drawn from for labels and details to agree. */
  function EmbeddedMovies(texts: seq<string>, movies: seq<Movie>, lookup: Lookup): (r: seq<Movie>)
    ensures |texts| == |movies| ==> |r| == |MovieEmbeddings(texts, movies, lookup).1|
    ensures |texts| > 0 ==> forall i :: 0 <= i < |r| && i < |MovieEmbeddings(texts, movies, lookup).1| ==>
      MovieEmbeddings(texts, movies, lookup).1[i] == r[i].title
  {
    if |texts| == 0 then []
    else MapSeq(FoundPairs(movies, MapSeq(texts, lookup)), PairMovie)
  }

  /** When every text has an embedding, no movie is dropped; when none has,
      nothing is left. */
  lemma MovieEmbeddingsExtremes(texts: seq<string>, movies: seq<Movie>, lookup: Lookup)
    requires |texts| == |movies|
    ensures (forall i :: 0 <= i < |texts| ==> lookup(texts[i]).Some?) ==>
      MovieEmbeddings(texts, movies, lookup).1 == MapSeq(movies, Title)
    ensures (forall i :: 0 <= i < |texts| ==> lookup(texts[i]).None?) ==>
      MovieEmbeddings(texts, movies, lookup) == ([], [])
  {
    var es := MapSeq(texts, lookup);
    if forall i :: 0 <= i < |texts| ==> lookup(texts[i]).Some? {
      FilterKeepsAll(Zip(movies, es), Found);
    }
    if forall i :: 0 <= i < |texts| ==> lookup(texts[i]).None? {
      var present := Present(es);
      assert |present| == 0 || present[0] in present;
      var found := FoundPairs(movies, es);
      assert |found| == 0 || found[0] in found;
    }
  }

  // ----- labels, types and the matrix -----

  /** "Cluster 1" .. "Cluster k" */
  function ClusterLabels(k: nat): (r: seq<string>)
    ensures |r| == k && forall i :: 0 <= i < k ==> r[i] == "Cluster " + NatToString(i + 1)
  {
    seq(k, i requires 0 <= i < k => "Cluster " + NatToString(i + 1))
  }

  /** Distinct clusters get distinct labels. */
  lemma ClusterLabelsDistinct(k: nat)
    ensures NoDuplicates(ClusterLabels(k))
  {
    forall i, j | 0 <= i < j < k ensures ClusterLabels(k)[i] != ClusterLabels(k)[j] {
      if ClusterLabels(k)[i] == ClusterLabels(k)[j] {
        assert ClusterLabels(k)[i][8..] == NatToString(i + 1);
        assert ClusterLabels(k)[j][8..] == NatToString(j + 1);
        IntToStringInjective(i + 1, j + 1);
      }
    }
  }

  /** `["cluster"] * k + ["movie"] * m` */
  function PointTypes(k: nat, m: nat): (r: seq<PointType>)
    ensures |r| == k + m
    ensures forall i :: 0 <= i < k + m ==> (r[i] == ClusterPoint <==> i < k)
  {
    seq(k, _ => ClusterPoint) + seq(m, _ => MoviePoint)
  }

  function Vectors(es: seq<Embedding>): (r: seq<Vector>)
    ensures |r| == |es| && forall i :: 0 <= i < |es| ==> r[i] == es[i].vector
  {
    MapSeq(es, (e: Embedding) => e.vector)
  }

  predicate RowsAgree(rows: seq<Vector>)
  {
    |rows| == 0 || Rectangular(rows, |rows[0]|)
  }

  /** `_stack_centroids_and_embeddings`: the centroids alone when there are
      no embeddings, otherwise the centroids followed by the embedding
      vectors. numpy refuses rows of different lengths, and stacking a
      non-empty matrix under an empty centroid array. */
  function Stack(centroids: seq<Vector>, es: seq<Embedding>): (r: Result<seq<Vector>, VizError>)
    ensures |es| == 0 ==> r == (if RowsAgree(centroids) then Ok(centroids) else Err(RaggedMatrix))
    ensures |es| > 0 ==> (r.Ok? <==> |centroids| > 0 && RowsAgree(centroids + Vectors(es)))
    ensures r.Ok? ==>
      && |r.value| == |centroids| + |es|
      && r.value[..|centroids|] == centroids && r.value[|centroids|..] == Vectors(es)
  {
    if |es| == 0 then
      if RowsAgree(centroids) then Ok(centroids) else Err(RaggedMatrix)
    else if |centroids| == 0 || !RowsAgree(centroids + Vectors(es)) then Err(RaggedMatrix)
    else Ok(centroids + Vectors(es))
  }

  /** `_reduce_dimensions`: fewer than three rows are returned unchanged
      whatever the method; otherwise the named reducer, and an unknown name
      is an error. */
  function Reduce(rows: seq<Vector>, technique: string, reducers: Reducers): (r: Result<seq<Vector>, VizError>)
    ensures |rows| < 3 ==> r == Ok(rows)
    ensures |rows| >= 3 ==> (r.Err? <==> technique !in {"tsne", "umap", "pca"})
    ensures r.Err? ==> r.error == UnknownMethod(technique)
  {
    if |rows| < 3 then Ok(rows)
    else if technique == "tsne" then Ok(reducers.tsne(rows))
    else if technique == "umap" then Ok(reducers.umap(rows))
    else if technique == "pca" then Ok(reducers.pca(rows))
    else Err(UnknownMethod(technique))
  }

  // ----- points -----

  /** Python's `movies[j]`, negative indices counting from the end. */
  function PyIndex(movies: seq<Movie>, j: int): (r: Option<Movie>)
    ensures 0 <= j < |movies| ==> r == Some(movies[j])
    ensures -|movies| <= j < 0 ==> r == Some(movies[|movies| + j])
    ensures r.None? <==> !(-|movies| <= j < |movies|)
  {
    if 0 <= j < |movies| then Some(movies[j])
    else if -|movies| <= j < 0 then Some(movies[|movies| + j])
    else None
  }

  function MetaOf(m: Movie): Meta
  {
    Meta(m.year, m.genres, None, m.duration)
  }

  function Min3(a: nat, b: nat, c: nat): nat
  {
    if a <= b && a <= c then a else if b <= c then b else c
  }

  /** One point per zipped (coordinate, label, type); a movie point takes its
      details from `movies[i - k]`. */
  function PointAt(coords: seq<Vector>, labels: seq<string>, types: seq<PointType>, movies: seq<Movie>, k: nat, i: nat): (r: Result<Point, VizError>)
    requires i < |coords| && i < |labels| && i < |types|
    ensures r.Ok? ==>
      && |coords[i]| >= 2
      && r.value.caption == labels[i] && r.value.kind == types[i]
      && r.value.x == coords[i][0] && r.value.y == coords[i][1]
      && (types[i] == ClusterPoint ==> r.value.meta.None?)
      && (types[i] == MoviePoint ==> PyIndex(movies, i - k).Some? && r.value.meta == Some(MetaOf(PyIndex(movies, i - k).value)))
    ensures r.Err? <==> |coords[i]| < 2 || (types[i] == MoviePoint && PyIndex(movies, i - k).None?)
  {
    if |coords[i]| < 2 then Err(IndexError)
    else if types[i] == ClusterPoint then Ok(Point(coords[i][0], coords[i][1], labels[i], ClusterPoint, None))
    else
      assert types[i] == MoviePoint;
      var m := PyIndex(movies, i - k);
      if m.None? then Err(IndexError)
      else Ok(Point(coords[i][0], coords[i][1], labels[i], MoviePoint, Some(MetaOf(m.value))))
  }

  function PointsFrom(coords: seq<Vector>, labels: seq<string>, types: seq<PointType>, movies: seq<Movie>, k: nat, i: nat): (r: Result<seq<Point>, VizError>)
    requires i <= Min3(|coords|, |labels|, |types|)
    ensures r.Ok? ==>
      && |r.value| == Min3(|coords|, |labels|, |types|) - i
      && forall j :: 0 <= j < |r.value| ==> Ok(r.value[j]) == PointAt(coords, labels, types, movies, k, i + j)
    ensures r.Err? <==> exists j :: i <= j < Min3(|coords|, |labels|, |types|) && PointAt(coords, labels, types, movies, k, j).Err?
    decreases Min3(|coords|, |labels|, |types|) - i
  {
    if i == Min3(|coords|, |labels|, |types|) then Ok([])
    else
      var p :- PointAt(coords, labels, types, movies, k, i);
      var rest :- PointsFrom(coords, labels, types, movies, k, i + 1);
      Ok([p] + rest)
  }

  /** `_build_points_data`: one point per index that coordinates, labels and
      types all have, each captioned and typed by its label and type; a movie
      point shows the details of `movies[i - k]`. */
  function BuildPoints(coords: seq<Vector>, labels: seq<string>, types: seq<PointType>, movies: seq<Movie>, k: nat): (r: Result<seq<Point>, VizError>)
    ensures r.Ok? ==> |r.value| == Min3(|coords|, |labels|, |types|)
    ensures r.Ok? ==> forall i :: 0 <= i < |r.value| ==>
      && r.value[i].caption == labels[i] && r.value[i].kind == types[i]
      && (types[i] == ClusterPoint ==> r.value[i].meta.None?)
      && (types[i] == MoviePoint ==> PyIndex(movies, i - k).Some? && r.value[i].meta == Some(MetaOf(PyIndex(movies, i - k).value)))
    ensures r.Err? <==> exists i :: 0 <= i < Min3(|coords|, |labels|, |types|) && PointAt(coords, labels, types, movies, k, i).Err?
  {
    var r := PointsFrom(coords, labels, types, movies, k, 0);
    assert r.Ok? ==> forall i :: 0 <= i < |r.value| ==> Ok(r.value[i]) == PointAt(coords, labels, types, movies, k, i);
    r
  }

  // ----- the whole picture -----

  /** The tail shared by both pictures: stack, reduce, and build the points
      with cluster labels first and movie details drawn from `details`. */
  function Assemble(centroids: seq<Vector>, es: seq<Embedding>, titles: seq<string>, details: seq<Movie>, technique: string, reducers: Reducers): (r: Result<seq<Point>, VizError>)
    ensures r.Ok? ==> |r.value| <= |centroids| + |titles|
    ensures r.Ok? ==> forall i :: 0 <= i < |r.value| ==> (r.value[i].kind == ClusterPoint <==> i < |centroids|)
    ensures r.Ok? ==> forall i :: 0 <= i < |r.value| && i < |centroids| ==>
      r.value[i].caption == "Cluster " + NatToString(i + 1) && r.value[i].meta.None?
  {
    var rows :- Stack(centroids, es);
    var coords :- Reduce(rows, technique, reducers);
    BuildPoints(coords, ClusterLabels(|centroids|) + titles, PointTypes(|centroids|, |es|), details, |centroids|)
  }

  /** `get_user_profile_visualization` as written: movie details are looked
      up in the list of all unique movies, including those whose embedding
      was not found. */
  function VisualizeAsWritten(profile: UserProfile, technique: string, textOf: Movie -> string, lookup: Lookup, reducers: Reducers): (r: Result<seq<Point>, VizError>)
    ensures r.Ok? ==> |r.value| <= |profile.clusters| + |UniqueMovies(MovieLists(profile))|
    ensures r.Ok? ==> forall i :: 0 <= i < |r.value| ==> (r.value[i].kind == ClusterPoint <==> i < |profile.clusters|)
    ensures r.Ok? ==> forall i :: 0 <= i < |r.value| && i < |profile.clusters| ==>
      r.value[i].caption == "Cluster " + NatToString(i + 1) && r.value[i].meta.None?
  {
    var movies := UniqueMovies(MovieLists(profile));
    var texts := MapSeq(movies, textOf);
    var (es, titles) := MovieEmbeddings(texts, movies, lookup);
    var centroids := MapSeq(profile.clusters, (c: Cluster) => c.centroid.vector);
    Assemble(centroids, es, titles, movies, technique, reducers)
  }

  /** The same picture with movie details drawn from the movies whose
      embedding was found, the list the titles come from. */
  function Visualize(profile: UserProfile, technique: string, textOf: Movie -> string, lookup: Lookup, reducers: Reducers): (r: Result<seq<Point>, VizError>)
    ensures r.Ok? ==> |r.value| <= |profile.clusters| + |UniqueMovies(MovieLists(profile))|
    ensures r.Ok? ==> forall i :: 0 <= i < |r.value| ==> (r.value[i].kind == ClusterPoint <==> i < |profile.clusters|)
    ensures r.Ok? ==> forall i :: 0 <= i < |r.value| && i < |profile.clusters| ==>
      r.value[i].caption == "Cluster " + NatToString(i + 1) && r.value[i].meta.None?
  {
    var movies := UniqueMovies(MovieLists(profile));
    var texts := MapSeq(movies, textOf);
    var (es, titles) := MovieEmbeddings(texts, movies, lookup);
    var centroids := MapSeq(profile.clusters, (c: Cluster) => c.centroid.vector);
    Assemble(centroids, es, titles, EmbeddedMovies(texts, movies, lookup), technique, reducers)
  }

  /** Past the cluster labels come the movie titles, in order. */
  lemma LabelOfMovie(k: nat, titles: seq<string>, j: nat)
    requires j < |titles|
    ensures (ClusterLabels(k) + titles)[k + j] == titles[j]
  {
  }

  /** Points built from cluster labels followed by `titles`, with details
      drawn from `kept` whose titles are `titles`: cluster points carry no
      details, and each movie point shows the details of a kept movie with
      its caption as title. */
  lemma PointsShowKept(coords: seq<Vector>, titles: seq<string>, kept: seq<Movie>, k: nat)
    requires |kept| == |titles|
    requires forall j :: 0 <= j < |titles| ==> titles[j] == kept[j].title
    requires BuildPoints(coords, ClusterLabels(k) + titles, PointTypes(k, |titles|), kept, k).Ok?
    ensures var ps := BuildPoints(coords, ClusterLabels(k) + titles, PointTypes(k, |titles|), kept, k).value;
      forall i :: 0 <= i < |ps| ==>
        if ps[i].kind == ClusterPoint then ps[i].meta.None? && i < k
        else exists j :: 0 <= j < |kept| && ps[i].caption == kept[j].title && ps[i].meta == Some(MetaOf(kept[j]))
  {
    var labels := ClusterLabels(k) + titles;
    var types := PointTypes(k, |titles|);
    var ps := BuildPoints(coords, labels, types, kept, k).value;
    KeptPointsShowKept(ps, labels, types, titles, kept, k);
  }

  lemma KeptPointsShowKept(ps: seq<Point>, labels: seq<string>, types: seq<PointType>, titles: seq<string>, kept: seq<Movie>, k: nat)
    requires |kept| == |titles| && labels == ClusterLabels(k) + titles && types == PointTypes(k, |titles|)
    requires forall j :: 0 <= j < |titles| ==> titles[j] == kept[j].title
    requires |ps| <= |types|
    requires forall i :: 0 <= i < |ps| ==>
      && ps[i].caption == labels[i] && ps[i].kind == types[i]
      && (types[i] == ClusterPoint ==> ps[i].meta.None?)
      && (types[i] == MoviePoint ==> PyIndex(kept, i - k).Some? && ps[i].meta == Some(MetaOf(PyIndex(kept, i - k).value)))
    ensures forall i :: 0 <= i < |ps| ==>
      if ps[i].kind == ClusterPoint then ps[i].meta.None? && i < k
      else exists j :: 0 <= j < |kept| && ps[i].caption == kept[j].title && ps[i].meta == Some(MetaOf(kept[j]))
  {
    forall i | 0 <= i < |ps|
      ensures if ps[i].kind == ClusterPoint then ps[i].meta.None? && i < k
        else exists j :: 0 <= j < |kept| && ps[i].caption == kept[j].title && ps[i].meta == Some(MetaOf(kept[j]))
    {
      if ps[i].kind == MoviePoint {
        var j := i - k;
        assert 0 <= j < |kept|;
        assert labels[i] == titles[j] by { LabelOfMovie(k, titles, j); }
        assert PyIndex(kept, j) == Some(kept[j]);
      }
    }
  }


  /** The movies whose embedding was found are unique movies. */
  lemma EmbeddedAreListed(texts: seq<string>, movies: seq<Movie>, lookup: Lookup)
    ensures forall m :: m in EmbeddedMovies(texts, movies, lookup) ==> m in movies
  {
    if |texts| > 0 {
      var fp := FoundPairs(movies, MapSeq(texts, lookup));
      var z := Zip(movies, MapSeq(texts, lookup));
      forall m | m in EmbeddedMovies(texts, movies, lookup) ensures m in movies {
        var j :| 0 <= j < |fp| && fp[j].0 == m;
        assert fp[j] in z;
        var q :| 0 <= q < |z| && z[q] == fp[j];
      }
    }
  }

  /** The shared tail, given details aligned with the titles: cluster points
      come first and carry no details, and each movie point shows the
      details of a movie with its caption as title. */
  lemma AssembleShowsKept(centroids: seq<Vector>, es: seq<Embedding>, titles: seq<string>, kept: seq<Movie>, technique: string, reducers: Reducers)
    requires |kept| == |titles| == |es|
    requires forall j :: 0 <= j < |titles| ==> titles[j] == kept[j].title
    requires Assemble(centroids, es, titles, kept, technique, reducers).Ok?
    ensures var ps := Assemble(centroids, es, titles, kept, technique, reducers).value;
      forall i :: 0 <= i < |ps| ==>
        if ps[i].kind == ClusterPoint then ps[i].meta.None? && i < |centroids|
        else exists j :: 0 <= j < |kept| && ps[i].caption == kept[j].title && ps[i].meta == Some(MetaOf(kept[j]))
  {
    var rows := Stack(centroids, es).value;
    var coords := Reduce(rows, technique, reducers).value;
    PointsShowKept(coords, titles, kept, |centroids|);
  }

  /** In the corrected picture every movie point shows the details of the
      movie its label names: some unique movie with that title. Cluster
      points carry no details. */
  lemma PointsAligned(profile: UserProfile, technique: string, textOf: Movie -> string, lookup: Lookup, reducers: Reducers)
    requires Visualize(profile, technique, textOf, lookup, reducers).Ok?
    ensures var ps := Visualize(profile, technique, textOf, lookup, reducers).value;
      forall i :: 0 <= i < |ps| ==>
        if ps[i].kind == ClusterPoint then ps[i].meta.None? && i < |profile.clusters|
        else exists m :: m in UniqueMovies(MovieLists(profile)) && ps[i].caption == m.title && ps[i].meta == Some(MetaOf(m))
  {
    var movies := UniqueMovies(MovieLists(profile));
    var texts := MapSeq(movies, textOf);
    var (es, titles) := MovieEmbeddings(texts, movies, lookup);
    var kept := EmbeddedMovies(texts, movies, lookup);
    var centroids := MapSeq(profile.clusters, (c: Cluster) => c.centroid.vector);
    assert |kept| == |titles| == |es|;
    assert forall j :: 0 <= j < |titles| ==> titles[j] == kept[j].title;
    assert Visualize(profile, technique, textOf, lookup, reducers) == Assemble(centroids, es, titles, kept, technique, reducers);
    AssembleShowsKept(centroids, es, titles, kept, technique, reducers);
    EmbeddedAreListed(texts, movies, lookup);
    KeptAreListed(Assemble(centroids, es, titles, kept, technique, reducers).value, kept, movies, |centroids|);
  }

  lemma KeptAreListed(ps: seq<Point>, kept: seq<Movie>, movies: seq<Movie>, k: nat)
    requires forall m :: m in kept ==> m in movies
    requires forall i :: 0 <= i < |ps| ==>
      if ps[i].kind == ClusterPoint then ps[i].meta.None? && i < k
      else exists j :: 0 <= j < |kept| && ps[i].caption == kept[j].title && ps[i].meta == Some(MetaOf(kept[j]))
    ensures forall i :: 0 <= i < |ps| ==>
      if ps[i].kind == ClusterPoint then ps[i].meta.None? && i < k
      else exists m :: m in movies && ps[i].caption == m.title && ps[i].meta == Some(MetaOf(m))
  {
    forall i | 0 <= i < |ps| && ps[i].kind != ClusterPoint
      ensures exists m :: m in movies && ps[i].caption == m.title && ps[i].meta == Some(MetaOf(m))
    {
      var j :| 0 <= j < |kept| && ps[i].caption == kept[j].title && ps[i].meta == Some(MetaOf(kept[j]));
      assert kept[j] in kept;
    }
  }

  /** When every movie has an embedding, the two pictures are the same:
      the unfiltered list and the filtered one coincide. */
  lemma AsWrittenAgreesWhenAllFound(profile: UserProfile, technique: string, textOf: Movie -> string, lookup: Lookup, reducers: Reducers)
    requires forall m :: m in UniqueMovies(MovieLists(profile)) ==> lookup(textOf(m)).Some?
    ensures VisualizeAsWritten(profile, technique, textOf, lookup, reducers) == Visualize(profile, technique, textOf, lookup, reducers)
  {
    var movies := UniqueMovies(MovieLists(profile));
    var texts := MapSeq(movies, textOf);
    forall i | 0 <= i < |texts| ensures lookup(texts[i]).Some? {
      assert movies[i] in movies;
    }
    AllFoundKeepsMovies(texts, movies, lookup);
  }

  /** With every text found, the movies with an embedding are all the movies. */
  lemma AllFoundKeepsMovies(texts: seq<string>, movies: seq<Movie>, lookup: Lookup)
    requires |texts| == |movies|
    requires forall i :: 0 <= i < |texts| ==> lookup(texts[i]).Some?
    ensures EmbeddedMovies(texts, movies, lookup) == movies
  {
    if |texts| > 0 {
      var es := MapSeq(texts, lookup);
      var z := Zip(movies, es);
      FilterKeepsAll(z, Found);
      assert FoundPairs(movies, es) == z;
      var r := MapSeq(z, PairMovie);
      assert forall i :: 0 <= i < |r| ==> r[i] == movies[i];
    }
  }

  const MovieA := Movie(None, "A", 2000, 90, [], [], None, None)
  const MovieB := Movie(None, "B", 2010, 100, [], [], None, None)
  const VectorB: Vector := [1.0, 1.0]

  /** Two movies in one cluster; the first has no embedding. */
  function Example(): UserProfile
  {
    UserProfile("u", [Cluster(Embedding([0.0, 0.0]), [MovieA, MovieB], 4.5, 2)], [])
  }

  function ExampleLookup(t: string): Option<Embedding>
  {
    if t == "B" then Some(Embedding(VectorB)) else None
  }

  lemma ExampleUnique()
    ensures UniqueMovies(MovieLists(Example())) == [MovieA, MovieB]
  {
    var ms := [MovieA, MovieB];
    var lists := MovieLists(Example());
    assert lists == [Some(ms)];
    assert MapSeq(lists, OrEmpty) == [ms];
    assert Flatten([ms]) == ms + Flatten([]);
    assert AllMovies(lists) == ms;
    assert ms[..1] == [MovieA] && [MovieA][..0] == [];
    assert DistinctBy([MovieA], Title) == [MovieA];
    assert KeySeq([MovieA], Title) == ["A"];
    assert ms[..|ms| - 1] == [MovieA];
  }

  lemma ExampleFound()
    ensures MapSeq(["A", "B"], ExampleLookup) == [None, Some(Embedding(VectorB))]
    ensures FoundPairs([MovieA, MovieB], [None, Some(Embedding(VectorB))]) == [(MovieB, Some(Embedding(VectorB)))]
  {
    var es := [None, Some(Embedding(VectorB))];
    var z := Zip([MovieA, MovieB], es);
    assert z == [(MovieA, es[0]), (MovieB, es[1])];
    assert z[1..] == [(MovieB, es[1])] && z[1..][1..] == [];
    assert !Found(z[0]) && Found(z[1..][0]);
    assert Filter(z[1..][1..], Found) == [];
    assert Filter(z[1..], Found) == [(MovieB, es[1])] + [];
  }

  lemma ExampleEmbeddings()
    ensures MapSeq([MovieA, MovieB], Title) == ["A", "B"]
    ensures MovieEmbeddings(["A", "B"], [MovieA, MovieB], ExampleLookup) == ([Embedding(VectorB)], ["B"])
    ensures EmbeddedMovies(["A", "B"], [MovieA, MovieB], ExampleLookup) == [MovieB]
  {
    var es := MapSeq(["A", "B"], ExampleLookup);
    ExampleFound();
    assert MapSeq([(MovieB, es[1])], PairTitle) == ["B"];
    assert MapSeq([(MovieB, es[1])], PairMovie) == [MovieB];
    assert es[1..] == [Some(Embedding(VectorB))] && es[1..][1..] == [];
    assert Present(es) == [Embedding(VectorB)];
  }

  lemma ExampleStack()
    ensures Stack([[0.0, 0.0]], [Embedding(VectorB)]) == Ok([[0.0, 0.0], VectorB])
    ensures Reduce([[0.0, 0.0], VectorB], "tsne", Reducers(x => x, x => x, x => x)) == Ok([[0.0, 0.0], VectorB])
  {
    assert Vectors([Embedding(VectorB)]) == [VectorB];
    assert [[0.0, 0.0]] + [VectorB] == [[0.0, 0.0], VectorB];
    assert |VectorB| == 2;
    assert RowsAgree([[0.0, 0.0], VectorB]);
  }

  /** The two points of the example, given the movie list their details are
      drawn from. */
  lemma ExamplePoints(movies: seq<Movie>)
    requires |movies| > 0
    ensures BuildPoints([[0.0, 0.0], VectorB], ["Cluster 1", "B"], [ClusterPoint, MoviePoint], movies, 1)
      == Ok([Point(0.0, 0.0, "Cluster 1", ClusterPoint, None), Point(1.0, 1.0, "B", MoviePoint, Some(MetaOf(movies[0])))])
  {
    var coords := [[0.0, 0.0], VectorB];
    var labels := ["Cluster 1", "B"];
    var types := [ClusterPoint, MoviePoint];
    var p0 := Point(0.0, 0.0, "Cluster 1", ClusterPoint, None);
    var p1 := Point(1.0, 1.0, "B", MoviePoint, Some(MetaOf(movies[0])));
    assert Min3(|coords|, |labels|, |types|) == 2;
    assert VectorB[0] == 1.0 && VectorB[1] == 1.0;
    assert PyIndex(movies, 0) == Some(movies[0]);
    assert PointsFrom(coords, labels, types, movies, 1, 2) == Ok([]);
    assert PointAt(coords, labels, types, movies, 1, 1) == Ok(p1);
    assert [p1] + [] == [p1];
    assert PointsFrom(coords, labels, types, movies, 1, 1) == Ok([p1]);
    assert PointAt(coords, labels, types, movies, 1, 0) == Ok(p0);
    assert PointsFrom(coords, labels, types, movies, 1, 0) == Ok([p0] + [p1]);
    assert [p0] + [p1] == [p0, p1];
    assert BuildPoints(coords, labels, types, movies, 1) == Ok([p0, p1]);
  }

  lemma ExampleLabels()
    ensures ClusterLabels(1) + ["B"] == ["Cluster 1", "B"]
    ensures PointTypes(1, 1) == [ClusterPoint, MoviePoint]
  {
    assert DigitChar(1) == '1';
    assert NatToString(1) == "1";
    assert ClusterLabels(1)[0] == "Cluster 1";
    assert ClusterLabels(1) == ["Cluster 1"];
  }

  lemma ExampleAssemble(details: seq<Movie>)
    requires |details| > 0
    ensures Assemble([[0.0, 0.0]], [Embedding(VectorB)], ["B"], details, "tsne", Reducers(x => x, x => x, x => x))
      == Ok([Point(0.0, 0.0, "Cluster 1", ClusterPoint, None), Point(1.0, 1.0, "B", MoviePoint, Some(MetaOf(details[0])))])
  {
    ExampleStack();
    ExampleLabels();
    ExamplePoints(details);
  }

  /** As written, the point labelled "B" shows the year and duration of
      "A", the movie whose embedding was missing. */
  lemma MisalignedMetadata()
    ensures VisualizeAsWritten(Example(), "tsne", Title, ExampleLookup, Reducers(x => x, x => x, x => x))
      == Ok([Point(0.0, 0.0, "Cluster 1", ClusterPoint, None), Point(1.0, 1.0, "B", MoviePoint, Some(Meta(2000, [], None, 90)))])
  {
    ExampleUnique();
    ExampleEmbeddings();
    assert MapSeq(Example().clusters, (c: Cluster) => c.centroid.vector) == [[0.0, 0.0]];
    ExampleAssemble([MovieA, MovieB]);
  }

  /** The corrected picture shows the details of "B" at the point labelled
      "B". */
  lemma AlignedMetadata()
    ensures Visualize(Example(), "tsne", Title, ExampleLookup, Reducers(x => x, x => x, x => x))
      == Ok([Point(0.0, 0.0, "Cluster 1", ClusterPoint, None), Point(1.0, 1.0, "B", MoviePoint, Some(Meta(2010, [], None, 100)))])
  {
    ExampleUnique();
    ExampleEmbeddings();
    assert MapSeq(Example().clusters, (c: Cluster) => c.centroid.vector) == [[0.0, 0.0]];
    ExampleAssemble([MovieB]);
  }
}

=== FILE: weighting.dfy ===
/** Per-item importance weight (backend/utils/weighting.py): a rating factor
    `0.15 + 0.85 * ((rating - 1) / 9) ** 1.5` times a piecewise-linear
    recency factor of the watch year. */
module Weighting {
  import opened Results

  /** A calendar date as produced by `datetime.fromisoformat`. */
  datatype Date = Date(year: int, month: int, day: int)

  /** `pow` is the real power `x ** 1.5` on non-negative reals: it is
      non-negative and its square is the cube of its argument. The model
      takes it as a parameter with this characterisation. */
  ghost predicate IsPow15(pow: real -> real)
  {
    forall x :: 0.0 <= x ==> 0.0 <= pow(x) && pow(x) * pow(x) == x * x * x
  }

  lemma MulNonneg(x: real, y: real)
    requires 0.0 <= x && 0.0 <= y
    ensures 0.0 <= x * y
  {
  }

  lemma MulPos(x: real, y: real)
    requires 0.0 < x && 0.0 < y
    ensures 0.0 < x * y
  {
  }

  lemma SquareStrictlyMonotone(a: real, b: real)
    requires 0.0 <= b < a
    ensures b * b < a * a
  {
    var d := a - b;
    MulNonneg(b, d);
    MulPos(a, d);
    var aa := a * a;
    var bb := b * b;
    assert b * d == b * a - bb;
    assert a * d == aa - a * b;
  }

  lemma CubeMonotone(x: real, y: real)
    requires 0.0 <= x <= y
    ensures x * x * x <= y * y * y
  {
    MulNonneg(x, y - x);
    MulNonneg(y, y - x);
    var xx := x * x;
    var yy := y * y;
    assert xx <= x * y <= yy;
    MulNonneg(x, yy - xx);
    MulNonneg(yy, y - x);
    assert x * xx <= x * yy <= y * yy;
    assert x * x * x == x * xx;
    assert y * y * y == y * yy;
  }

  lemma Pow15Anchors(pow: real -> real)
    requires IsPow15(pow)
    ensures pow(0.0) == 0.0 && pow(1.0) == 1.0
  {
    var z := pow(0.0);
    assert z * z == 0.0;
    if z > 0.0 { SquareStrictlyMonotone(z, 0.0); }
    var p := pow(1.0);
    assert p * p == 1.0;
    if p < 1.0 { SquareStrictlyMonotone(1.0, p); }
    if p > 1.0 { SquareStrictlyMonotone(p, 1.0); }
  }

  lemma Pow15Monotone(pow: real -> real, x: real, y: real)
    requires IsPow15(pow)
    requires 0.0 <= x <= y
    ensures pow(x) <= pow(y)
  {
    if pow(x) > pow(y) {
      SquareStrictlyMonotone(pow(x), pow(y));
      CubeMonotone(x, y);
      assert false;
    }
  }

  /** `rating_weight`: `None` stands for the complex number Python produces
      when a rating below 1 is raised to the power 1.5. */
  function RatingWeight(rating: real, pow: real -> real): (w: Option<real>)
    ensures w.Some? <==> rating >= 1.0
  {
    if rating < 1.0 then None else Some(0.15 + 0.85 * pow((rating - 1.0) / 9.0))
  }

  /** The rating factor runs from 0.15 at rating 1 to 1.0 at rating 10. */
  lemma RatingWeightAnchors(pow: real -> real)
    requires IsPow15(pow)
    ensures RatingWeight(1.0, pow) == Some(0.15)
    ensures RatingWeight(10.0, pow) == Some(1.0)
  {
    Pow15Anchors(pow);
  }

  /** On the rating scale 1..10 the factor is non-decreasing and stays in
      [0.15, 1.0]; above 1 it never drops below 0.15. */
  lemma RatingWeightMonotone(pow: real -> real, r1: real, r2: real)
    requires IsPow15(pow)
    requires 1.0 <= r1 <= r2
    ensures RatingWeight(r1, pow).value <= RatingWeight(r2, pow).value
    ensures 0.15 <= RatingWeight(r1, pow).value
    ensures r2 <= 10.0 ==> RatingWeight(r2, pow).value <= 1.0
  {
    Pow15Anchors(pow);
    Pow15Monotone(pow, 0.0, (r1 - 1.0) / 9.0);
    Pow15Monotone(pow, (r1 - 1.0) / 9.0, (r2 - 1.0) / 9.0);
    if r2 <= 10.0 {
      Pow15Monotone(pow, (r2 - 1.0) / 9.0, 1.0);
    }
  }

  /** `recency_weight`: depends on the watch year only; `now` is unused. */
  function RecencyWeight(watched: Date, now: Date): (w: real)
    ensures 0.3 <= w <= 1.0
  {
    var year := watched.year;
    if year >= 2020 then 1.0
    else if year >= 1990 then 0.85 + 0.15 * ((year - 1990) as real / 30.0)
    else if year >= 1975 then 0.3 + 0.55 * ((year - 1975) as real / 15.0)
    else 0.3
  }

  /** Full weight from 2020 on, the floor below 1975, and the adjacent
      linear pieces meet at their anchor years. */
  lemma RecencyAnchors(now: Date)
    ensures forall d: Date :: d.year >= 2020 ==> RecencyWeight(d, now) == 1.0
    ensures forall d: Date :: d.year < 1975 ==> RecencyWeight(d, now) == 0.3
    ensures RecencyWeight(Date(1990, 1, 1), now) == 0.85
    ensures RecencyWeight(Date(1975, 1, 1), now) == 0.3
    ensures 0.85 + 0.15 * ((2020 - 1990) as real / 30.0) == 1.0
    ensures 0.3 + 0.55 * ((1990 - 1975) as real / 15.0) == 0.85
  {
  }

  lemma RecencyMonotone(d1: Date, d2: Date, now: Date)
    requires d1.year <= d2.year
    ensures RecencyWeight(d1, now) <= RecencyWeight(d2, now)
  {
  }

  /** Only the watched year matters: not the month or day, and not `now`. */
  lemma RecencyOnlyYear(d1: Date, d2: Date, now1: Date, now2: Date)
    requires d1.year == d2.year
    ensures RecencyWeight(d1, now1) == RecencyWeight(d2, now2)
  {
  }

  /** The per-item weight of `cluster`: rating factor times recency factor. */
  function ItemWeight(rating: real, watched: Date, now: Date, pow: real -> real): Option<real>
  {
    match RatingWeight(rating, pow)
    case None => None
    case Some(rw) => Some(rw * RecencyWeight(watched, now))
  }

  /** For ratings in 1..10 the weight lies in [0.045, 1.0], so it is positive. */
  lemma ItemWeightBounds(rating: real, watched: Date, now: Date, pow: real -> real)
    requires IsPow15(pow)
    requires 1.0 <= rating
    ensures ItemWeight(rating, watched, now, pow).Some?
    ensures 0.045 <= ItemWeight(rating, watched, now, pow).value
    ensures rating <= 10.0 ==> ItemWeight(rating, watched, now, pow).value <= 1.0
  {
    RatingWeightMonotone(pow, rating, rating);
    var rw := RatingWeight(rating, pow).value;
    var cw := RecencyWeight(watched, now);
    assert 0.15 * 0.3 <= rw * cw by {
      MulNonneg(rw, cw - 0.3);
      assert 0.15 * 0.3 <= rw * 0.3 <= rw * cw;
    }
    if rating <= 10.0 {
      MulNonneg(1.0 - rw, cw);
      assert rw * cw <= 1.0 * cw;
    }
  }
}
